=== FILE: README.md ===
# SimpleDB storage and query core, in Dafny

A model of the core of SimpleDB, a teaching database server written in Java:

- the page and the buffer pool;
- the lock table and each transaction's concurrency manager;
- the recovery manager with its log records and non-quiescent checkpoints;
- the transaction that coordinates all of these;
- the record layout of a table and the records of one block, with per-field null bits;
- the predicate term with its null constant;
- the union and rename scans and plans.

Every operation is a pure function. It takes the state it reads and returns the new state, plus what it asked of collaborators the model does not contain, as a list of events (log appends and forces, buffer flushes, lock calls, page I/O).

| module | file | models |
|---|---|---|
| `Base` | base.dfy | Java `int` (`Int32`, `Wrap32`), `char`/`String` as UTF-16 code units, `Block`, `List.remove(Object)` |
| `JStrings` | strings.dfy | `String.compareTo`, `String.split`, joining with a separator |
| `Decimal` | decimal.dfy | `Integer.toString` and `Integer.valueOf` |
| `Page` | page.dfy | `simpledb.file.Page`: a 400-byte page, big-endian ints, 2-byte chars with a `'\0'` terminator |
| `Buffer` | buffer.dfy | `simpledb.buffer.Buffer`: one frame, its pins and dirty state, write-ahead flushing |
| `BufferMgr` | buffermgr.dfy | `simpledb.buffer.BasicBufferMgr`: the frame array, the block map and the FIFO queue of unpinned frames |
| `LogRecords` | logrecord.dfy | the seven log record kinds, their fields in the log, `LogRecordIterator.next`, the NQ checkpoint's text list |
| `Recovery` | recovery.dfy | undo, `doRollback`, `doRecover` over a store of ints and strings |
| `RecoveryMgr` | recoverymgr.dfy | `simpledb.tx.recovery.RecoveryMgr` over a log that separates appended from forced records |
| `LockTable` | locktable.dfy | `simpledb.tx.concurrency.LockTable`: wait-die with `Grant`/`Wait`/`Abort` decisions |
| `Concurrency` | concurrency.dfy | `simpledb.tx.concurrency.ConcurrencyMgr` |
| `Transaction` | transaction.dfy | `simpledb.tx.Transaction`: ids, checkpoint every fifth transaction, locked reads and logged writes |
| `TableInfo` | tableinfo.dfy | `simpledb.record.TableInfo`: offsets, record length, null-bit positions |
| `FlagBits` | flagbits.dfy | `getBitVal`/`setBitVal` of `RecordPage` on a 32-bit flag word |
| `RecordPage` | recordpage.dfy | `simpledb.record.RecordPage` over the block's page |
| `Term` | term.dfy | `simpledb.query.Term`, constants including `NullConstant` |
| `Scans` | scans.dfy | `UnionScan` and `RenameScan` over row-sequence leaves |
| `Plans` | plans.dfy | `UnionPlan` and `RenamePlan` over stored leaves |

Five behaviours of the code that the model keeps as written:

- Rollback flushes the transaction's buffers first and then undoes its records (`RecoveryMgr.java:23-28`).
- Recovery treats only a COMMIT as finished: the records of a transaction that logged ROLLBACK are undone again (`RecoveryMgr.java:87-95`).
- After an NQ checkpoint, recovery stops at the START of the last listed transaction still awaited (`RecoveryMgr.java:89-92`).
- `RecoveryMgr.recover` writes its checkpoint without a flush of its own. `Transaction.recover` flushes before calling it (`Transaction.java:92-95`).
- An exclusive lock is added next to the holder's shared lock, so an X-locked block's list is `[t, -t]` (`LockTable.java:79`).

## Model

Paths are relative to the repository root.

| member | source | states |
|---|---|---|
| Base.RemoveFirst | SimpleDBServer/src/simpledb/tx/concurrency/LockTable.java:94 | `List.remove(Object)` removes one occurrence of the value when present (multiset minus one copy, length one less) and leaves the list alone otherwise |
| Base.RemoveFirstDistinct | SimpleDBServer/src/simpledb/tx/Transaction.java:65 | removing an id from a list without repeats removes it altogether and keeps the list repeat-free |
| JStrings.CompareToZero | SimpleDBServer/src/simpledb/record/TableInfo.java:42-46 | `compareTo` is 0 exactly for equal strings |
| JStrings.CompareToAntisymmetric | SimpleDBServer/src/simpledb/record/TableInfo.java:42-46 | swapping the operands of `compareTo` negates it |
| JStrings.LessTransitive | SimpleDBServer/src/simpledb/record/TableInfo.java:42-46 | the TreeMap key order is transitive |
| JStrings.LessTotal | SimpleDBServer/src/simpledb/record/TableInfo.java:42-46 | of two different strings exactly one sorts first |
| JStrings.SplitJoin | SimpleDBServer/src/simpledb/tx/recovery/NQCheckpointRecord.java:49-69 | `split` on the separator undoes joining non-empty, separator-free parts with it |
| Decimal.IntToString | SimpleDBServer/src/simpledb/tx/recovery/NQCheckpointRecord.java:52-54 | an int's text is non-empty, has no space, and is digits with an optional leading minus |
| Decimal.ParseInt | SimpleDBServer/src/simpledb/tx/recovery/NQCheckpointRecord.java:67 | succeeds only on digits after an optional `+` or `-`, giving their value, negated after a minus; succeeds on every such text whose value is an int, and fails on unsigned digits beyond `MAX_VALUE` |
| Decimal.ParseIntToString | SimpleDBServer/src/simpledb/tx/recovery/NQCheckpointRecord.java:49-69 | `Integer.valueOf(Integer.toString(i)) == i` for every Java int |
| Page.IntBytesRoundTrip | SimpleDBServer/src/simpledb/file/Page.java:130-150 | the four big-endian bytes `putInt` writes read back with `getInt` as the same int |
| Page.GetInt | SimpleDBServer/src/simpledb/file/Page.java:130-140 | an offset whose four bytes leave the page reads 0 (the caught exception); otherwise the big-endian int there |
| Page.SetInt | SimpleDBServer/src/simpledb/file/Page.java:147-150 | succeeds exactly when the four bytes fit; then `getInt` at the offset returns the value; no byte outside them changes |
| Page.PutChars | SimpleDBServer/src/simpledb/file/Page.java:174-178 | the chars land at successive two-byte positions; the write completes exactly when all fit; nothing outside them changes |
| Page.SetString | SimpleDBServer/src/simpledb/file/Page.java:174-181 | completes exactly when the chars and terminator fit; nothing outside them changes; a string without `'\0'` then reads back |
| Page.GetString | SimpleDBServer/src/simpledb/file/Page.java:159-167 | a string read has no `'\0'` and lies, with its terminator, inside the page |
| Page.ReadCharsOf | SimpleDBServer/src/simpledb/file/Page.java:159-167 | chars followed by a terminator are read back as exactly those chars |
| Page.PutCharsReadBack | SimpleDBServer/src/simpledb/file/Page.java:159-181 | what `setString` lays down, `getString` reads back |
| Page.GetIntLocal | SimpleDBServer/src/simpledb/file/Page.java:130-140 | `getInt` depends on its four bytes only |
| Page.GetStringLocal | SimpleDBServer/src/simpledb/file/Page.java:159-167 | `getString` depends on the bytes of its string and terminator only |
| Buffer.SetInt | SimpleDBServer/src/simpledb/buffer/Buffer.java:34-38 | records the modifying transaction and lsn, keeps block and pins, and writes the int readable at the offset with no other byte changed |
| Buffer.SetString | SimpleDBServer/src/simpledb/buffer/Buffer.java:40-44 | the same for a string and its terminator |
| Buffer.Flush | SimpleDBServer/src/simpledb/buffer/Buffer.java:50-56 | a dirty frame forces the log up to its lsn before writing its page, then is clean with `modifiedBy` reset to -1; a clean frame does nothing; block, contents and pins are kept |
| Buffer.GetInt | SimpleDBServer/src/simpledb/buffer/Buffer.java:26-28 | `getInt`: the page's int at the offset; that a written int reads back is stated by `Buffer.SetInt` |
| Buffer.GetString | SimpleDBServer/src/simpledb/buffer/Buffer.java:30-32 | `getString`: the page's string at the offset; that a written string reads back is stated by `Buffer.SetString` |
| Buffer.IsPinned | SimpleDBServer/src/simpledb/buffer/Buffer.java:66-68 | `isPinned`: pinned exactly while the count is positive; how pins change it is stated by `Buffer.Pin` and `Buffer.Unpin` |
| Buffer.IsModifiedBy | SimpleDBServer/src/simpledb/buffer/Buffer.java:70-72 | `isModifiedBy`: the frame's last writer; that a flush makes the frame modified by no transaction is stated by `Buffer.Flush` |
| Buffer.Pin | SimpleDBServer/src/simpledb/buffer/Buffer.java:58-60 | one more pin and nothing else changes |
| Buffer.Unpin | SimpleDBServer/src/simpledb/buffer/Buffer.java:62-64 | one pin fewer and nothing else changes; pinned exactly while pins stay positive |
| Buffer.AssignToBlock | SimpleDBServer/src/simpledb/buffer/Buffer.java:74-79 | flushes the old contents (write-ahead), then holds the block's contents, unpinned and clean |
| Buffer.AssignToNew | SimpleDBServer/src/simpledb/buffer/Buffer.java:81-86 | flushes, formats the page and appends it as a new block of the file, unpinned and clean |
| BufferMgr.Create | SimpleDBServer/src/simpledb/buffer/BasicBufferMgr.java:33-39 | `n` fresh frames, an empty map, and every frame queued in index order |
| BufferMgr.ChooseUnpinned | SimpleDBServer/src/simpledb/buffer/BasicBufferMgr.java:133-140 | the first queued frame that is not pinned, with the queue after it remaining; `null` only when every queued frame is pinned, and then the queue is drained |
| BufferMgr.Pin | SimpleDBServer/src/simpledb/buffer/BasicBufferMgr.java:61-72 | a mapped block's frame gains a pin with no I/O; otherwise the chosen frame is mapped to the block, holds its contents with one pin, and only it changes; `null` leaves the frames untouched; all I/O is write-ahead |
| BufferMgr.PinNew | SimpleDBServer/src/simpledb/buffer/BasicBufferMgr.java:83-92 | the chosen frame holds the formatted page as the new block with one pin, and the map sends the new block to it; the I/O is exactly `assignToNew`'s: the victim's write-ahead flush, then the append of the formatted page |
| BufferMgr.Unpin | SimpleDBServer/src/simpledb/buffer/BasicBufferMgr.java:98-103 | one pin fewer; the frame is queued when its pins reach 0; keeps every unpinned frame queued and every map entry accurate |
| BufferMgr.FlushAll | SimpleDBServer/src/simpledb/buffer/BasicBufferMgr.java:45-50 | each frame the transaction modified is flushed and no other frame changes; the I/O is those frames' flushes in array order (`FlushTrace`); afterwards no frame is dirty for the transaction; blocks, contents, pins, map and queue are kept |
| BufferMgr.FlushFromTrace | SimpleDBServer/src/simpledb/buffer/BasicBufferMgr.java:45-50 | the loop from any index issues exactly the flushes of the modified frames from there on, in order |
| BufferMgr.CreateCovers | SimpleDBServer/src/simpledb/buffer/BasicBufferMgr.java:33-39 | every unpinned frame of a new pool is in the queue |
| BufferMgr.PinCovers | SimpleDBServer/src/simpledb/buffer/BasicBufferMgr.java:61-72 | `pin` keeps every unpinned frame in the queue |
| BufferMgr.PinNewCovers | SimpleDBServer/src/simpledb/buffer/BasicBufferMgr.java:83-92 | `pinNew` keeps every unpinned frame in the queue |
| BufferMgr.ChooseKeepsUnpinned | SimpleDBServer/src/simpledb/buffer/BasicBufferMgr.java:133-140 | a queued unpinned frame guarantees a choice, and it stays queued if it is not the one chosen |
| BufferMgr.PinNoneIffNoneAvailable | SimpleDBServer/src/simpledb/buffer/BasicBufferMgr.java:61-72 | pinning an unmapped block fails exactly when no frame is unpinned |
| BufferMgr.Available | SimpleDBServer/src/simpledb/buffer/BasicBufferMgr.java:109-111 | `available`: the queue length; stated by `AvailableOvercounts` (it can exceed the frames) and `PinNoneIffNoneAvailable` |
| BufferMgr.AvailableOvercounts | SimpleDBServer/src/simpledb/buffer/BasicBufferMgr.java:98-111 | as written, a one-frame pool can report two available buffers |
| BufferMgr.AvailableFixed | SimpleDBServer/src/simpledb/buffer/BasicBufferMgr.java:109-111 | the number of unpinned frames, never more than the pool size |
| BufferMgr.StaleMapEntry | SimpleDBServer/src/simpledb/buffer/BasicBufferMgr.java:61-72 | as written, re-pinning a block whose frame was reassigned returns the frame holding the other block |
| BufferMgr.Evict | SimpleDBServer/src/simpledb/buffer/BasicBufferMgr.java:67 | drops exactly the map entry of the frame's old block |
| BufferMgr.PinFixed | SimpleDBServer/src/simpledb/buffer/BasicBufferMgr.java:61-72 | `pin` with the old block's entry removed: the same frames, queue and I/O, every map entry accurate, and the pinned frame holds the requested block |
| BufferMgr.PinNewFixed | SimpleDBServer/src/simpledb/buffer/BasicBufferMgr.java:83-92 | `pinNew` with the old block's entry removed: every map entry accurate, and the pinned frame holds the new block |
| LogRecords.TxNumber | SimpleDBServer/src/simpledb/tx/recovery/NQCheckpointRecord.java:80-82 | checkpoints of both kinds answer -1; every other record answers its transaction |
| LogRecords.Stringfy | SimpleDBServer/src/simpledb/tx/recovery/NQCheckpointRecord.java:49-56 | fails exactly on an empty list (`get(-1)` throws); otherwise non-empty text that neither starts nor ends with a space |
| LogRecords.Texts | SimpleDBServer/src/simpledb/tx/recovery/NQCheckpointRecord.java:51-54 | one `Integer.toString` text per id, in order |
| LogRecords.ParseAll | SimpleDBServer/src/simpledb/tx/recovery/NQCheckpointRecord.java:66-68 | succeeds exactly when every piece is an int, giving their values in order |
| LogRecords.Listfy | SimpleDBServer/src/simpledb/tx/recovery/NQCheckpointRecord.java:63-70 | one Java int per piece of the split text |
| LogRecords.ListfyStringfy | SimpleDBServer/src/simpledb/tx/recovery/NQCheckpointRecord.java:49-70 | reading back the text of a non-empty list of ints gives the same list |
| LogRecords.NQToString | SimpleDBServer/src/simpledb/tx/recovery/NQCheckpointRecord.java:90-92 | `<NQCHECKPOINT ` + the list text + `>`, failing on an empty list |
| LogRecords.Encode | SimpleDBServer/src/simpledb/tx/recovery/NQCheckpointRecord.java:36-41 | a record's fields in the log start with its opcode; only an NQ checkpoint of no transactions cannot be written |
| LogRecords.Decode | SimpleDBServer/src/simpledb/tx/recovery/LogRecordIterator.java:15-38 | an opcode outside 0..6 gives `null`; a decoded record has the opcode it was read with |
| LogRecords.DecodeEncode | SimpleDBServer/src/simpledb/tx/recovery/LogRecordIterator.java:15-38 | every record that can be written is read back as itself |
| Recovery.Undo | SimpleDBServer/src/simpledb/tx/recovery/RecoveryMgr.java:62 | an update record puts its old value back in its slot and touches nothing else; other records change nothing |
| Recovery.ApplyUndos | SimpleDBServer/src/simpledb/tx/recovery/RecoveryMgr.java:57-64 | a slot no undone record names keeps its value |
| Recovery.NewestFirst | SimpleDBServer/src/simpledb/tx/recovery/LogRecordIterator.java:9-16 | the iterator yields the log's records newest first |
| Recovery.ReadLog | SimpleDBServer/src/simpledb/tx/recovery/LogRecordIterator.java:11-38 | the k-th record read is the decoding of the k-th newest raw record |
| Recovery.ReadWrittenLog | SimpleDBServer/src/simpledb/tx/recovery/LogRecordIterator.java:11-38 | reading back a written log gives its records, newest first |
| Recovery.DoRollback | SimpleDBServer/src/simpledb/tx/recovery/RecoveryMgr.java:55-65 | the result is the undone records applied in order; each belongs to the transaction and none is its START |
| Recovery.OwnRecordsOf | SimpleDBServer/src/simpledb/tx/recovery/RecoveryMgr.java:55-65 | rollback undoes exactly the transaction's records newer than its START |
| Recovery.RollbackFrame | SimpleDBServer/src/simpledb/tx/recovery/RecoveryMgr.java:55-65 | a slot none of those records names keeps its value |
| Recovery.RollbackPointwise | SimpleDBServer/src/simpledb/tx/recovery/RecoveryMgr.java:55-65 | a slot's value after rollback depends only on its value before |
| Recovery.RemoveAll | SimpleDBServer/src/simpledb/tx/recovery/RecoveryMgr.java:79-81 | keeps every listed id not seen committing, and adds none |
| Recovery.RecoverStep | SimpleDBServer/src/simpledb/tx/recovery/RecoveryMgr.java:72-95 | one record: only a non-COMMIT record of a transaction not yet seen committing is undone; a COMMIT adds its id; after stopping nothing changes |
| Recovery.StepCases | SimpleDBServer/src/simpledb/tx/recovery/RecoveryMgr.java:75-93 | a checkpoint stops the scan; an NQ checkpoint starts the wait for its uncommitted ids; each START removes its id and the scan stops when none remains |
| Recovery.DoRecover | SimpleDBServer/src/simpledb/tx/recovery/RecoveryMgr.java:68-96 | `doRecover`: the scan from the newest record; stated by `ScanUndos`, `CheckpointCutoff`, `NQCheckpointStops`, `NQCheckpointCutoff`, `UncommittedUndone`, `NQUncommittedUndone` and `CommitSurvivesRecovery` |
| Recovery.ScanUndos | SimpleDBServer/src/simpledb/tx/recovery/RecoveryMgr.java:68-96 | the recovered store is the original with the undone records applied in scan order |
| Recovery.ScanCommitted | SimpleDBServer/src/simpledb/tx/recovery/RecoveryMgr.java:87-88 | the committed list grows by the COMMIT records scanned, in order |
| Recovery.CheckpointCutoff | SimpleDBServer/src/simpledb/tx/recovery/RecoveryMgr.java:75-76 | records older than a quiescent checkpoint have no effect on recovery |
| Recovery.UndoneUncommitted | SimpleDBServer/src/simpledb/tx/recovery/RecoveryMgr.java:94-95 | every undone record is a non-COMMIT record with no newer COMMIT of its transaction |
| Recovery.UncommittedUndone | SimpleDBServer/src/simpledb/tx/recovery/RecoveryMgr.java:94-95 | before any checkpoint, every such record is undone |
| Recovery.WaitingUndone | SimpleDBServer/src/simpledb/tx/recovery/RecoveryMgr.java:89-95 | while the scan waits for an NQ checkpoint's ids, every record other than a COMMIT or START whose transaction has no newer COMMIT is undone, up to the START that ends the scan |
| Recovery.ScanPlain | SimpleDBServer/src/simpledb/tx/recovery/RecoveryMgr.java:75-93 | without checkpoints the scan neither ends nor starts waiting |
| Recovery.NQUncommittedUndone | SimpleDBServer/src/simpledb/tx/recovery/RecoveryMgr.java:77-95 | past an NQ checkpoint, a record before the START that ends the scan is undone when its transaction has no newer COMMIT |
| Recovery.CommitSurvivesRecovery | SimpleDBServer/src/simpledb/tx/recovery/RecoveryMgr.java:87-95 | a slot written only by a transaction whose COMMIT is newer than all its records keeps its value through recovery |
| Recovery.ScanWaits | SimpleDBServer/src/simpledb/tx/recovery/RecoveryMgr.java:89-93 | after an NQ checkpoint, the ids still awaited are those whose START has not been scanned, unless the scan stopped |
| Recovery.NQCheckpointStops | SimpleDBServer/src/simpledb/tx/recovery/RecoveryMgr.java:77-93 | the scan stops at the START of the last uncommitted transaction the checkpoint listed |
| Recovery.NQCheckpointCutoff | SimpleDBServer/src/simpledb/tx/recovery/RecoveryMgr.java:77-93 | records older than that START have no effect on recovery |
| RecoveryMgr.Begin | SimpleDBServer/src/simpledb/tx/recovery/RecoveryMgr.java:12-15 | appends the transaction's START record, unforced, and changes no data |
| RecoveryMgr.Commit | SimpleDBServer/src/simpledb/tx/recovery/RecoveryMgr.java:17-21 | flushes the transaction's buffers, appends COMMIT and forces the log, so every record is durable |
| RecoveryMgr.Rollback | SimpleDBServer/src/simpledb/tx/recovery/RecoveryMgr.java:23-28 | flushes, undoes the transaction's records newest first, then appends and forces ROLLBACK |
| RecoveryMgr.Recover | SimpleDBServer/src/simpledb/tx/recovery/RecoveryMgr.java:30-35 | runs the recovery scan over the log newest first, then appends and forces a checkpoint |
| RecoveryMgr.IsTempBlock | SimpleDBServer/src/simpledb/tx/recovery/RecoveryMgr.java:108-110 | `isTempBlock`: the file name starts with `temp`; that such blocks are not logged is stated by `RecoveryMgr.SetInt`, `RecoveryMgr.SetString` and `RecoveryMgr.LogAndWrite` |
| RecoveryMgr.SetInt | SimpleDBServer/src/simpledb/tx/recovery/RecoveryMgr.java:37-44 | a temp block is not logged (lsn -1); otherwise a SETINT record with the current value is appended and its position is the lsn |
| RecoveryMgr.SetString | SimpleDBServer/src/simpledb/tx/recovery/RecoveryMgr.java:46-53 | the same for strings |
| RecoveryMgr.NQCheckpoint | SimpleDBServer/src/simpledb/tx/recovery/RecoveryMgr.java:100-106 | appends an NQ checkpoint of the given ids, unforced; an empty list cannot be written |
| RecoveryMgr.LogAndWrite | SimpleDBServer/src/simpledb/tx/recovery/RecoveryMgr.java:37-53 | the slot takes the new value and no other slot changes; a non-temp write logs the transaction, the slot and the value it replaced |
| RecoveryMgr.Perform | SimpleDBServer/src/simpledb/tx/recovery/RecoveryMgr.java:37-53 | after a series of logged writes, unwritten slots are unchanged |
| RecoveryMgr.RollbackAfterWrite | SimpleDBServer/src/simpledb/tx/recovery/RecoveryMgr.java:55-65 | one more logged write by the transaction is undone by its rollback; another transaction's write is not |
| RecoveryMgr.PerformThenRollback | SimpleDBServer/src/simpledb/tx/recovery/RecoveryMgr.java:55-65 | when the transaction has no earlier records and no other transaction writes its slots, rolling back a series of writes restores each non-temp slot it wrote and leaves the others as the writes left them |
| RecoveryMgr.RollbackRestores | SimpleDBServer/src/simpledb/tx/recovery/RecoveryMgr.java:12-28 | begin, writes, rollback: when no other transaction writes its slots, its non-temp slots are back to their values before it began, other slots keep their writes, and ROLLBACK is durable |
| LockTable.AddLock | SimpleDBServer/src/simpledb/tx/concurrency/LockTable.java:51-57 | appends the id to the block's list, creating it when absent; other blocks are untouched |
| LockTable.SLock | SimpleDBServer/src/simpledb/tx/concurrency/LockTable.java:34-49 | granted exactly when no exclusive lock is held, adding the id; aborted exactly when an exclusive lock and an older holder exist; otherwise waits |
| LockTable.XLock | SimpleDBServer/src/simpledb/tx/concurrency/LockTable.java:69-84 | granted exactly when at most one lock is held, adding the negated id; aborted exactly when others hold locks and one is older; otherwise waits |
| LockTable.Unlock | SimpleDBServer/src/simpledb/tx/concurrency/LockTable.java:92-99 | an absent entry fails (NPE); with other holders and no exclusive lock of its own the id is removed once; otherwise the entry goes and waiters are woken |
| LockTable.OldestNeverAborts | SimpleDBServer/src/simpledb/tx/concurrency/LockTable.java:101-107 | a transaction no younger than every holder is never aborted (wait-die) |
| LockTable.SLockKeepsShape | SimpleDBServer/src/simpledb/tx/concurrency/LockTable.java:34-57 | a granted shared lock keeps every list all-shared or `[t, -t]` |
| LockTable.XLockKeepsShape | SimpleDBServer/src/simpledb/tx/concurrency/LockTable.java:69-84 | a granted exclusive lock after the shared one leaves exactly `[t, -t]` |
| LockTable.UnlockKeepsShape | SimpleDBServer/src/simpledb/tx/concurrency/LockTable.java:92-99 | unlocking keeps every list all-shared or `[t, -t]` |
| LockTable.ExclusiveIsAlone | SimpleDBServer/src/simpledb/tx/concurrency/LockTable.java:69-84 | while `t` holds an exclusive lock on a block, no other transaction holds any lock on it |
| Concurrency.New | SimpleDBServer/src/simpledb/tx/concurrency/ConcurrencyMgr.java:20-22 | a manager for the id holding no locks |
| Concurrency.SLock | SimpleDBServer/src/simpledb/tx/concurrency/ConcurrencyMgr.java:28-33 | a block already locked needs no call; otherwise the table's decision is taken and a grant is remembered as S |
| Concurrency.XLock | SimpleDBServer/src/simpledb/tx/concurrency/ConcurrencyMgr.java:41-47 | a held X lock needs no call; otherwise a shared lock, then an exclusive one; on a grant the block is remembered as X |
| Concurrency.SLockKeepsHolds | SimpleDBServer/src/simpledb/tx/concurrency/ConcurrencyMgr.java:28-33 | every lock the manager remembers is in the table afterwards |
| Concurrency.XLockKeepsHolds | SimpleDBServer/src/simpledb/tx/concurrency/ConcurrencyMgr.java:41-47 | the same for exclusive locks |
| Concurrency.NewHeldOnce | SimpleDBServer/src/simpledb/tx/concurrency/ConcurrencyMgr.java:20-22 | a new manager for an id no entry holds has each lock in the table once |
| Concurrency.SLockKeepsHeldOnce | SimpleDBServer/src/simpledb/tx/concurrency/ConcurrencyMgr.java:28-33 | `sLock` keeps the id at most once in each recorded block's entry and out of every entry it has not recorded |
| Concurrency.XLockKeepsHeldOnce | SimpleDBServer/src/simpledb/tx/concurrency/ConcurrencyMgr.java:41-47 | the same for `xLock`, so the held-once condition of `ReleaseFrees` and `Transaction.CommitFrees` holds in every state the lock calls reach |
| Concurrency.UnlockAll | SimpleDBServer/src/simpledb/tx/concurrency/ConcurrencyMgr.java:53-54 | at most one unlock call per listed block, and one for every block when no unlock fails |
| Concurrency.UnlockAllCalls | SimpleDBServer/src/simpledb/tx/concurrency/ConcurrencyMgr.java:53-54 | the calls made unlock the listed blocks in their order, stopping at the first that fails |
| Concurrency.UnlockAllFrameAt | SimpleDBServer/src/simpledb/tx/concurrency/ConcurrencyMgr.java:53-54 | a block not listed keeps its lock-table entry, or its absence |
| Concurrency.Release | SimpleDBServer/src/simpledb/tx/concurrency/ConcurrencyMgr.java:52-56 | unlocks every remembered block, then forgets them all; other blocks are untouched |
| Concurrency.UnlockAllFrees | SimpleDBServer/src/simpledb/tx/concurrency/ConcurrencyMgr.java:52-56 | when the transaction holds each lock once, every unlock succeeds and none of its ids is left |
| Concurrency.ReleaseFrees | SimpleDBServer/src/simpledb/tx/concurrency/ConcurrencyMgr.java:52-56 | `release` succeeds and leaves the table free of the transaction |
| Transaction.Initial | SimpleDBServer/src/simpledb/tx/Transaction.java:19-21 | no ids issued, none active, no locks |
| Transaction.Begin | SimpleDBServer/src/simpledb/tx/Transaction.java:31-51 | the next id; every fifth first writes an NQ checkpoint of the active ids, which fails when there are none; then the id becomes active and its START is logged |
| Transaction.BeginFresh | SimpleDBServer/src/simpledb/tx/Transaction.java:31-43 | a new id is never already active, and the active list stays repeat-free |
| Transaction.IdsCount | SimpleDBServer/src/simpledb/tx/Transaction.java:217-220 | the first two transactions get ids 1 and 2 |
| Transaction.IdsConsecutive | SimpleDBServer/src/simpledb/tx/Transaction.java:217-220 | from any state, a new transaction's id is the counter plus one, so two begun in a row get consecutive ids |
| Transaction.FifthCheckpoints | SimpleDBServer/src/simpledb/tx/Transaction.java:48-51 | starting five transactions logs START 1-4, an NQ checkpoint of [1, 2, 3, 4], then START 5 |
| Transaction.GetInt | SimpleDBServer/src/simpledb/tx/Transaction.java:125-129 | takes a shared lock first; the value is read exactly when it is granted |
| Transaction.GetString | SimpleDBServer/src/simpledb/tx/Transaction.java:140-144 | the same for strings |
| Transaction.Set | SimpleDBServer/src/simpledb/tx/Transaction.java:159-184 | takes an exclusive lock first; on a grant it logs the old value (unless temp), then writes with that lsn |
| Transaction.SetInt | SimpleDBServer/src/simpledb/tx/Transaction.java:159-164 | on a grant the transaction holds an X lock and the slot holds the value; the log changes exactly for non-temp blocks |
| Transaction.SetString | SimpleDBServer/src/simpledb/tx/Transaction.java:179-184 | the same for strings |
| Transaction.SetIntGetInt | SimpleDBServer/src/simpledb/tx/Transaction.java:125-164 | after a granted `setInt`, `getInt` of the slot returns the value with no lock call |
| Transaction.SetStringGetString | SimpleDBServer/src/simpledb/tx/Transaction.java:140-184 | the same for strings |
| Transaction.Finish | SimpleDBServer/src/simpledb/tx/Transaction.java:61-65 | the shared tail of `commit` and `rollback`: release, then leave the active list on success; stated by `Transaction.Commit`, `Transaction.Rollback` and `CommitFrees` |
| Transaction.Commit | SimpleDBServer/src/simpledb/tx/Transaction.java:58-66 | unpins, commits (COMMIT durable), releases the locks, then, if the release succeeded, leaves the active list |
| Transaction.Rollback | SimpleDBServer/src/simpledb/tx/Transaction.java:75-83 | unpins, rolls back (ROLLBACK durable), releases the locks, then, if the release succeeded, leaves the active list |
| Transaction.CommitFrees | SimpleDBServer/src/simpledb/tx/Transaction.java:58-66 | after commit the transaction is inactive and holds no lock anywhere |
| Transaction.Recover | SimpleDBServer/src/simpledb/tx/Transaction.java:92-95 | flushes, then recovers; the log ends with a durable checkpoint |
| Transaction.EndOfFile | SimpleDBServer/src/simpledb/tx/Transaction.java:195 | the end-of-file marker of a file is block -1 |
| Transaction.Size | SimpleDBServer/src/simpledb/tx/Transaction.java:194-198 | takes a shared lock on the end-of-file marker before asking the file size |
| Transaction.Append | SimpleDBServer/src/simpledb/tx/Transaction.java:209-215 | takes an exclusive lock on the end-of-file marker, then pins a new block and unpins it |
| Transaction.AppendExcludesSize | SimpleDBServer/src/simpledb/tx/Transaction.java:194-215 | while one transaction holds the marker exclusively, another's `size` is not granted |
| TableInfo.PutOffsetsKeys | SimpleDBServer/src/simpledb/record/TableInfo.java:32-37 | the offset map has exactly the schema's field names |
| TableInfo.PutOffsetsValues | SimpleDBServer/src/simpledb/record/TableInfo.java:32-37 | each field's offset is the total length of the fields before it |
| TableInfo.FieldsDisjoint | SimpleDBServer/src/simpledb/record/TableInfo.java:32-38 | a field ends before any later field starts |
| TableInfo.LengthInBytes | SimpleDBServer/src/simpledb/record/TableInfo.java:110-116 | `lengthInBytes`: a positive byte length per field type; the offsets it yields are stated by `PutOffsetsValues` and `FieldsDisjoint` |
| TableInfo.BitPosition | SimpleDBServer/src/simpledb/record/TableInfo.java:42-46 | the bit the constructor numbers a field with; stated by `BitLocs`, `BitPositionRange`, `BitPositionInjective` and `AscendingRank` |
| TableInfo.BitLocs | SimpleDBServer/src/simpledb/record/TableInfo.java:42-46 | each field's bit is one more than the number of names that sort before it |
| TableInfo.BitPositionRange | SimpleDBServer/src/simpledb/record/TableInfo.java:42-46 | bit positions lie in 1..(number of fields) |
| TableInfo.BitPositionInjective | SimpleDBServer/src/simpledb/record/TableInfo.java:42-46 | two fields never share a bit |
| TableInfo.AscendingRank | SimpleDBServer/src/simpledb/record/TableInfo.java:42-46 | the k-th name in sorted order gets bit k+1 |
| TableInfo.AssignBitLocs | SimpleDBServer/src/simpledb/record/TableInfo.java:42-46 | the counting loop over the sorted keys assigns exactly those ranks |
| TableInfo.Create | SimpleDBServer/src/simpledb/record/TableInfo.java:28-47 | the record length is the total field length, and the bits are the ranks of the offset keys |
| TableInfo.CreateOffsets | SimpleDBServer/src/simpledb/record/TableInfo.java:28-38 | the offsets have exactly the schema's names, each at its prefix length |
| TableInfo.FromCatalog | SimpleDBServer/src/simpledb/record/TableInfo.java:59-73 | keeps the given offsets and length, with bits ranked over the offsets' names |
| TableInfo.CatalogRoundTrip | SimpleDBServer/src/simpledb/record/TableInfo.java:28-73 | rebuilding from a layout's own offsets and length gives the same layout and bits |
| TableInfo.FileName | SimpleDBServer/src/simpledb/record/TableInfo.java:81-83 | the table name followed by `.tbl` |
| TableInfo.BitPositionOf | SimpleDBServer/src/simpledb/record/TableInfo.java:119-121 | a field's bit, defined exactly for the fields with one |
| FlagBits.GetBitVal | SimpleDBServer/src/simpledb/record/RecordPage.java:206-208 | as written: the bit for a non-negative word, and minus the bit for a negative one |
| FlagBits.GetBit | SimpleDBServer/src/simpledb/record/RecordPage.java:206-208 | the bit at the shift distance Java uses, always 0 or 1 |
| FlagBits.SetBitSpec | SimpleDBServer/src/simpledb/record/RecordPage.java:211-217 | the bit written reads back and the other 31 bits are unchanged |
| FlagBits.SetBitKeepsSign | SimpleDBServer/src/simpledb/record/RecordPage.java:211-217 | a write below bit 31 keeps the word's sign |
| FlagBits.NegativeFlagHidesRecord | SimpleDBServer/src/simpledb/record/RecordPage.java:206-217 | as written, setting bit 31 of an in-use flag makes `getBitVal(flag, 0)` read -1 |
| FlagBits.BitThirtyTwoIsInUse | SimpleDBServer/src/simpledb/record/RecordPage.java:206-217 | shift distances wrap at 32, so bit 32 is the in-use bit and clearing it empties the record |
| RecordPage.Open | SimpleDBServer/src/simpledb/record/RecordPage.java:18-32 | a new record page is before its first slot |
| RecordPage.ValidSlotBelow | SimpleDBServer/src/simpledb/record/RecordPage.java:150-152 | a slot fits in the block exactly when it is below `BLOCK_SIZE / slotsize` |
| RecordPage.FlagsApart | SimpleDBServer/src/simpledb/record/RecordPage.java:141-143 | the flag words of two slots do not overlap |
| RecordPage.ReadingsAgree | SimpleDBServer/src/simpledb/record/RecordPage.java:158-208 | `getBitVal(flag, 0)` and the bit itself agree on EMPTY and on non-negative words; as written, a slot reads in use only when its flag word is non-negative |
| RecordPage.SearchFrom | SimpleDBServer/src/simpledb/record/RecordPage.java:154-163 | finds the first valid slot from the start whose flag matches under the given reading (`getBitVal` as written); when none matches, stops at the first invalid slot |
| RecordPage.PrevFrom | SimpleDBServer/src/simpledb/record/RecordPage.java:166-175 | finds the nearest slot at or below the start that reads in use; when none exists, stops at -1 |
| RecordPage.Next | SimpleDBServer/src/simpledb/record/RecordPage.java:48-50 | moves to the next slot where `getBitVal(flag, 0)` is 1, skipping only slots where it is not; true exactly when it lands on a valid slot |
| RecordPage.NextFixed | SimpleDBServer/src/simpledb/record/RecordPage.java:48-50 | corrected: moves to the next slot whose bit 0 is set, whatever the word's sign |
| RecordPage.NextSkipsNegativeFlag | SimpleDBServer/src/simpledb/record/RecordPage.java:154-163 | as written, `next` from the start passes slot 0 holding `0x80000001`; the corrected `next` stops there |
| RecordPage.SetIntHidesRecord | SimpleDBServer/src/simpledb/record/RecordPage.java:80-84 | as written, `setInt` on the field whose null bit is bit 31 leaves bit 0 set but makes the record read as not in use |
| RecordPage.Previous | SimpleDBServer/src/simpledb/record/RecordPage.java:166-175 | moves to the previous slot where `getBitVal(flag, 0)` is 1, skipping only slots where it is not |
| RecordPage.AfterLast | SimpleDBServer/src/simpledb/record/RecordPage.java:178-180 | the slot just past the last one that fits |
| RecordPage.AfterLastPrevious | SimpleDBServer/src/simpledb/record/RecordPage.java:166-180 | `afterLast` then `previous` finds the last in-use record, exactly when one exists |
| RecordPage.MoveToId | SimpleDBServer/src/simpledb/record/RecordPage.java:129-139 | `currentId` afterwards is the id moved to |
| RecordPage.CurrentId | SimpleDBServer/src/simpledb/record/RecordPage.java:137-139 | `currentId`: the current slot; stated by `MoveToId` |
| RecordPage.Insert | SimpleDBServer/src/simpledb/record/RecordPage.java:114-122 | takes the lowest empty slot and writes its flag word as exactly INUSE = 1, so every field reads null except one whose bit wraps to 0 mod 32, changing only that word; fails with the page unchanged exactly when no slot is empty |
| RecordPage.Delete | SimpleDBServer/src/simpledb/record/RecordPage.java:104-107 | the current slot's flag becomes EMPTY and nothing else changes; throws exactly when the flag word lies outside the page |
| RecordPage.DeleteThenInsert | SimpleDBServer/src/simpledb/record/RecordPage.java:104-122 | a deleted slot has every bit clear, and the next insert reuses it or a lower slot |
| RecordPage.FieldPos | SimpleDBServer/src/simpledb/record/RecordPage.java:145-148 | slot start + 4 + field offset, defined exactly for fields with an offset |
| RecordPage.GetInt | SimpleDBServer/src/simpledb/record/RecordPage.java:58-61 | defined exactly for fields with an offset |
| RecordPage.GetString | SimpleDBServer/src/simpledb/record/RecordPage.java:69-72 | reads only fields with an offset |
| RecordPage.IsNull | SimpleDBServer/src/simpledb/record/RecordPage.java:183-187 | defined exactly for fields with a bit |
| RecordPage.SetFlagBit | SimpleDBServer/src/simpledb/record/RecordPage.java:190-203 | only the current slot's flag word changes; the write fails exactly when that word lies outside the page |
| RecordPage.SetFlagBitSpec | SimpleDBServer/src/simpledb/record/RecordPage.java:190-217 | the bit written reads back and the flag's other bits are kept |
| RecordPage.SetNull | SimpleDBServer/src/simpledb/record/RecordPage.java:190-195 | succeeds exactly for a field with a bit and a flag word inside the page |
| RecordPage.SetNullSpec | SimpleDBServer/src/simpledb/record/RecordPage.java:183-195 | at a valid slot it succeeds and the field then reads as null; null bits on other positions mod 32 are kept, and so is the in-use bit unless the field's bit is 0 mod 32; as `getBitVal` reads it, the in-use reading is kept when the field's bit is neither 0 nor 31 mod 32 |
| RecordPage.SetInt | SimpleDBServer/src/simpledb/record/RecordPage.java:80-84 | succeeds exactly for a field with an offset and a bit whose int lies inside the page, with the flag word inside it too |
| RecordPage.SetIntSpec | SimpleDBServer/src/simpledb/record/RecordPage.java:58-84 | at a valid slot it succeeds, the int reads back and the field is no longer null; null bits on other positions mod 32 are kept, and so is the in-use bit unless the field's bit is 0 mod 32; as `getBitVal` reads it, the in-use reading is kept when the field's bit is neither 0 nor 31 mod 32 |
| RecordPage.SetString | SimpleDBServer/src/simpledb/record/RecordPage.java:92-96 | succeeds exactly for a field with an offset and a bit whose string and terminator lie inside the page, with the flag word inside it too |
| RecordPage.SetStringSpec | SimpleDBServer/src/simpledb/record/RecordPage.java:69-96 | a string that fits its field reads back and the field is no longer null |
| Term.CompareConst | SimpleDBServer/src/simpledb/query/NullConstant.java:21-23 | null compares equal to everything; ints and strings compare by value and by `compareTo`; mixed kinds fail |
| Term.ConstEquals | SimpleDBServer/src/simpledb/query/Term.java:66 | equal exactly for equal non-null constants; null equals nothing |
| Term.Evaluate | SimpleDBServer/src/simpledb/query/Term.java:135-138 | fails exactly for a field the row lacks |
| Term.Equality | SimpleDBServer/src/simpledb/query/Term.java:20-24 | the two-argument constructor makes an `=` term |
| Term.IsSatisfied | SimpleDBServer/src/simpledb/query/Term.java:133-147 | `isnull` asks whether the left side is null; otherwise a null side makes the term false |
| Term.IsNullIgnoresRhs | SimpleDBServer/src/simpledb/query/Term.java:136-137 | an `isnull` term never looks at its right side |
| Term.SatisfiedInts | SimpleDBServer/src/simpledb/query/Term.java:144-146 | on ints, `>`, `<` and any other operator mean greater, less and equal |
| Term.SatisfiedStrings | SimpleDBServer/src/simpledb/query/Term.java:144-146 | on strings, the same in `compareTo` order |
| Term.GreaterIsFlippedLess | SimpleDBServer/src/simpledb/query/Term.java:144-146 | `a > b` holds exactly when `b < a` does |
| Term.OtherOpsAreEquality | SimpleDBServer/src/simpledb/query/Term.java:146 | any operator other than `>`, `<` and `isnull` tests equality |
| Term.EquatesWithConstant | SimpleDBServer/src/simpledb/query/Term.java:79-91 | a constant exactly when the term is `=` between the field and a constant, and it is that constant |
| Term.EquatesWithField | SimpleDBServer/src/simpledb/query/Term.java:101-113 | a field exactly when the term is `=` between the field and another field, and it is that field |
| Term.EquatesWithConstantSound | SimpleDBServer/src/simpledb/query/Term.java:79-91 | a row satisfying the term has that constant in the field |
| Term.EquatesWithFieldSound | SimpleDBServer/src/simpledb/query/Term.java:101-113 | a row satisfying the term has equal values in both fields |
| Term.AppliesTo | SimpleDBServer/src/simpledb/query/Term.java:121-124 | `appliesTo`: only the left side for `isnull`, both sides otherwise; what it guarantees is stated by `AppliesToEvaluates` |
| Term.AppliesToEvaluates | SimpleDBServer/src/simpledb/query/Term.java:121-124 | on a row with the schema's fields, a term that applies can fail only by comparing different kinds |
| Term.ToString | SimpleDBServer/src/simpledb/query/Term.java:149-153 | the left side, then ` is null` or the operator and the right side |
| Term.RfValue | SimpleDBServer/src/simpledb/query/Term.java:48-67 | the larger distinct count of two fields, the count of a single field, or for two constants 1 when equal and `MAX_VALUE` otherwise |
| Term.ReductionFactor | SimpleDBServer/src/simpledb/query/Term.java:47-68 | constants of different kinds throw whatever the operator; otherwise `>` and `<` give twice the value in int arithmetic, and other operators except `=` give `MAX_VALUE` |
| Term.ReductionFactorDefined | SimpleDBServer/src/simpledb/query/Term.java:47-68 | a factor exists exactly for operators other than `=` on terms that do not compare constants of different kinds |
| Term.UnequalConstantsFactorWraps | SimpleDBServer/src/simpledb/query/Term.java:66-68 | `1 < 2` gets reduction factor -2: `MAX_VALUE * 2` wraps |
| Term.ReductionFactorWide | SimpleDBServer/src/simpledb/query/Term.java:47-68 | corrected: the factor without wrap-around, defined where the int factor is, equal to it when it fits, and wrapping to it |
| Term.WideFactorPositive | SimpleDBServer/src/simpledb/query/Term.java:39-45 | without wrap-around, positive distinct counts give a factor of at least 1; `1 < 2` gets `2 * MAX_VALUE` |
| Scans.NewUnion | SimpleDBServer/src/simpledb/query/UnionScan.java:8-13 | a new union scan reads from its first child |
| Scans.GetField | SimpleDBServer/src/simpledb/query/RenameScan.java:32-34 | the new name maps to the old one; every other name maps to itself |
| Scans.Next | SimpleDBServer/src/simpledb/query/UnionScan.java:22-28 | a leaf steps through its rows in order and says true exactly while a row remains |
| Scans.Close | SimpleDBServer/src/simpledb/query/UnionScan.java:31-34 | every scan in the tree is closed and nothing else changes |
| Scans.BeforeFirst | SimpleDBServer/src/simpledb/query/UnionScan.java:16-19 | `beforeFirst`: leaves rewind and the union pointer is kept; stated by `RewoundUnionReadsSecond`, with the corrected form in `BeforeFirstFixed` and `RewoundUnionFixed` |
| Scans.GetVal | SimpleDBServer/src/simpledb/query/UnionScan.java:37-39 | `getVal`: the union pointer picks the child, a rename maps the name; stated by `GetValView` |
| Scans.GetInt | SimpleDBServer/src/simpledb/query/UnionScan.java:42-44 | the int `getVal` returns, with the same dispatch |
| Scans.GetString | SimpleDBServer/src/simpledb/query/UnionScan.java:47-49 | the string `getVal` returns, with the same dispatch |
| Scans.RenameRow | SimpleDBServer/src/simpledb/query/RenameScan.java:37-54 | a renamed row has a field exactly when the child has its mapped name, with that value |
| Scans.GetValView | SimpleDBServer/src/simpledb/query/RenameScan.java:37-39 | `getVal` reads the field of the row the scan is on, through the union pointer and the renames |
| Scans.RenameTrace | SimpleDBServer/src/simpledb/query/RenameScan.java:17-39 | a rename scan yields exactly its child's rows, each renamed |
| Scans.RowsTrace | SimpleDBServer/src/simpledb/query/UnionScan.java:22-28 | a leaf yields its remaining rows in order |
| Scans.UnionFirstTrace | SimpleDBServer/src/simpledb/query/UnionScan.java:22-28 | a union reading its first child yields the rest of it, then all of the second |
| Scans.UnionConcatenates | SimpleDBServer/src/simpledb/query/UnionScan.java:10-28 | a new union of two scans yields the first one's rows followed by the second one's |
| Scans.RewoundUnionReadsSecond | SimpleDBServer/src/simpledb/query/UnionScan.java:16-28 | as written, a drained union rewound with `beforeFirst` says `next` is true but reads from the second child |
| Scans.BeforeFirstFixed | SimpleDBServer/src/simpledb/query/UnionScan.java:16-19 | the corrected rewind keeps the tree's shape (what it rewinds is stated by `RewoundUnionFixed`) |
| Scans.RewoundUnionFixed | SimpleDBServer/src/simpledb/query/UnionScan.java:16-28 | with the pointer reset, a rewound union yields both children's rows again, from any state |
| Scans.UnionHasField | SimpleDBServer/src/simpledb/query/UnionScan.java:37-55 | a union has a field only when both children do, yet reads it from one child |
| Scans.HasField | SimpleDBServer/src/simpledb/query/UnionScan.java:53-55 | `hasField`: both children for a union, the mapped name for a rename; stated by `UnionHasField`, `RenameRow` and `SchemaFixedMatchesScan` |
| Plans.Open | SimpleDBServer/src/simpledb/query/UnionPlan.java:19-23 | a union plan opens a new union scan of its children's scans; a rename plan wraps its child's scan |
| Plans.Schema | SimpleDBServer/src/simpledb/query/RenamePlan.java:41-43 | `schema` as written: stated by `RenameSchemaMisses`, `UnionSchemaOverstates` and `CompatibleSchema` |
| Plans.SchemaFixed | SimpleDBServer/src/simpledb/query/RenamePlan.java:41-43 | under a rename, a name is in the schema exactly when its mapped name is in the child's |
| Plans.SchemaFixedMatchesScan | SimpleDBServer/src/simpledb/query/UnionScan.java:53-55 | the corrected schema is exactly the set of fields the opened scan has |
| Plans.RenameSchemaMisses | SimpleDBServer/src/simpledb/query/RenamePlan.java:41-43 | as written, a rename plan's schema lacks the new name that its scan has |
| Plans.UnionSchemaOverstates | SimpleDBServer/src/simpledb/query/UnionPlan.java:12-17 | as written, a union plan's schema lists a field of one child that its scan lacks |
| Plans.CompatibleSchema | SimpleDBServer/src/simpledb/query/UnionPlan.java:12-17 | for unions whose children agree on their fields, the written schema is the correct one |
| Plans.BlocksAccessed | SimpleDBServer/src/simpledb/query/UnionPlan.java:26-28 | `blocksAccessed`: stated by `BlocksAreLeafTotal` |
| Plans.BlocksAreLeafTotal | SimpleDBServer/src/simpledb/query/UnionPlan.java:26-28 | a plan's block estimate is its stored leaves' total, wrapped once to an int |
| Plans.RecordsOutput | SimpleDBServer/src/simpledb/query/UnionPlan.java:31-33 | `recordsOutput`: stated by `RecordsAreLeafTotal` and `UnionOfStored` |
| Plans.RecordsAreLeafTotal | SimpleDBServer/src/simpledb/query/UnionPlan.java:31-33 | the same for the record estimate |
| Plans.DistinctValues | SimpleDBServer/src/simpledb/query/RenamePlan.java:36-38 | `distinctValues`: stated by `RenameDistinct` |
| Plans.RenameDistinct | SimpleDBServer/src/simpledb/query/RenamePlan.java:36-47 | a rename estimates the new name as its child estimates the old one, and other names as the child does |
| Plans.UnionOfStored | SimpleDBServer/src/simpledb/query/UnionPlan.java:19-33 | a union of two stored plans yields their rows in order; with exact estimates that fit in an int, `recordsOutput` counts them |
| Plans.RenamedRows | SimpleDBServer/src/simpledb/query/RenamePlan.java:20-23 | a rename plan yields its child's rows, renamed |

## Left out

- File, log and network I/O are not modelled. Page reads and writes, log appends and forces, and buffer flushes appear as events or parameters (`read`, `fmtr`, the new block number, the file size).
- The log manager is not part of this model. The log is a sequence of records; its page layout and lsn assignment inside log pages are left out.
- The recovery store keeps the int and the string at one offset as independent values. Their overlap in the same page bytes is modelled only in `Page` and `RecordPage`.
- `SetIntRecord`, `SetStringRecord`, `StartRecord`, `CommitRecord`, `RollbackRecord` and `CheckpointRecord` are not part of this model. Their fields and `undo` are modelled by their standard behaviour: the record's values in order, and undo restoring the old value.
- `LogRecordIterator.remove` is left out: it only throws.
- LogRecords.Decode: a record whose fields do not match its opcode is `Malformed`, where Java would read garbage or throw.
- Recovery.DoRecover: the scan reads only records that were written, so the `null` that an unknown opcode decodes to, and the `NullPointerException` it would cause at `rec.op()` (`RecoveryMgr.java:75`), cannot arise in the model and are not carried.
- Thread blocking is left out: a lock request that would wait returns `Wait`, and the caller retries. The ten-second timeout, `notifyAll` and `InterruptedException` are not modelled.
- `BufferMgr` (the waiting wrapper around `BasicBufferMgr`) is not part of this model. A `null` frame is returned to the caller.
- `LockList` is not part of this model.
- `BufferList` and `Transaction.pin`/`unpin` are not part of this model. `UnpinAll`, `PinNew` and `UnpinBlock` are events.
- Page writes that leave the page: `setInt` throws in Java and here fails with the page unchanged. A `setString` that runs off the page keeps the chars already written.
- RecordPage.SetInt, RecordPage.SetString, RecordPage.SetNull and RecordPage.Delete: a throw is `None`. The page as it stood when the throw happened is not carried: a field written before a failing flag write, or a string cut short, is dropped with it.
- Decimal.ParseInt: accepts only ASCII digits. Java's `Integer.valueOf` also accepts the other Unicode decimal digits (`Character.digit`), which `Integer.toString` never writes.
- Term.ReductionFactor: the `=` case computes `(int)(value * 1.11)` in floating point and is not modelled (`None`).
- Term: `Expression`, `Constant`, `IntConstant`, `StringConstant` and `Schema` are not part of this model. They are modelled by their standard behaviour. Comparing or equating constants of different kinds, where Java throws a `ClassCastException`, is `None`.
- `TableScan`, `SelectScan`, `ProjectScan` and the other plans are not part of this model. A `Rows` leaf scan and a `Stored` leaf plan stand in for them, with fixed rows and estimates.
- The planners, the remote interface and the client programs are left out.
- RecordPage.LayoutWf requires a non-negative record length. Java's `int` overflow of a record length, or of `currentslot * slotsize`, is not modelled.
- `RecordPage` reads and writes the block's page directly. The locking and logging done by the transaction it calls are modelled in `Transaction` and not repeated here.
- `RecordPage.close` and the constructor's `tx.pin` are left out: they are buffer pinning.
- TableInfo.FromCatalog: bits are ranked in sorted name order. The catalog's map is not part of this model, and if it iterates in another order the Java assigns other bits.
- TableInfo: a schema is a sequence of fields with distinct names (`SchemaWf`), in the order `schema.fields()` returns them.
- Plans: a schema is the set of its field names; field types and lengths are left out.
- Scans.Trace takes a bound on the number of `next` calls. The lemmas give one larger than the number of rows, so the bound leaves nothing unmodelled for finite leaves.

## Findings

| source | as written | input that shows it | evidently intended | confidence | as-written member | corrected member |
|---|---|---|---|---|---|---|
| SimpleDBServer/src/simpledb/buffer/BasicBufferMgr.java:61-72 | a frame reassigned to another block keeps its old block's map entry | one-frame pool: pin `a`, unpin, pin `b`, pin `a` | the second pin of `a` is a miss and returns a frame holding `a` | not executed; high | BufferMgr.StaleMapEntry | BufferMgr.PinFixed |
| SimpleDBServer/src/simpledb/buffer/BasicBufferMgr.java:98-111 | `unpin` queues a frame each time its pins reach 0, even if it is already queued; `available` counts queue entries | one-frame pool: pin `a`, unpin, pin `a` (a map hit, no poll), unpin | `available` is the number of unpinned frames, here 1 | not executed; high | BufferMgr.AvailableOvercounts | BufferMgr.AvailableFixed |
| SimpleDBServer/src/simpledb/record/RecordPage.java:206-208 | `(n >> pos) % 2` is -1 for a set bit of a negative word | a table of 31 fields whose last field is non-null: the flag is `0x80000001`, and `getBitVal(flag, 0)` is -1, so `next` and `previous` skip the record | the bit itself, `(n >> pos) & 1` | not executed; high | RecordPage.NextSkipsNegativeFlag | RecordPage.NextFixed |
| SimpleDBServer/src/simpledb/query/UnionScan.java:16-19 | `beforeFirst` rewinds both children but leaves the pointer on `s2` | drain a union of one row and no rows, call `beforeFirst`, then `next` | `next` true with the first child's row readable | not executed; medium | Scans.RewoundUnionReadsSecond | Scans.RewoundUnionFixed |
| SimpleDBServer/src/simpledb/query/RenamePlan.java:41-43 | the schema is the child's, without the new name | rename `a` to `b` over a plan of field `a` | the schema has `b`, as the scan does | not executed; high | Plans.RenameSchemaMisses | Plans.SchemaFixedMatchesScan |
| SimpleDBServer/src/simpledb/query/UnionPlan.java:12-17 | the schema holds the fields of either child | union of plans with fields `{a}` and `{b}` | the schema holds only fields the scan has (both children's) | not executed; low | Plans.UnionSchemaOverstates | Plans.SchemaFixedMatchesScan |
| SimpleDBServer/src/simpledb/query/Term.java:66-68 | `value * 2` is int arithmetic, so `MAX_VALUE` (unequal constants) or a distinct count above 2^30 doubles to a negative factor | the term `1 < 2`: factor -2 | a factor of at least 1, as the method's comment describes (a factor of 2 halves the output) | not executed; medium | Term.UnequalConstantsFactorWraps | Term.WideFactorPositive |

=== FILE: base.dfy ===
/** Shared vocabulary of the storage engine model: optional values, Java's
    32-bit `int`, Java strings as UTF-16 code units, and disk block ids. */
module Base {

  /** A Java reference that may be null. */
  datatype Option<+T> = None | Some(value: T)

  const MinInt: int := -0x8000_0000
  const MaxInt: int := 0x7FFF_FFFF

  /** Java's `int`. */
  type Int32 = x: int | MinInt <= x <= MaxInt

  /** Java `int` arithmetic: the two's-complement wrap-around of `x`. */
  function Wrap32(x: int): (r: Int32)
    ensures MinInt <= x <= MaxInt ==> r == x
    ensures (r - x) % 0x1_0000_0000 == 0
  {
    var u := x % 0x1_0000_0000;
    if u <= MaxInt then u else u - 0x1_0000_0000
  }

  /** A Java `char`: one UTF-16 code unit. */
  type Char16 = c: int | 0 <= c < 0x1_0000

  /** A Java `String`, as its sequence of UTF-16 code units. */
  type JString = seq<Char16>

  /** `Math.abs` on the ids the lock table stores (no id is `Integer.MIN_VALUE`). */
  function Abs(x: int): nat {
    if x < 0 then -x else x
  }

  /** `s.startsWith(prefix)`. */
  predicate StartsWith(s: JString, prefix: JString) {
    |prefix| <= |s| && s[..|prefix|] == prefix
  }

  /** A disk block: a file name and a block number within that file. */
  datatype Block = Block(fileName: JString, number: int)

  /** Removes the first occurrence of `x`, as `List.remove(Object)` does;
      a list without `x` is returned unchanged. */
  function RemoveFirst(s: seq<int>, x: int): (r: seq<int>)
    ensures x !in s ==> r == s
    ensures x in s ==> |r| == |s| - 1
    ensures multiset(r) == multiset(s) - multiset{x}
    ensures forall y :: y in r ==> y in s
    ensures forall y :: y in s && y != x ==> y in r
  {
    if |s| == 0 then s
    else
      assert s == [s[0]] + s[1..];
      if s[0] == x then s[1..]
      else [s[0]] + RemoveFirst(s[1..], x)
  }

  /** No value occurs twice. */
  predicate Distinct(s: seq<int>) {
    forall i, j :: 0 <= i < j < |s| ==> s[i] != s[j]
  }

  /** Removing a value from a list without repeats removes it altogether. */
  lemma {:induction false} RemoveFirstDistinct(s: seq<int>, x: int)
    requires Distinct(s)
    ensures x !in RemoveFirst(s, x) && Distinct(RemoveFirst(s, x))
  {
    if |s| > 0 {
      assert s[0] !in s[1..];
      if s[0] == x {
        assert RemoveFirst(s, x) == s[1..];
      } else {
        var rest := RemoveFirst(s[1..], x);
        RemoveFirstDistinct(s[1..], x);
        assert RemoveFirst(s, x) == [s[0]] + rest;
        assert s[0] !in rest;
        DistinctCons(s[0], rest);
      }
    }
  }

  lemma DistinctCons(a: int, s: seq<int>)
    requires Distinct(s) && a !in s
    ensures Distinct([a] + s)
  {
    forall i, j | 0 <= i < j < |[a] + s|
      ensures ([a] + s)[i] != ([a] + s)[j]
    {
      if i == 0 {
        assert ([a] + s)[j] == s[j - 1];
      } else {
        assert ([a] + s)[i] == s[i - 1] && ([a] + s)[j] == s[j - 1];
      }
    }
  }
}

=== FILE: buffer.dfy ===
/** One buffer-pool frame (`simpledb.buffer.Buffer`): the page it caches,
    the block assigned to it, its pin count, and the last transaction that
    modified it together with the log sequence number of that change.
    Disk and log I/O are returned as an ordered list of `Io` events; the
    disk contents, the page formatter and the block number the file manager
    assigns on append are parameters. */
module Buffer {
  import opened Base
  import Page

  /** The I/O a frame asks of the log and file managers, in order. */
  datatype Io =
    | LogFlush(lsn: int)                                     // force the log through `lsn`
    | PageWrite(blk: Block, contents: Page.Page)             // write the page to its block
    | PageRead(blk: Block)                                   // read a block into the page
    | PageAppend(fileName: JString, contents: Page.Page)     // append the page to a file

  datatype Frame = Frame(blk: Option<Block>, contents: Page.Page, pins: int, modifiedBy: int, lsn: int)

  /** A frame-level write: the frame afterwards and whether the page write completed. */
  datatype Update = Update(frame: Frame, ok: bool)

  /** A frame as the pool creates it: no block, unpinned, clean. */
  const Fresh: Frame := Frame(None, Page.Zeros, 0, -1, 0)

  /** A dirty frame always has a block to be written to (a dirty frame
      without one would make `flush` throw a `NullPointerException`). */
  predicate Wf(f: Frame) {
    f.modifiedBy >= 0 ==> f.blk.Some?
  }

  /** The write-ahead rule on an I/O trace: every page write is immediately
      preceded by a log flush. */
  predicate WriteAhead(ios: seq<Io>) {
    forall i :: 0 <= i < |ios| && ios[i].PageWrite? ==> 0 < i && ios[i - 1].LogFlush?
  }

  lemma WriteAheadAppend(a: seq<Io>, b: seq<Io>)
    requires WriteAhead(a) && WriteAhead(b)
    requires |b| > 0 ==> !b[0].PageWrite?
    ensures WriteAhead(a + b)
  {
    forall i | 0 <= i < |a + b| && (a + b)[i].PageWrite?
      ensures 0 < i && (a + b)[i - 1].LogFlush?
    {
      if i >= |a| {
        assert b[i - |a|].PageWrite?;
        assert (a + b)[i - 1] == b[i - |a| - 1];
      }
    }
  }

  function IsPinned(f: Frame): bool {
    f.pins > 0
  }

  function IsModifiedBy(f: Frame, txnum: int): bool {
    txnum == f.modifiedBy
  }

  function GetInt(f: Frame, offset: int): Int32 {
    Page.GetInt(f.contents, offset)
  }

  function GetString(f: Frame, offset: int): Option<JString> {
    Page.GetString(f.contents, offset)
  }

  /** `setInt`: records the writer and the lsn, then writes the page. */
  function SetInt(f: Frame, offset: int, val: Int32, txnum: int, lsn: int): (r: Update)
    ensures r.frame.modifiedBy == txnum && r.frame.lsn == lsn
    ensures r.frame.blk == f.blk && r.frame.pins == f.pins
    ensures r.ok <==> 0 <= offset && offset + Page.IntSize <= Page.BlockSize
    ensures r.ok ==> GetInt(r.frame, offset) == val
    ensures forall i :: 0 <= i < Page.BlockSize && !(offset <= i < offset + Page.IntSize) ==>
      r.frame.contents[i] == f.contents[i]
  {
    var w := Page.SetInt(f.contents, offset, val);
    Update(f.(modifiedBy := txnum, lsn := lsn, contents := w.page), w.ok)
  }

  /** `setString`: records the writer and the lsn, then writes the page. */
  function SetString(f: Frame, offset: int, val: JString, txnum: int, lsn: int): (r: Update)
    ensures r.frame.modifiedBy == txnum && r.frame.lsn == lsn
    ensures r.frame.blk == f.blk && r.frame.pins == f.pins
    ensures r.ok <==> 0 <= offset && offset + Page.StrSize(|val|) <= Page.BlockSize
    ensures r.ok && 0 !in val ==> GetString(r.frame, offset) == Some(val)
    ensures forall i :: 0 <= i < Page.BlockSize && !(offset <= i < offset + Page.StrSize(|val|)) ==>
      r.frame.contents[i] == f.contents[i]
  {
    var w := Page.SetString(f.contents, offset, val);
    Update(f.(modifiedBy := txnum, lsn := lsn, contents := w.page), w.ok)
  }

  /** `flush`: a dirty frame forces the log through its lsn, then writes its
      page, and becomes clean; a clean frame does nothing. */
  function Flush(f: Frame): (r: (Frame, seq<Io>))
    requires Wf(f)
    ensures f.modifiedBy < 0 ==> r.0 == f && r.1 == []
    ensures f.modifiedBy >= 0 ==> r.1 == [LogFlush(f.lsn), PageWrite(f.blk.value, f.contents)]
    ensures f.modifiedBy >= 0 ==> r.0.modifiedBy == -1
    ensures forall t :: t >= 0 ==> !IsModifiedBy(r.0, t)
    ensures r.0.blk == f.blk && r.0.contents == f.contents && r.0.pins == f.pins && r.0.lsn == f.lsn
    ensures Wf(r.0) && WriteAhead(r.1)
  {
    if f.modifiedBy >= 0 then
      (f.(modifiedBy := -1), [LogFlush(f.lsn), PageWrite(f.blk.value, f.contents)])
    else
      (f, [])
  }

  function Pin(f: Frame): (r: Frame)
    ensures r.pins == f.pins + 1 && IsPinned(r) == (f.pins >= 0)
    ensures r.(pins := f.pins) == f
  {
    f.(pins := f.pins + 1)
  }

  /** `unpin`: there is no guard against the count going below zero. */
  function Unpin(f: Frame): (r: Frame)
    ensures r.pins == f.pins - 1 && IsPinned(r) == (f.pins > 1)
    ensures r.(pins := f.pins) == f
  {
    f.(pins := f.pins - 1)
  }

  /** `assignToBlock`: flushes the old contents, then reads `b` and resets
      the pin count. `read` is the file manager's view of the disk. */
  function AssignToBlock(f: Frame, b: Block, read: Block -> Page.Page): (r: (Frame, seq<Io>))
    requires Wf(f)
    ensures r.0 == Frame(Some(b), read(b), 0, r.0.modifiedBy, f.lsn)
    ensures forall t :: t >= 0 ==> !IsModifiedBy(r.0, t)
    ensures r.1 == Flush(f).1 + [PageRead(b)]
    ensures Wf(r.0) && WriteAhead(r.1)
  {
    var (g, ios) := Flush(f);
    WriteAheadAppend(ios, [PageRead(b)]);
    (g.(blk := Some(b), contents := read(b), pins := 0), ios + [PageRead(b)])
  }

  /** `assignToNew`: flushes the old contents, formats the page, appends it
      to `fileName` (which the file manager places at block `blockNum`) and
      resets the pin count. */
  function AssignToNew(f: Frame, fileName: JString, fmtr: Page.Page -> Page.Page, blockNum: int): (r: (Frame, seq<Io>))
    requires Wf(f)
    ensures r.0 == Frame(Some(Block(fileName, blockNum)), fmtr(f.contents), 0, r.0.modifiedBy, f.lsn)
    ensures forall t :: t >= 0 ==> !IsModifiedBy(r.0, t)
    ensures r.1 == Flush(f).1 + [PageAppend(fileName, fmtr(f.contents))]
    ensures Wf(r.0) && WriteAhead(r.1)
  {
    var (g, ios) := Flush(f);
    var page := fmtr(g.contents);
    WriteAheadAppend(ios, [PageAppend(fileName, page)]);
    (g.(blk := Some(Block(fileName, blockNum)), contents := page, pins := 0), ios + [PageAppend(fileName, page)])
  }
}

=== FILE: buffermgr.dfy ===
/** The buffer pool (`simpledb.buffer.BasicBufferMgr`): a fixed array of
    frames, a map from block to the frame it was last pinned into, and a FIFO
    queue of frames that became unpinned. Frames are named by their index.

    Two behaviours of the source are kept as written: the map is never
    cleaned when a frame is reassigned (so an entry can name a frame that
    now holds another block), and the queue can hold a frame twice or hold a
    frame that has since been pinned again. The timed retry around a `null`
    pin (`BufferMgr`) is left to the caller: a `None` frame is its abort. */
module BufferMgr {
  import opened Base
  import Page
  import Buffer

  datatype Pool = Pool(frames: seq<Buffer.Frame>, bufferMap: map<Block, nat>, unpinned: seq<nat>)

  /** The result of `pin`/`pinNew`: the pool afterwards, the pinned frame (or
      `None` for Java's `null`), and the I/O performed. */
  datatype Pinned = Pinned(pool: Pool, frame: Option<nat>, ios: seq<Buffer.Io>)

  /** The result of `chooseUnpinnedBuffer`: the queue afterwards and the frame chosen. */
  datatype Choice = Choice(unpinned: seq<nat>, frame: Option<nat>)

  /** Every frame index the pool stores is in range and every frame is well formed. */
  predicate Wf(p: Pool) {
    && (forall b :: b in p.bufferMap ==> p.bufferMap[b] < |p.frames|)
    && (forall k :: 0 <= k < |p.unpinned| ==> p.unpinned[k] < |p.frames|)
    && (forall i :: 0 <= i < |p.frames| ==> Buffer.Wf(p.frames[i]))
  }

  /** The constructor: `n` fresh frames, all queued as unpinned, an empty map. */
  function Create(n: nat): (p: Pool)
    ensures |p.frames| == n && p.bufferMap == map[]
    ensures |p.unpinned| == n && forall k :: 0 <= k < n ==> p.unpinned[k] == k
    ensures p.frames == seq(n, _ => Buffer.Fresh)
    ensures Wf(p)
  {
    Pool(seq(n, _ => Buffer.Fresh), map[], seq(n, k => k))
  }

  /** `available`: the length of the queue. */
  function Available(p: Pool): nat {
    |p.unpinned|
  }

  /** `chooseUnpinnedBuffer`: polls the queue until a frame that is not
      pinned comes out; the pinned frames polled on the way are dropped. */
  function ChooseUnpinned(frames: seq<Buffer.Frame>, queue: seq<nat>): (c: Choice)
    requires forall k :: 0 <= k < |queue| ==> queue[k] < |frames|
    ensures c.frame.None? ==> c.unpinned == [] && forall k :: 0 <= k < |queue| ==> Buffer.IsPinned(frames[queue[k]])
    ensures c.frame.Some? ==> exists k :: (0 <= k < |queue| && FirstUnpinnedAt(frames, queue, k) &&
      c.frame.value == queue[k] && c.unpinned == queue[k + 1..])
  {
    if |queue| == 0 then Choice([], None)
    else if !Buffer.IsPinned(frames[queue[0]]) then
      assert FirstUnpinnedAt(frames, queue, 0);
      Choice(queue[1..], Some(queue[0]))
    else
      var c := ChooseUnpinned(frames, queue[1..]);
      assert c.frame.Some? ==> exists k :: (0 <= k < |queue| && FirstUnpinnedAt(frames, queue, k) &&
        c.frame.value == queue[k] && c.unpinned == queue[k + 1..]) by {
        if c.frame.Some? {
          var k :| 0 <= k < |queue[1..]| && FirstUnpinnedAt(frames, queue[1..], k) &&
            c.frame.value == queue[1..][k] && c.unpinned == queue[1..][k + 1..];
          assert FirstUnpinnedAt(frames, queue, k + 1);
          assert queue[1..][k + 1..] == queue[k + 2..];
        }
      }
      c
  }

  /** `queue[k]` is the first frame in the queue that is not pinned. */
  ghost predicate FirstUnpinnedAt(frames: seq<Buffer.Frame>, queue: seq<nat>, k: int)
    requires forall j :: 0 <= j < |queue| ==> queue[j] < |frames|
  {
    && 0 <= k < |queue|
    && !Buffer.IsPinned(frames[queue[k]])
    && forall j :: 0 <= j < k ==> Buffer.IsPinned(frames[queue[j]])
  }

  /** `pin`: a block found in the map has that frame pinned once more;
      otherwise the first unpinned frame in the queue is mapped to the
      block, assigned to it and pinned; with no such frame, `None`. */
  function Pin(p: Pool, blk: Block, read: Block -> Page.Page): (r: Pinned)
    requires Wf(p)
    ensures Wf(r.pool) && |r.pool.frames| == |p.frames|
    ensures r.frame.Some? ==> r.frame.value < |p.frames|
    ensures blk in p.bufferMap ==>
      && r.frame == Some(p.bufferMap[blk])
      && r.pool == p.(frames := p.frames[p.bufferMap[blk] := Buffer.Pin(p.frames[p.bufferMap[blk]])])
      && r.ios == []
    ensures blk !in p.bufferMap && r.frame.None? ==>
      && r.pool.frames == p.frames && r.pool.bufferMap == p.bufferMap && r.pool.unpinned == []
      && r.ios == []
      && forall k :: 0 <= k < |p.unpinned| ==> Buffer.IsPinned(p.frames[p.unpinned[k]])
    ensures blk !in p.bufferMap && r.frame.Some? ==>
      var i := r.frame.value;
      && (exists k :: FirstUnpinnedAt(p.frames, p.unpinned, k) && i == p.unpinned[k] && r.pool.unpinned == p.unpinned[k + 1..])
      && r.pool.bufferMap == p.bufferMap[blk := i]
      && i < |p.frames| == |r.pool.frames|
      && r.pool.frames[i].blk == Some(blk) && r.pool.frames[i].pins == 1
      && r.pool.frames[i].contents == read(blk)
      && r.ios == Buffer.AssignToBlock(p.frames[i], blk, read).1
      && forall j :: 0 <= j < |p.frames| && j != i ==> r.pool.frames[j] == p.frames[j]
    ensures Buffer.WriteAhead(r.ios)
  {
    if blk in p.bufferMap then
      var i := p.bufferMap[blk];
      Pinned(p.(frames := p.frames[i := Buffer.Pin(p.frames[i])]), Some(i), [])
    else
      var c := ChooseUnpinned(p.frames, p.unpinned);
      match c.frame
      case None => Pinned(p.(unpinned := c.unpinned), None, [])
      case Some(i) =>
        var a := Buffer.AssignToBlock(p.frames[i], blk, read);
        Pinned(Pool(p.frames[i := Buffer.Pin(a.0)], p.bufferMap[blk := i], c.unpinned), Some(i), a.1)
  }

  /** `pinNew`: the first unpinned frame in the queue is assigned to a new
      block of `fileName`; the map entry of that new block is replaced, and
      the frame's previous block keeps its entry. With no frame, `None`. */
  function PinNew(p: Pool, fileName: JString, fmtr: Page.Page -> Page.Page, blockNum: int): (r: Pinned)
    requires Wf(p)
    ensures Wf(r.pool) && |r.pool.frames| == |p.frames|
    ensures r.frame.Some? ==> r.frame.value < |p.frames|
    ensures r.frame.None? ==>
      && r.pool.frames == p.frames && r.pool.bufferMap == p.bufferMap && r.pool.unpinned == []
      && r.ios == []
    ensures r.frame.Some? ==>
      var i := r.frame.value;
      var nb := Block(fileName, blockNum);
      && (exists k :: FirstUnpinnedAt(p.frames, p.unpinned, k) && i == p.unpinned[k] && r.pool.unpinned == p.unpinned[k + 1..])
      && r.pool.bufferMap == p.bufferMap[nb := i]
      && i < |p.frames| == |r.pool.frames|
      && r.pool.frames[i].blk == Some(nb) && r.pool.frames[i].pins == 1
      && r.pool.frames[i].contents == fmtr(p.frames[i].contents)
      && r.ios == Buffer.AssignToNew(p.frames[i], fileName, fmtr, blockNum).1
      && forall j :: 0 <= j < |p.frames| && j != i ==> r.pool.frames[j] == p.frames[j]
    ensures Buffer.WriteAhead(r.ios)
  {
    var c := ChooseUnpinned(p.frames, p.unpinned);
    match c.frame
    case None => Pinned(p.(unpinned := c.unpinned), None, [])
    case Some(i) =>
      var (f, ios) := Buffer.AssignToNew(p.frames[i], fileName, fmtr, blockNum);
      var nb := f.blk.value;
      Pinned(Pool(p.frames[i := Buffer.Pin(f)], (p.bufferMap - {nb})[nb := i], c.unpinned), Some(i), ios)
  }

  /** `unpin`: the frame's count drops by one and, once it is no longer
      pinned, the frame joins the back of the queue, whether or not it is
      already queued. */
  function Unpin(p: Pool, i: nat): (r: Pool)
    requires Wf(p) && i < |p.frames|
    ensures Wf(r)
    ensures r.frames == p.frames[i := Buffer.Unpin(p.frames[i])] && r.bufferMap == p.bufferMap
    ensures r.unpinned == if p.frames[i].pins - 1 > 0 then p.unpinned else p.unpinned + [i]
    ensures QueueCovers(p) ==> QueueCovers(r)
    ensures MapAccurate(p) ==> MapAccurate(r)
  {
    var f := Buffer.Unpin(p.frames[i]);
    Pool(p.frames[i := f], p.bufferMap, if Buffer.IsPinned(f) then p.unpinned else p.unpinned + [i])
  }

  /** `flushAll` over the frames from index `from` on, in array order. */
  function FlushFrom(frames: seq<Buffer.Frame>, txnum: int, from: nat): (r: (seq<Buffer.Frame>, seq<Buffer.Io>))
    requires from <= |frames|
    requires forall i :: 0 <= i < |frames| ==> Buffer.Wf(frames[i])
    ensures |r.0| == |frames|
    ensures forall i :: 0 <= i < from ==> r.0[i] == frames[i]
    ensures forall i :: from <= i < |frames| ==>
      r.0[i] == if Buffer.IsModifiedBy(frames[i], txnum) then Buffer.Flush(frames[i]).0 else frames[i]
    ensures Buffer.WriteAhead(r.1)
    decreases |frames| - from
  {
    if from == |frames| then (frames, [])
    else
      var (f, ios) := if Buffer.IsModifiedBy(frames[from], txnum) then Buffer.Flush(frames[from]) else (frames[from], []);
      var (rest, ios') := FlushFrom(frames[from := f], txnum, from + 1);
      Buffer.WriteAheadAppend(ios, ios');
      (rest, ios + ios')
  }

  /** The log flushes and page writes of flushing, one after the other,
      each frame of `frames` that `txnum` modified. */
  function FlushTrace(frames: seq<Buffer.Frame>, txnum: int): seq<Buffer.Io>
    requires forall i :: 0 <= i < |frames| ==> Buffer.Wf(frames[i])
  {
    if |frames| == 0 then []
    else
      (if Buffer.IsModifiedBy(frames[0], txnum) then Buffer.Flush(frames[0]).1 else [])
      + FlushTrace(frames[1..], txnum)
  }

  /** `FlushFrom` issues exactly the trace of the frames from `from` on. */
  lemma {:induction false} FlushFromTrace(frames: seq<Buffer.Frame>, txnum: int, from: nat)
    requires from <= |frames|
    requires forall i :: 0 <= i < |frames| ==> Buffer.Wf(frames[i])
    ensures FlushFrom(frames, txnum, from).1 == FlushTrace(frames[from..], txnum)
    decreases |frames| - from
  {
    if from < |frames| {
      var g := frames[from];
      var f := if Buffer.IsModifiedBy(g, txnum) then Buffer.Flush(g).0 else g;
      var next := frames[from := f];
      FlushFromTrace(next, txnum, from + 1);
      assert next[from + 1..] == frames[from..][1..];
    }
  }

  /** `flushAll(txnum)`: every frame `txnum` modified is flushed, in array
      order, and the trace is those flushes one after the other; afterwards
      no frame is still modified by `txnum`; every other frame, and every
      frame's block, page and pin count, is as before; the page writes all
      obey the write-ahead rule. */
  function FlushAll(p: Pool, txnum: int): (r: (Pool, seq<Buffer.Io>))
    requires Wf(p)
    ensures Wf(r.0) && r.0.bufferMap == p.bufferMap && r.0.unpinned == p.unpinned
    ensures |r.0.frames| == |p.frames|
    ensures forall i :: 0 <= i < |p.frames| ==>
      r.0.frames[i] == if Buffer.IsModifiedBy(p.frames[i], txnum) then Buffer.Flush(p.frames[i]).0 else p.frames[i]
    ensures r.1 == FlushTrace(p.frames, txnum)
    ensures txnum >= 0 ==> forall i :: 0 <= i < |p.frames| ==> !Buffer.IsModifiedBy(r.0.frames[i], txnum)
    ensures forall i :: 0 <= i < |p.frames| && !Buffer.IsModifiedBy(p.frames[i], txnum) ==> r.0.frames[i] == p.frames[i]
    ensures forall i :: 0 <= i < |p.frames| ==>
      var (f, g) := (r.0.frames[i], p.frames[i]);
      f.blk == g.blk && f.contents == g.contents && f.pins == g.pins
    ensures QueueCovers(p) ==> QueueCovers(r.0)
    ensures MapAccurate(p) ==> MapAccurate(r.0)
    ensures Buffer.WriteAhead(r.1)
  {
    FlushFromTrace(p.frames, txnum, 0);
    assert p.frames[0..] == p.frames;
    var r := FlushFrom(p.frames, txnum, 0);
    (p.(frames := r.0), r.1)
  }

  /** Every frame that is not pinned sits somewhere in the queue. The
      constructor establishes it and every operation keeps it. */
  predicate QueueCovers(p: Pool) {
    forall i :: 0 <= i < |p.frames| && !Buffer.IsPinned(p.frames[i]) ==> i in p.unpinned
  }

  lemma CreateCovers(n: nat)
    ensures QueueCovers(Create(n))
  {
    var p := Create(n);
    forall i | 0 <= i < n
      ensures i in p.unpinned
    {
      assert p.unpinned[i] == i;
    }
  }

  /** The part of `ChooseUnpinned` the queue invariant needs: an unpinned
      frame that was queued is still queued unless it was the one chosen. */
  lemma ChooseKeepsUnpinned(frames: seq<Buffer.Frame>, queue: seq<nat>, j: nat)
    requires forall k :: 0 <= k < |queue| ==> queue[k] < |frames|
    requires j < |frames| && !Buffer.IsPinned(frames[j]) && j in queue
    ensures ChooseUnpinned(frames, queue).frame.Some?
    ensures ChooseUnpinned(frames, queue).frame != Some(j) ==> j in ChooseUnpinned(frames, queue).unpinned
  {
    var c := ChooseUnpinned(frames, queue);
    var m :| 0 <= m < |queue| && queue[m] == j;
    if c.frame.Some? {
      var k :| 0 <= k < |queue| && FirstUnpinnedAt(frames, queue, k) && c.frame.value == queue[k] && c.unpinned == queue[k + 1..];
      if c.frame != Some(j) {
        assert m > k;
        assert c.unpinned[m - k - 1] == j;
      }
    }
  }

  lemma {:induction false} PinCovers(p: Pool, blk: Block, read: Block -> Page.Page)
    requires Wf(p) && QueueCovers(p)
    ensures QueueCovers(Pin(p, blk, read).pool)
  {
    var r := Pin(p, blk, read);
    if blk !in p.bufferMap {
      forall j | 0 <= j < |r.pool.frames| && !Buffer.IsPinned(r.pool.frames[j])
        ensures j in r.pool.unpinned
      {
        assert r.frame.Some?;
        ChooseKeepsUnpinned(p.frames, p.unpinned, j);
      }
    }
  }

  lemma {:induction false} PinNewCovers(p: Pool, fileName: JString, fmtr: Page.Page -> Page.Page, blockNum: int)
    requires Wf(p) && QueueCovers(p)
    ensures QueueCovers(PinNew(p, fileName, fmtr, blockNum).pool)
  {
    var r := PinNew(p, fileName, fmtr, blockNum);
    forall j | 0 <= j < |r.pool.frames| && !Buffer.IsPinned(r.pool.frames[j])
      ensures j in r.pool.unpinned
    {
      assert r.frame.Some?;
      ChooseKeepsUnpinned(p.frames, p.unpinned, j);
    }
  }

  /** The number of frames that are not pinned: what `available` is
      documented to return. */
  function UnpinnedCount(frames: seq<Buffer.Frame>): (n: nat)
    ensures n <= |frames|
    ensures n == 0 <==> forall i :: 0 <= i < |frames| ==> Buffer.IsPinned(frames[i])
  {
    if |frames| == 0 then 0
    else
      var rest := UnpinnedCount(frames[1..]);
      assert forall i :: 1 <= i < |frames| ==> frames[i] == frames[1..][i - 1];
      (if Buffer.IsPinned(frames[0]) then 0 else 1) + rest
  }

  /** `available` as documented: the number of unpinned frames. */
  function AvailableFixed(p: Pool): (n: nat)
    ensures n <= |p.frames|
  {
    UnpinnedCount(p.frames)
  }

  /** A block not in the map gets a frame exactly when some frame is
      unpinned, and that is what the corrected count reports. */
  lemma PinNoneIffNoneAvailable(p: Pool, blk: Block, read: Block -> Page.Page)
    requires Wf(p) && QueueCovers(p) && blk !in p.bufferMap
    ensures Pin(p, blk, read).frame.None? <==> AvailableFixed(p) == 0
  {
    if AvailableFixed(p) != 0 {
      var j :| 0 <= j < |p.frames| && !Buffer.IsPinned(p.frames[j]);
      ChooseKeepsUnpinned(p.frames, p.unpinned, j);
    }
  }

  /** As written, `available` counts queue entries: a frame found in the
      map while still queued is queued a second time when it is unpinned
      again, so one frame can count as two. */
  lemma AvailableOvercounts(a: Block, read: Block -> Page.Page)
    ensures var p1 := Unpin(Pin(Create(1), a, read).pool, 0);
            var p2 := Unpin(Pin(p1, a, read).pool, 0);
            Available(p2) == 2 && AvailableFixed(p2) == 1 && |p2.frames| == 1
  {
    var p0 := Create(1);
    var p1 := Unpin(Pin(p0, a, read).pool, 0);
    assert p1.unpinned == [0];
    var q := Pin(p1, a, read);
    assert q.frame == Some(0);
    var p2 := Unpin(q.pool, 0);
    assert p2.unpinned == [0, 0];
    assert UnpinnedCount(p2.frames[1..]) == 0;
  }

  /** Every map entry names a frame that holds that block. */
  predicate MapAccurate(p: Pool) {
    forall b :: b in p.bufferMap ==> p.bufferMap[b] < |p.frames| && p.frames[p.bufferMap[b]].blk == Some(b)
  }

  /** As written, reassigning a frame leaves its old block in the map: after
      `a` is unpinned and its frame is taken for `b`, pinning `a` again is a
      map hit that returns the frame holding `b`. */
  lemma StaleMapEntry(a: Block, b: Block, read: Block -> Page.Page)
    requires a != b
    ensures var p1 := Unpin(Pin(Create(1), a, read).pool, 0);
            var p2 := Pin(p1, b, read).pool;
            var r := Pin(p2, a, read);
            r.frame == Some(0) && r.pool.frames[0].blk == Some(b)
  {
    var p1 := Unpin(Pin(Create(1), a, read).pool, 0);
    assert p1.unpinned == [0] && p1.frames[0].pins == 0;
    var q := Pin(p1, b, read);
    assert q.frame == Some(0);
  }

  /** The map with the entry of the block `f` held before removed. */
  function Evict(m: map<Block, nat>, f: Buffer.Frame): (r: map<Block, nat>)
    ensures f.blk.Some? ==> f.blk.value !in r
    ensures forall b :: b in r <==> b in m && Some(b) != f.blk
    ensures forall b :: b in r ==> r[b] == m[b]
  {
    if f.blk.Some? then m - {f.blk.value} else m
  }

  /** `pin` with the reassigned frame's old block removed from the map. */
  function PinFixed(p: Pool, blk: Block, read: Block -> Page.Page): (r: Pinned)
    requires Wf(p)
    ensures Wf(r.pool)
    ensures r.frame == Pin(p, blk, read).frame && r.ios == Pin(p, blk, read).ios
    ensures r.pool.frames == Pin(p, blk, read).pool.frames && r.pool.unpinned == Pin(p, blk, read).pool.unpinned
    ensures MapAccurate(p) ==> MapAccurate(r.pool)
    ensures MapAccurate(p) && r.frame.Some? ==> r.pool.frames[r.frame.value].blk == Some(blk)
  {
    var r0 := Pin(p, blk, read);
    if blk in p.bufferMap || r0.frame.None? then r0
    else
      var i := r0.frame.value;
      r0.(pool := r0.pool.(bufferMap := Evict(p.bufferMap, p.frames[i])[blk := i]))
  }

  /** `pinNew` with the reassigned frame's old block removed from the map. */
  function PinNewFixed(p: Pool, fileName: JString, fmtr: Page.Page -> Page.Page, blockNum: int): (r: Pinned)
    requires Wf(p)
    ensures Wf(r.pool)
    ensures r.frame == PinNew(p, fileName, fmtr, blockNum).frame && r.ios == PinNew(p, fileName, fmtr, blockNum).ios
    ensures r.pool.frames == PinNew(p, fileName, fmtr, blockNum).pool.frames
    ensures r.pool.unpinned == PinNew(p, fileName, fmtr, blockNum).pool.unpinned
    ensures MapAccurate(p) ==> MapAccurate(r.pool)
    ensures r.frame.Some? ==> r.pool.frames[r.frame.value].blk == Some(Block(fileName, blockNum))
  {
    var r0 := PinNew(p, fileName, fmtr, blockNum);
    if r0.frame.None? then r0
    else
      var i := r0.frame.value;
      r0.(pool := r0.pool.(bufferMap := Evict(p.bufferMap, p.frames[i])[Block(fileName, blockNum) := i]))
  }

}

=== FILE: concurrency.dfy ===
/** A transaction's concurrency manager (`simpledb.tx.concurrency.ConcurrencyMgr`):
    the locks it has obtained, by block, over the one lock table all managers
    share. Each operation returns the lock-table calls it made, in order. */
module Concurrency {
  import opened Base
  import LockTable

  datatype Mode = S | X

  datatype LockRecord = LockRecord(txnum: int, modes: map<Block, Mode>)

  /** A call into the shared lock table. */
  datatype Call = SCall(blk: Block) | XCall(blk: Block) | UnlockCall(blk: Block)

  datatype Status = Granted | Waiting | Aborted

  /** A lock request's outcome: the manager and table afterwards, and the
      calls made. A `Waiting` request is to be repeated. */
  datatype Step = Step(cm: LockRecord, table: LockTable.Table, status: Status, calls: seq<Call>)

  function New(txnum: int): (cm: LockRecord)
    ensures cm.txnum == txnum && |cm.modes| == 0
  {
    LockRecord(txnum, map[])
  }

  function HasXLock(cm: LockRecord, blk: Block): bool {
    blk in cm.modes && cm.modes[blk] == X
  }

  /** `sLock`: asks the table only when nothing is recorded for `blk`, and
      records S once the table grants it. */
  function SLock(cm: LockRecord, table: LockTable.Table, blk: Block): (r: Step)
    ensures r.cm.txnum == cm.txnum
    ensures blk in cm.modes ==> r == Step(cm, table, Granted, [])
    ensures blk !in cm.modes ==> r.calls == [SCall(blk)]
    ensures blk !in cm.modes ==> match LockTable.SLock(table, blk, cm.txnum)
      case Grant(t) => r.status == Granted && r.table == t && r.cm.modes == cm.modes[blk := S]
      case Wait => r.status == Waiting && r.table == table && r.cm == cm
      case Abort => r.status == Aborted && r.table == table && r.cm == cm
  {
    if blk in cm.modes then Step(cm, table, Granted, [])
    else match LockTable.SLock(table, blk, cm.txnum)
      case Grant(t) => Step(cm.(modes := cm.modes[blk := S]), t, Granted, [SCall(blk)])
      case Wait => Step(cm, table, Waiting, [SCall(blk)])
      case Abort => Step(cm, table, Aborted, [SCall(blk)])
  }

  /** `xLock`: unless X is recorded, first obtains S, then asks the table
      to upgrade and records X once it grants. A refused upgrade leaves
      the S lock recorded. */
  function XLock(cm: LockRecord, table: LockTable.Table, blk: Block): (r: Step)
    ensures r.cm.txnum == cm.txnum
    ensures HasXLock(cm, blk) ==> r == Step(cm, table, Granted, [])
    ensures !HasXLock(cm, blk) ==>
      var s := SLock(cm, table, blk);
      && (s.status != Granted ==> r == s)
      && (s.status == Granted ==>
        && r.calls == s.calls + [XCall(blk)]
        && match LockTable.XLock(s.table, blk, cm.txnum)
          case Grant(t) => r.status == Granted && r.table == t && r.cm.modes == cm.modes[blk := X]
          case Wait => r.status == Waiting && r.table == s.table && r.cm == s.cm
          case Abort => r.status == Aborted && r.table == s.table && r.cm == s.cm)
    ensures r.status == Granted ==> HasXLock(r.cm, blk)
    ensures r.status != Granted ==> blk in cm.modes ==> r.cm == cm
  {
    if HasXLock(cm, blk) then Step(cm, table, Granted, [])
    else
      var s := SLock(cm, table, blk);
      if s.status != Granted then s
      else match LockTable.XLock(s.table, blk, cm.txnum)
        case Grant(t) => Step(s.cm.(modes := s.cm.modes[blk := X]), t, Granted, s.calls + [XCall(blk)])
        case Wait => Step(s.cm, s.table, Waiting, s.calls + [XCall(blk)])
        case Abort => Step(s.cm, s.table, Aborted, s.calls + [XCall(blk)])
  }

  /** The table holds every lock the manager has recorded: its id on each
      recorded block, and its negated id on each block recorded as X. */
  predicate Holds(cm: LockRecord, table: LockTable.Table) {
    forall b :: b in cm.modes ==>
      && b in table
      && cm.txnum in table[b]
      && (cm.modes[b] == X ==> -cm.txnum in table[b])
  }

  lemma SLockKeepsHolds(cm: LockRecord, table: LockTable.Table, blk: Block)
    requires Holds(cm, table)
    ensures Holds(SLock(cm, table, blk).cm, SLock(cm, table, blk).table)
  {
    var r := SLock(cm, table, blk);
    if blk !in cm.modes && r.status == Granted {
      forall b | b in r.cm.modes
        ensures b in r.table && cm.txnum in r.table[b]
      {
        if b == blk {
          assert r.table[b][|r.table[b]| - 1] == cm.txnum;
        } else {
          assert r.table[b] == table[b];
        }
      }
    }
  }

  lemma XLockKeepsHolds(cm: LockRecord, table: LockTable.Table, blk: Block)
    requires Holds(cm, table)
    ensures Holds(XLock(cm, table, blk).cm, XLock(cm, table, blk).table)
  {
    SLockKeepsHolds(cm, table, blk);
    var s := SLock(cm, table, blk);
    if !HasXLock(cm, blk) && s.status == Granted {
      match LockTable.XLock(s.table, blk, cm.txnum)
      case Grant(t) =>
        assert blk in s.cm.modes;
        GrantXKeepsHolds(s.cm, s.table, blk, t);
      case Wait =>
      case Abort =>
    }
  }

  /** Each recorded lock is in the table once: the manager's (positive) id
      occurs at most once in the entry of a block it has recorded, and in
      no entry of a block it has not. */
  predicate HeldOnce(cm: LockRecord, table: LockTable.Table) {
    && cm.txnum > 0
    && (forall b :: b in table && b in cm.modes ==> multiset(table[b])[cm.txnum] <= 1)
    && (forall b :: b in table && cm.txnum in table[b] ==> b in cm.modes)
  }

  /** A new manager for an id that no entry holds starts out held once. */
  lemma NewHeldOnce(txnum: int, table: LockTable.Table)
    requires txnum > 0 && forall b :: b in table ==> txnum !in table[b]
    ensures HeldOnce(New(txnum), table)
  {
  }

  /** `sLock` asks the table only for a block not yet recorded, whose entry
      therefore lacks the id: after the grant the id occurs there once. */
  lemma SLockKeepsHeldOnce(cm: LockRecord, table: LockTable.Table, blk: Block)
    requires HeldOnce(cm, table)
    ensures HeldOnce(SLock(cm, table, blk).cm, SLock(cm, table, blk).table)
  {
    var r := SLock(cm, table, blk);
    if blk !in cm.modes && r.status == Granted {
      var h := LockTable.Holders(table, blk);
      assert cm.txnum !in h;
      assert r.table[blk] == h + [cm.txnum];
      assert multiset(r.table[blk])[cm.txnum] == multiset(h)[cm.txnum] + 1 == 1;
      forall b | b in r.table && cm.txnum in r.table[b]
        ensures b in r.cm.modes
      {
        if b != blk {
          assert r.table[b] == table[b];
        }
      }
    }
  }

  /** `xLock` adds only the negated id beside the S lock it first takes, so
      the id's count and the blocks holding it are those `sLock` leaves. */
  lemma XLockKeepsHeldOnce(cm: LockRecord, table: LockTable.Table, blk: Block)
    requires HeldOnce(cm, table)
    ensures HeldOnce(XLock(cm, table, blk).cm, XLock(cm, table, blk).table)
  {
    SLockKeepsHeldOnce(cm, table, blk);
    var s := SLock(cm, table, blk);
    if !HasXLock(cm, blk) && s.status == Granted {
      match LockTable.XLock(s.table, blk, cm.txnum)
      case Grant(t) =>
        assert blk in s.cm.modes;
        GrantXKeepsHeldOnce(s.cm, s.table, blk, t);
      case Wait =>
      case Abort =>
    }
  }

  /** Appending `-txnum` to a recorded block's entry keeps the id's count. */
  lemma GrantXKeepsHeldOnce(cm: LockRecord, table: LockTable.Table, blk: Block, t: LockTable.Table)
    requires HeldOnce(cm, table) && blk in cm.modes
    requires t == LockTable.AddLock(table, blk, -cm.txnum)
    ensures HeldOnce(cm.(modes := cm.modes[blk := X]), t)
  {
    var h := LockTable.Holders(table, blk);
    assert t[blk] == h + [-cm.txnum];
    assert multiset(t[blk])[cm.txnum] == multiset(h)[cm.txnum];
    forall b | b in t && cm.txnum in t[b]
      ensures b in cm.modes
    {
      if b != blk {
        assert t[b] == table[b];
      }
    }
  }

  /** Recording X on a block whose S lock is held, with `-txnum` appended
      to its entry, keeps every recorded lock in the table. */
  lemma GrantXKeepsHolds(cm: LockRecord, table: LockTable.Table, blk: Block, t: LockTable.Table)
    requires Holds(cm, table) && blk in cm.modes
    requires t == LockTable.AddLock(table, blk, -cm.txnum)
    ensures Holds(cm.(modes := cm.modes[blk := X]), t)
  {
    var modes := cm.modes[blk := X];
    forall b | b in modes
      ensures b in t && cm.txnum in t[b]
      ensures modes[b] == X ==> -cm.txnum in t[b]
    {
      if b == blk {
        assert t[b] == table[b] + [-cm.txnum];
        assert t[b][|t[b]| - 1] == -cm.txnum;
        assert cm.txnum in table[b];
      } else {
        assert t[b] == table[b];
      }
    }
  }

  /** The result of `release`: the table afterwards, the calls made, and
      whether every `unlock` completed (`false` once one threw). */
  datatype Released = Released(cm: LockRecord, table: LockTable.Table, calls: seq<Call>, ok: bool)

  /** `unlock` on each block of `order`, stopping at the first that throws. */
  function UnlockAll(table: LockTable.Table, order: seq<Block>, txnum: int): (r: (LockTable.Table, seq<Call>, bool))
    ensures |r.1| <= |order|
    ensures r.2 ==> |r.1| == |order|
  {
    if |order| == 0 then (table, [], true)
    else match LockTable.Unlock(table, order[0], txnum)
      case None => (table, [UnlockCall(order[0])], false)
      case Some(u) =>
        var rest := UnlockAll(u.table, order[1..], txnum);
        (rest.0, [UnlockCall(order[0])] + rest.1, rest.2)
  }

  /** The calls made are unlocks of the first blocks of `order`, in order. */
  lemma {:induction false} UnlockAllCalls(table: LockTable.Table, order: seq<Block>, txnum: int)
    ensures forall k :: 0 <= k < |UnlockAll(table, order, txnum).1| ==>
      UnlockAll(table, order, txnum).1[k] == UnlockCall(order[k])
    decreases |order|
  {
    if |order| > 0 {
      match LockTable.Unlock(table, order[0], txnum)
      case None =>
      case Some(u) =>
        var rest := UnlockAll(u.table, order[1..], txnum);
        UnlockAllCalls(u.table, order[1..], txnum);
        assert UnlockAll(table, order, txnum).1 == [UnlockCall(order[0])] + rest.1;
        forall k | 1 <= k < |UnlockAll(table, order, txnum).1|
          ensures UnlockAll(table, order, txnum).1[k] == UnlockCall(order[k])
        {
          assert UnlockAll(table, order, txnum).1[k] == rest.1[k - 1];
          assert order[1..][k - 1] == order[k];
        }
    }
  }

  /** Releasing touches no block outside `order`. */
  lemma {:induction false} UnlockAllFrameAt(table: LockTable.Table, order: seq<Block>, txnum: int, b: Block)
    requires b !in order
    ensures b in UnlockAll(table, order, txnum).0 <==> b in table
    ensures b in table ==> UnlockAll(table, order, txnum).0[b] == table[b]
    decreases |order|
  {
    if |order| > 0 {
      match LockTable.Unlock(table, order[0], txnum)
      case None =>
      case Some(u) =>
        assert b != order[0] && b !in order[1..];
        assert b in u.table <==> b in table;
        UnlockAllFrameAt(u.table, order[1..], txnum, b);
    }
  }

  lemma UnlockAllFrame(table: LockTable.Table, order: seq<Block>, txnum: int)
    ensures forall b :: b !in order ==>
      (b in UnlockAll(table, order, txnum).0 <==> b in table) &&
      (b in table ==> UnlockAll(table, order, txnum).0[b] == table[b])
  {
    forall b | b !in order
      ensures b in UnlockAll(table, order, txnum).0 <==> b in table
      ensures b in table ==> UnlockAll(table, order, txnum).0[b] == table[b]
    {
      UnlockAllFrameAt(table, order, txnum, b);
    }
  }

  /** `release`: unlocks each recorded block once, in `order` (the
      iteration order of the record's key set, which Java leaves
      unspecified), then clears the record. */
  function Release(cm: LockRecord, table: LockTable.Table, order: seq<Block>): (r: Released)
    requires forall b :: b in order <==> b in cm.modes
    requires forall i, j :: 0 <= i < j < |order| ==> order[i] != order[j]
    ensures r.cm.txnum == cm.txnum
    ensures r.ok ==> |r.cm.modes| == 0 && |r.calls| == |order|
    ensures !r.ok ==> r.cm == cm
    ensures |r.calls| <= |order| && forall k :: 0 <= k < |r.calls| ==> r.calls[k] == UnlockCall(order[k])
    ensures forall b :: b !in cm.modes ==> (b in r.table <==> b in table) && (b in table ==> r.table[b] == table[b])
  {
    UnlockAllFrame(table, order, cm.txnum);
    UnlockAllCalls(table, order, cm.txnum);
    var (t, calls, ok) := UnlockAll(table, order, cm.txnum);
    Released(if ok then cm.(modes := map[]) else cm, t, calls, ok)
  }

  /** When the table holds the manager's locks, with its id on each block at
      most once, every unlock completes and afterwards no recorded block
      still carries a lock of the transaction. */
  lemma {:induction false} UnlockAllFrees(table: LockTable.Table, order: seq<Block>, txnum: int)
    requires forall b :: b in order ==> b in table && multiset(table[b])[txnum] <= 1
    requires forall i, j :: 0 <= i < j < |order| ==> order[i] != order[j]
    ensures UnlockAll(table, order, txnum).2
    ensures forall b :: b in order && b in UnlockAll(table, order, txnum).0 ==>
      txnum !in UnlockAll(table, order, txnum).0[b] && -txnum !in UnlockAll(table, order, txnum).0[b]
    decreases |order|
  {
    if |order| > 0 {
      var blk := order[0];
      var u := LockTable.Unlock(table, blk, txnum).value;
      assert forall b :: b in order[1..] ==> b != blk && b in order;
      UnlockAllFrees(u.table, order[1..], txnum);
      UnlockAllFrameAt(u.table, order[1..], txnum, blk);
      var r := UnlockAll(u.table, order[1..], txnum);
      if !u.wake {
        var l := RemoveFirst(table[blk], txnum);
        assert multiset(l)[txnum] == 0;
        assert txnum !in l && -txnum !in l;
      }
    }
  }

  lemma ReleaseFrees(cm: LockRecord, table: LockTable.Table, order: seq<Block>)
    requires Holds(cm, table)
    requires forall b :: b in cm.modes ==> multiset(table[b])[cm.txnum] <= 1
    requires forall b :: b in order <==> b in cm.modes
    requires forall i, j :: 0 <= i < j < |order| ==> order[i] != order[j]
    ensures Release(cm, table, order).ok
    ensures forall b :: b in cm.modes && b in Release(cm, table, order).table ==>
      cm.txnum !in Release(cm, table, order).table[b] && -cm.txnum !in Release(cm, table, order).table[b]
  {
    UnlockAllFrees(table, order, cm.txnum);
  }
}

=== FILE: decimal.dfy ===
/** Decimal text of Java ints: `Integer.toString` and `Integer.valueOf`. */
module Decimal {
  import opened Base

  const Zero: Char16 := 48   // '0'
  const Minus: Char16 := 45  // '-'
  const Plus: Char16 := 43   // '+'

  predicate IsDigit(c: Char16) {
    Zero <= c <= Zero + 9
  }

  predicate AllDigits(s: JString) {
    forall k :: 0 <= k < |s| ==> IsDigit(s[k])
  }

  /** The decimal digits of `n`, most significant first, without leading zeros. */
  function NatDigits(n: nat): (s: JString)
    ensures |s| > 0 && AllDigits(s)
    ensures |s| > 1 ==> s[0] != Zero
    decreases n
  {
    if n < 10 then [Zero + n]
    else
      var p := NatDigits(n / 10);
      assert forall k :: 0 <= k < |p| ==> (p + [Zero + n % 10])[k] == p[k];
      p + [Zero + n % 10]
  }

  /** The number a string of ASCII digits spells. */
  function DigitsValue(s: JString): nat
    requires AllDigits(s)
  {
    if |s| == 0 then 0
    else DigitsValue(s[..|s| - 1]) * 10 + (s[|s| - 1] - Zero)
  }

  lemma {:induction false} DigitsRoundTrip(n: nat)
    ensures DigitsValue(NatDigits(n)) == n
    decreases n
  {
    if n >= 10 {
      var s := NatDigits(n);
      assert s[..|s| - 1] == NatDigits(n / 10);
      DigitsRoundTrip(n / 10);
    }
  }

  /** `Integer.toString(i)`: a minus sign for negative values, then the digits. */
  function IntToString(i: int): (s: JString)
    ensures |s| > 0 && 32 !in s   // no ' '
    ensures i >= 0 ==> AllDigits(s)
    ensures i < 0 ==> s[0] == Minus && AllDigits(s[1..])
  {
    if i < 0 then [Minus] + NatDigits(-i) else NatDigits(i)
  }

  /** `Integer.valueOf(s)` / `Integer.parseInt(s)`: an optional sign, at
      least one digit, and a value in the `int` range; anything else throws
      `NumberFormatException` (`None`). Only ASCII digits are accepted. */
  function ParseInt(s: JString): (r: Option<Int32>)
    ensures r.Some? ==> |s| > 0
    ensures r.Some? ==> AllDigits(s) || ((s[0] == Minus || s[0] == Plus) && |s| > 1 && AllDigits(s[1..]))
    ensures r.Some? && AllDigits(s) ==> r.value == DigitsValue(s)
    ensures r.Some? && s[0] == Minus ==> AllDigits(s[1..]) && r.value == -(DigitsValue(s[1..]) as int)
    ensures r.Some? && s[0] == Plus ==> AllDigits(s[1..]) && r.value == DigitsValue(s[1..])
    ensures |s| > 0 && AllDigits(s) && DigitsValue(s) <= MaxInt ==> r == Some(DigitsValue(s))
    ensures |s| > 1 && s[0] == Plus && AllDigits(s[1..]) && DigitsValue(s[1..]) <= MaxInt ==>
      r == Some(DigitsValue(s[1..]))
    ensures |s| > 1 && s[0] == Minus && AllDigits(s[1..]) && DigitsValue(s[1..]) <= -MinInt ==>
      r == Some(-(DigitsValue(s[1..]) as int))
    ensures |s| > 0 && AllDigits(s) && DigitsValue(s) > MaxInt ==> r.None?
  {
    if |s| == 0 then None
    else
      var neg := s[0] == Minus;
      var digits := if s[0] == Minus || s[0] == Plus then s[1..] else s;
      if |digits| == 0 || !AllDigits(digits) then None
      else
        var v := if neg then -(DigitsValue(digits) as int) else DigitsValue(digits);
        if MinInt <= v <= MaxInt then Some(v) else None
  }

  /** Reading back what `Integer.toString` wrote gives the same int. */
  lemma ParseIntToString(i: Int32)
    ensures ParseInt(IntToString(i)) == Some(i)
  {
    if i < 0 {
      var m: nat := -(i as int);
      var s := IntToString(i);
      assert s[1..] == NatDigits(m);
      DigitsRoundTrip(m);
    } else {
      DigitsRoundTrip(i);
    }
  }
}

=== FILE: flagbits.dfy ===
/** The bit arithmetic `RecordPage` does on a record's flag word, a Java
    `int`: `getBitVal` and `setBitVal`, and the reading of a bit that
    `getBitVal` evidently means. */
module FlagBits {
  import opened Base

  function Pow2(d: nat): (r: int)
    ensures r >= 1
  {
    if d == 0 then 1 else 2 * Pow2(d - 1)
  }

  lemma {:induction false} Pow2Add(a: nat, b: nat)
    ensures Pow2(a + b) == Pow2(a) * Pow2(b)
  {
    if a > 0 {
      Pow2Add(a - 1, b);
    }
  }

  /** The weights of bits 31 and 32. */
  lemma Pow2Values()
    ensures Pow2(31) == 0x8000_0000 && Pow2(32) == 0x1_0000_0000
  {
    assert Pow2(8) == 256;
    assert Pow2(7) == 128;
    Pow2Add(8, 8);
    Pow2Add(8, 7);
    Pow2Add(16, 15);
    Pow2Add(16, 16);
  }

  /** `n >> d` on an unbounded integer: `d` halvings rounding down, which
      is Java's arithmetic shift. */
  function Shr(n: int, d: nat): int
    decreases d
  {
    if d == 0 then n else Shr(n / 2, d - 1)
  }

  /** Two's-complement bit `q` of `n`. */
  function Bit(n: int, q: nat): (b: int)
    ensures b == 0 || b == 1
  {
    Shr(n, q) % 2
  }

  /** Java's `a % 2`, which takes the sign of `a`. */
  function JavaRem2(a: int): int
  {
    if a < 0 && a % 2 == 1 then -1 else a % 2
  }

  /** `getBitVal(n, pos)` as written: `(n >> pos) % 2`, Java taking the
      shift distance mod 32. A set bit of a negative word reads as -1. */
  function GetBitVal(n: Int32, pos: int): (b: int)
    ensures n >= 0 ==> b == GetBit(n, pos)
    ensures n < 0 ==> b == -GetBit(n, pos)
  {
    ShrSign(n, pos % 32);
    JavaRem2(Shr(n, pos % 32))
  }

  /** Bit `pos` of `n`, `(n >> pos) & 1`: what `getBitVal` is used for. */
  function GetBit(n: Int32, pos: int): (b: int)
    ensures b == 0 || b == 1
  {
    Bit(n, pos % 32)
  }

  /** Java masks a shift distance to its low five bits. */
  lemma GetBitMod(n: Int32, pos: int)
    ensures GetBit(n, pos) == GetBit(n, pos % 32)
  {
    var q := pos % 32;
    assert 0 <= q < 32;
    assert q % 32 == q;
  }

  /** `setBitVal(n, pos, value)`: with `mask = 1 << pos`, `n & ~mask` when
      `value` is 0 and `n | mask` otherwise. Clearing a set bit subtracts
      its weight and setting a clear one adds it, wrapping at bit 31. */
  function SetBitVal(n: Int32, pos: int, value: int): Int32
  {
    var q := pos % 32;
    if value == 0 then
      if Bit(n, q) == 0 then n else Wrap32(n - Pow2(q))
    else
      if Bit(n, q) == 1 then n else Wrap32(n + Pow2(q))
  }

  lemma {:induction false} ShrSign(n: int, d: nat)
    ensures Shr(n, d) < 0 <==> n < 0
    decreases d
  {
    if d > 0 {
      ShrSign(n / 2, d - 1);
    }
  }

  lemma {:induction false} ShrZero(d: nat)
    ensures Shr(0, d) == 0
    decreases d
  {
    if d > 0 {
      ShrZero(d - 1);
    }
  }

  lemma {:induction false} ShrShr(n: int, a: nat, b: nat)
    ensures Shr(Shr(n, a), b) == Shr(n, a + b)
    decreases a
  {
    if a > 0 {
      ShrShr(n / 2, a - 1, b);
    }
  }

  /** Adding `c` times bit `q`'s weight adds `c` times the shifted weight
      to every shift by at most `q`. */
  lemma {:induction false} ShrAdd(n: int, c: int, q: nat, d: nat)
    requires d <= q
    ensures Shr(n + c * Pow2(q), d) == Shr(n, d) + c * Pow2(q - d)
    decreases d
  {
    if d > 0 {
      assert c * Pow2(q) == 2 * (c * Pow2(q - 1));
      assert (n + c * Pow2(q)) / 2 == n / 2 + c * Pow2(q - 1);
      ShrAdd(n / 2, c, q - 1, d - 1);
    }
  }

  /** Adding an even amount keeps the parity. */
  lemma EvenWeight(a: int, c: int, k: nat)
    requires k >= 1
    ensures (a + c * Pow2(k)) % 2 == a % 2
  {
    var m := c * Pow2(k - 1);
    assert c * Pow2(k) == 2 * m;
    ParityShift(a, m);
  }

  lemma ParityShift(a: int, m: int)
    ensures (a + 2 * m) % 2 == a % 2
  {
  }

  /** Setting a clear bit (`c == 1`) or clearing a set one (`c == -1`)
      flips that bit and no other. */
  lemma FlipBit(n: int, q: nat, c: int, r: nat)
    requires c == 1 || c == -1
    requires Bit(n, q) == (if c == 1 then 0 else 1)
    ensures Bit(n + c * Pow2(q), r) == (if r == q then 1 - Bit(n, q) else Bit(n, r))
  {
    var m := n + c * Pow2(q);
    if r < q {
      ShrAdd(n, c, q, r);
      EvenWeight(Shr(n, r), c, q - r);
    } else {
      ShrAdd(n, c, q, q);
      assert Shr(m, q) == Shr(n, q) + c;
      if r > q {
        ShrShr(m, q, r - q);
        ShrShr(n, q, r - q);
        assert (Shr(n, q) + c) / 2 == Shr(n, q) / 2;
      }
    }
  }

  /** Wrapping to 32 bits keeps bits 0..31. */
  lemma WrapBit(x: int, r: nat)
    requires r < 32
    ensures Bit(Wrap32(x), r) == Bit(x, r)
  {
    Pow2Values();
    var k := (Wrap32(x) - x) / 0x1_0000_0000;
    assert Wrap32(x) == x + k * Pow2(32);
    ShrAdd(x, k, 32, r);
    EvenWeight(Shr(x, r), k, 32 - r);
  }

  /** `setBitVal` then the intended read gives the bit just written, and
      every other of the 32 bits as it was. */
  lemma SetBitSpec(n: Int32, pos: int, value: int)
    ensures GetBit(SetBitVal(n, pos, value), pos) == (if value == 0 then 0 else 1)
    ensures forall r :: 0 <= r < 32 && r != pos % 32 ==> GetBit(SetBitVal(n, pos, value), r) == GetBit(n, r)
  {
    var q := pos % 32;
    var c := if value == 0 then -1 else 1;
    if Bit(n, q) != (if value == 0 then 0 else 1) {
      var m := n + c * Pow2(q);
      assert SetBitVal(n, pos, value) == Wrap32(m);
      forall r: nat | r < 32
        ensures Bit(Wrap32(m), r) == (if r == q then 1 - Bit(n, q) else Bit(n, r))
      {
        WrapBit(m, r);
        FlipBit(n, q, c, r);
      }
    }
  }

  /** Bit 31 of an `int` is its sign. */
  lemma SignBit(n: Int32)
    ensures Bit(n, 31) == (if n < 0 then 1 else 0)
  {
    Pow2Values();
    ShrRange(n, 31);
    ShrSign(n, 31);
  }

  lemma {:induction false} ShrRange(n: int, d: nat)
    requires -Pow2(d) <= n < Pow2(d)
    ensures -1 <= Shr(n, d) <= 0
    decreases d
  {
    if d > 0 {
      ShrRange(n / 2, d - 1);
    }
  }

  /** A write below bit 31 keeps the sign, so the flag word of a record
      whose bits all lie in 0..30 stays non-negative and `getBitVal` reads
      it as intended. */
  lemma SetBitKeepsSign(n: Int32, pos: int, value: int)
    requires pos % 32 != 31
    ensures SetBitVal(n, pos, value) < 0 <==> n < 0
  {
    SetBitSpec(n, pos, value);
    SignBit(n);
    SignBit(SetBitVal(n, pos, value));
    assert GetBit(SetBitVal(n, pos, value), 31) == GetBit(n, 31);
  }

  /** As written: a record in use whose bit-31 field is non-null has a
      negative flag word, and `getBitVal` reads its in-use bit as -1,
      neither `INUSE` nor `EMPTY`. */
  lemma NegativeFlagHidesRecord()
    ensures SetBitVal(1, 31, 1) == MinInt + 1
    ensures GetBitVal(SetBitVal(1, 31, 1), 0) == -1
    ensures GetBit(SetBitVal(1, 31, 1), 0) == 1
  {
    Pow2Values();
    ShrRange(1, 31);
    ShrSign(1, 31);
    assert SetBitVal(1, 31, 1) == Wrap32(1 + 0x8000_0000);
  }

  /** Java takes shift distances mod 32: the bit of a 32nd field is the
      in-use bit, so nulling that field empties the record. */
  lemma BitThirtyTwoIsInUse(n: Int32, value: int)
    ensures SetBitVal(n, 32, value) == SetBitVal(n, 0, value)
    ensures GetBitVal(n, 32) == GetBitVal(n, 0)
    ensures SetBitVal(1, 32, 0) == 0
  {
  }

  /** The word `INUSE` has bit 0 set and no other: every field's null bit
      reads clear except at a shift distance that wraps to 0. */
  lemma {:induction false} InUseBits(pos: int)
    ensures GetBit(1, pos) == (if pos % 32 == 0 then 1 else 0)
  {
    if pos % 32 != 0 {
      assert Shr(1, pos % 32) == Shr(0, pos % 32 - 1);
      ShrZero(pos % 32 - 1);
    }
  }
}

=== FILE: locktable.dfy ===
/** The lock table (`simpledb.tx.concurrency.LockTable`): for each locked
    block, the list of ids holding a lock on it, where `t` is a shared lock
    of transaction `t` and `-t` an exclusive one. A request that would block
    is returned as `Wait` (the caller retries it later) and one that the
    wait-die rule kills as `Abort`, instead of suspending a thread. */
module LockTable {
  import opened Base

  type Table = map<Block, seq<int>>

  /** The outcome of a lock request. */
  datatype Decision = Grant(table: Table) | Wait | Abort

  /** The ids locking `blk`; an absent entry holds nothing. */
  function Holders(table: Table, blk: Block): seq<int> {
    if blk in table then table[blk] else []
  }

  /** `hasXlock`: some holder of `blk` holds it exclusively. */
  predicate HasXlock(table: Table, blk: Block) {
    exists k :: 0 <= k < |Holders(table, blk)| && Holders(table, blk)[k] < 0
  }

  /** `hasOtherLocks`: `blk` has more than one entry. */
  predicate HasOtherLocks(table: Table, blk: Block) {
    |Holders(table, blk)| > 1
  }

  /** `olderTxExists`: some holder of `blk` is older than `txnum`. */
  predicate OlderTxExists(table: Table, blk: Block, txnum: int) {
    exists k :: 0 <= k < |Holders(table, blk)| && Abs(Holders(table, blk)[k]) < txnum
  }

  /** `addLock`: appends `id` to the block's list, creating the list first if needed. */
  function AddLock(table: Table, blk: Block, id: int): (r: Table)
    ensures r.Keys == table.Keys + {blk}
    ensures r[blk] == Holders(table, blk) + [id]
    ensures forall b :: b in table && b != blk ==> r[b] == table[b]
  {
    table[blk := Holders(table, blk) + [id]]
  }

  /** `sLock`: granted, by appending `txnum`, unless the block is held
      exclusively; then a requester younger than some holder dies and an
      older one waits. */
  function SLock(table: Table, blk: Block, txnum: int): (d: Decision)
    ensures d.Grant? <==> !HasXlock(table, blk)
    ensures d.Grant? ==> d.table == AddLock(table, blk, txnum)
    ensures d.Abort? <==> HasXlock(table, blk) && OlderTxExists(table, blk, txnum)
  {
    if HasXlock(table, blk) then
      if OlderTxExists(table, blk, txnum) then Abort else Wait
    else Grant(AddLock(table, blk, txnum))
  }

  /** `xLock`: granted, by appending `-txnum` beside whatever entry is there,
      when the block has at most one entry; otherwise a requester younger
      than some holder dies and an older one waits. */
  function XLock(table: Table, blk: Block, txnum: int): (d: Decision)
    ensures d.Grant? <==> !HasOtherLocks(table, blk)
    ensures d.Grant? ==> d.table == AddLock(table, blk, -txnum)
    ensures d.Abort? <==> HasOtherLocks(table, blk) && OlderTxExists(table, blk, txnum)
  {
    if HasOtherLocks(table, blk) then
      if OlderTxExists(table, blk, txnum) then Abort else Wait
    else Grant(AddLock(table, blk, -txnum))
  }

  /** The result of `unlock`: the table afterwards and whether the waiting
      threads were woken. */
  datatype Unlocked = Unlocked(table: Table, wake: bool)

  /** `unlock`: with more than one entry and no exclusive entry of `txnum`,
      only the first `txnum` entry goes and nobody is woken; otherwise the
      whole entry goes and every waiter is woken. Unlocking a block with no
      entry dereferences `null` (`None`). */
  function Unlock(table: Table, blk: Block, txnum: int): (r: Option<Unlocked>)
    ensures r.None? <==> blk !in table
    ensures r.Some? && !r.value.wake ==>
      && |table[blk]| > 1 && -txnum !in table[blk]
      && r.value.table == table[blk := RemoveFirst(table[blk], txnum)]
    ensures r.Some? && r.value.wake ==>
      && (|table[blk]| <= 1 || -txnum in table[blk])
      && r.value.table == table - {blk}
  {
    if blk !in table then None
    else if |table[blk]| > 1 && -txnum !in table[blk] then
      Some(Unlocked(table[blk := RemoveFirst(table[blk], txnum)], false))
    else Some(Unlocked(table - {blk}, true))
  }

  /** Wait-die: a requester older than every holder is never killed. */
  lemma OldestNeverAborts(table: Table, blk: Block, txnum: int)
    requires forall k :: 0 <= k < |Holders(table, blk)| ==> txnum <= Abs(Holders(table, blk)[k])
    ensures !SLock(table, blk, txnum).Abort? && !XLock(table, blk, txnum).Abort?
  {
  }

  /** A list is all shared locks, or one transaction's shared lock followed
      by its exclusive one. */
  predicate ListShape(l: seq<int>) {
    || (|l| > 0 && forall k :: 0 <= k < |l| ==> l[k] > 0)
    || (|l| == 2 && l[0] > 0 && l[1] == -l[0])
  }

  /** The shape the table keeps when transactions have positive ids and
      request an exclusive lock only on blocks where they hold a shared one. */
  predicate Shape(table: Table) {
    forall b :: b in table ==> ListShape(table[b])
  }

  lemma SLockKeepsShape(table: Table, blk: Block, txnum: int)
    requires Shape(table) && txnum > 0
    ensures SLock(table, blk, txnum).Grant? ==> Shape(SLock(table, blk, txnum).table)
  {
    var d := SLock(table, blk, txnum);
    if d.Grant? {
      var l := Holders(table, blk);
      if blk in table {
        assert ListShape(l);
        assert (|l| == 2 && l[1] < 0) ==> HasXlock(table, blk);
      }
      assert d.table[blk] == l + [txnum];
    }
  }

  lemma {:induction false} XLockKeepsShape(table: Table, blk: Block, txnum: int)
    requires Shape(table) && txnum > 0
    requires txnum in Holders(table, blk)
    ensures XLock(table, blk, txnum).Grant? ==> Shape(XLock(table, blk, txnum).table)
    ensures XLock(table, blk, txnum).Grant? ==> XLock(table, blk, txnum).table[blk] == [txnum, -txnum]
  {
    var d := XLock(table, blk, txnum);
    if d.Grant? {
      var l := Holders(table, blk);
      assert |l| == 1 && l[0] == txnum;
      assert d.table[blk] == [txnum, -txnum];
    }
  }

  /** Removing one shared entry from a list with another entry keeps its shape. */
  lemma RemoveKeepsListShape(l: seq<int>, x: int)
    requires ListShape(l) && |l| > 1 && -x !in l
    ensures ListShape(RemoveFirst(l, x))
  {
    if |l| == 2 && l[0] > 0 && l[1] == -l[0] {
      assert l[0] in l && l[1] in l;
      assert x !in l;
    } else {
      RemoveKeepsShared(l, x);
    }
  }

  lemma RemoveKeepsShared(l: seq<int>, x: int)
    requires |l| > 1 && forall k :: 0 <= k < |l| ==> l[k] > 0
    ensures var r := RemoveFirst(l, x); |r| > 0 && forall k :: 0 <= k < |r| ==> r[k] > 0
  {
    var r := RemoveFirst(l, x);
    forall k | 0 <= k < |r|
      ensures r[k] > 0
    {
      assert r[k] in r;
    }
  }

  lemma UnlockKeepsShape(table: Table, blk: Block, txnum: int)
    requires Shape(table)
    ensures Unlock(table, blk, txnum).Some? ==> Shape(Unlock(table, blk, txnum).value.table)
  {
    var r := Unlock(table, blk, txnum);
    if r.Some? && !r.value.wake {
      RemoveKeepsListShape(table[blk], txnum);
    }
  }

  /** Under the shape invariant an exclusive lock excludes every other transaction. */
  lemma ExclusiveIsAlone(table: Table, blk: Block, t: int, u: int)
    requires Shape(table) && blk in table && -t in table[blk] && t > 0
    requires u in table[blk] || -u in table[blk]
    ensures u == t || u == -t
  {
    assert ListShape(table[blk]);
  }
}

=== FILE: logrecord.dfy ===
/** Log records (`simpledb.tx.recovery`): one variant per opcode of
    `LogRecord`, their field layout in a raw log record, the decoding that
    `LogRecordIterator.next` performs, and the non-quiescent checkpoint's
    text encoding of its active-transaction list. */
module LogRecords {
  import opened Base
  import JStrings
  import Decimal

  const CheckpointOp: int := 0
  const StartOp: int := 1
  const CommitOp: int := 2
  const RollbackOp: int := 3
  const SetIntOp: int := 4
  const SetStringOp: int := 5
  const NQCheckpointOp: int := 6

  datatype LogRecord =
    | Checkpoint
    | Start(txnum: int)
    | Commit(txnum: int)
    | Rollback(txnum: int)
    | SetInt(txnum: int, blk: Block, offset: int, oldVal: int)
    | SetString(txnum: int, blk: Block, offset: int, oldStr: JString)
    | NQCheckpoint(active: seq<int>)

  /** `op()`. */
  function Op(r: LogRecord): (op: int)
    ensures 0 <= op <= 6
  {
    match r
    case Checkpoint => CheckpointOp
    case Start(_) => StartOp
    case Commit(_) => CommitOp
    case Rollback(_) => RollbackOp
    case SetInt(_, _, _, _) => SetIntOp
    case SetString(_, _, _, _) => SetStringOp
    case NQCheckpoint(_) => NQCheckpointOp
  }

  /** `txNumber()`: checkpoints of both kinds belong to no transaction and
      answer the dummy id -1. */
  function TxNumber(r: LogRecord): (t: int)
    ensures r.Checkpoint? || r.NQCheckpoint? ==> t == -1
    ensures !(r.Checkpoint? || r.NQCheckpoint?) ==> t == r.txnum
  {
    if r.Checkpoint? || r.NQCheckpoint? then -1 else r.txnum
  }

  const Space: Char16 := 32

  /** `stringfyList`: the decimal ids joined by single spaces. Reading the
      last element of an empty list throws (`None`). */
  function Stringfy(ids: seq<int>): (r: Option<JString>)
    ensures r.None? <==> |ids| == 0
    ensures r.Some? ==> |r.value| > 0 && r.value[0] != Space && r.value[|r.value| - 1] != Space
  {
    if |ids| == 0 then None
    else
      JoinEnds(Texts(ids), Space);
      Some(JStrings.Join(Texts(ids), Space))
  }

  /** The `Integer.toString` text of each id. */
  function Texts(ids: seq<int>): (ts: seq<JString>)
    ensures |ts| == |ids|
    ensures forall k :: 0 <= k < |ids| ==> ts[k] == Decimal.IntToString(ids[k])
  {
    seq(|ids|, k requires 0 <= k < |ids| => Decimal.IntToString(ids[k]))
  }

  /** `listfyString`: `Integer.valueOf` of each piece of `s.split(" ")`;
      a piece that is not an int throws (`None`). */
  function Listfy(s: JString): (r: Option<seq<int>>)
    ensures r.Some? ==> |r.value| == |JStrings.Split(s, Space)|
    ensures r.Some? ==> forall k :: 0 <= k < |r.value| ==> MinInt <= r.value[k] <= MaxInt
  {
    ParseAll(JStrings.Split(s, Space))
  }

  function ParseAll(pieces: seq<JString>): (r: Option<seq<int>>)
    ensures r.Some? <==> forall k :: 0 <= k < |pieces| ==> Decimal.ParseInt(pieces[k]).Some?
    ensures r.Some? ==> |r.value| == |pieces|
    ensures r.Some? ==> forall k :: 0 <= k < |pieces| ==> r.value[k] == Decimal.ParseInt(pieces[k]).value
  {
    if |pieces| == 0 then Some([])
    else match (Decimal.ParseInt(pieces[0]), ParseAll(pieces[1..]))
      case (Some(v), Some(rest)) => Some([v as int] + rest)
      case _ => None
  }

  lemma JoinEnds(parts: seq<JString>, sep: Char16)
    requires |parts| > 0 && forall k :: 0 <= k < |parts| ==> |parts[k]| > 0 && sep !in parts[k]
    ensures var j := JStrings.Join(parts, sep); |j| > 0 && j[0] == parts[0][0] && j[|j| - 1] != sep
  {
    if |parts| > 1 {
      JoinEnds(parts[1..], sep);
    }
  }

  /** The NQ checkpoint codec: decoding the encoding of a non-empty list of
      Java ints gives the same list. */
  lemma {:induction false} ListfyStringfy(ids: seq<int>)
    requires |ids| > 0
    requires forall k :: 0 <= k < |ids| ==> MinInt <= ids[k] <= MaxInt
    ensures Stringfy(ids).Some? && Listfy(Stringfy(ids).value) == Some(ids)
  {
    var ts := Texts(ids);
    JStrings.SplitJoin(ts, Space);
    forall k | 0 <= k < |ids|
      ensures Decimal.ParseInt(ts[k]) == Some(ids[k])
    {
      Decimal.ParseIntToString(ids[k]);
    }
    var s := JStrings.Join(ts, Space);
    assert Stringfy(ids) == Some(s);
    assert JStrings.Split(s, Space) == ts;
    var r := ParseAll(ts);
    assert r.Some?;
    assert r.value == ids;
  }

  /** `toString` of the NQ checkpoint record: `"<NQCHECKPOINT " + list + ">"`. */
  function NQToString(ids: seq<int>): (r: Option<JString>)
    ensures r.None? <==> |ids| == 0
    ensures r.Some? ==> r.value == NQPrefix + Stringfy(ids).value + [62]   // '>'
  {
    match Stringfy(ids)
    case None => None
    case Some(s) => Some(NQPrefix + s + [62])
  }

  /** `"<NQCHECKPOINT "`. */
  const NQPrefix: JString := [60, 78, 81, 67, 72, 69, 67, 75, 80, 79, 73, 78, 84, 32]

  /** One value of a raw log record: the log manager stores ints and strings. */
  datatype Field = IntField(i: int) | StrField(s: JString)

  /** The fields `writeToLog` appends: the opcode, then the record's values.
      Only the NQ checkpoint can fail, on an empty list. */
  function Encode(r: LogRecord): (f: Option<seq<Field>>)
    ensures f.None? <==> r.NQCheckpoint? && |r.active| == 0
    ensures f.Some? ==> |f.value| > 0 && f.value[0] == IntField(Op(r))
  {
    match r
    case Checkpoint => Some([IntField(CheckpointOp)])
    case Start(t) => Some([IntField(StartOp), IntField(t)])
    case Commit(t) => Some([IntField(CommitOp), IntField(t)])
    case Rollback(t) => Some([IntField(RollbackOp), IntField(t)])
    case SetInt(t, blk, off, v) =>
      Some([IntField(SetIntOp), IntField(t), StrField(blk.fileName), IntField(blk.number), IntField(off), IntField(v)])
    case SetString(t, blk, off, v) =>
      Some([IntField(SetStringOp), IntField(t), StrField(blk.fileName), IntField(blk.number), IntField(off), StrField(v)])
    case NQCheckpoint(ids) =>
      match Stringfy(ids)
      case None => None
      case Some(s) => Some([IntField(NQCheckpointOp), StrField(s)])
  }

  /** What `LogRecordIterator.next` returns for a raw record. */
  datatype Decoded =
    | Record(rec: LogRecord)   // a record of the opcode's class
    | Unknown                  // an opcode with no class: `null`
    | Malformed                // the fields do not fit the opcode's class (Java throws)

  predicate IntAt(f: seq<Field>, k: nat) {
    k < |f| && f[k].IntField?
  }

  predicate StrAt(f: seq<Field>, k: nat) {
    k < |f| && f[k].StrField?
  }

  /** `LogRecordIterator.next`: the first int selects the record class,
      which reads the rest. */
  function Decode(f: seq<Field>): (d: Decoded)
    ensures IntAt(f, 0) && !(0 <= f[0].i <= 6) ==> d == Unknown
    ensures d.Record? ==> IntAt(f, 0) && Op(d.rec) == f[0].i
  {
    if !IntAt(f, 0) then Malformed
    else
      var op := f[0].i;
      if op == CheckpointOp then Record(Checkpoint)
      else if op == StartOp || op == CommitOp || op == RollbackOp then
        if !IntAt(f, 1) then Malformed
        else if op == StartOp then Record(Start(f[1].i))
        else if op == CommitOp then Record(Commit(f[1].i))
        else Record(Rollback(f[1].i))
      else if op == SetIntOp || op == SetStringOp then
        if !(IntAt(f, 1) && StrAt(f, 2) && IntAt(f, 3) && IntAt(f, 4)) then Malformed
        else
          var blk := Block(f[2].s, f[3].i);
          if op == SetIntOp then
            if IntAt(f, 5) then Record(SetInt(f[1].i, blk, f[4].i, f[5].i)) else Malformed
          else
            if StrAt(f, 5) then Record(SetString(f[1].i, blk, f[4].i, f[5].s)) else Malformed
      else if op == NQCheckpointOp then
        if !StrAt(f, 1) then Malformed
        else match Listfy(f[1].s)
          case None => Malformed
          case Some(ids) => Record(NQCheckpoint(ids))
      else Unknown
  }

  /** A record whose ints fit Java's `int`. */
  predicate JavaInts(r: LogRecord) {
    r.NQCheckpoint? ==> forall k :: 0 <= k < |r.active| ==> MinInt <= r.active[k] <= MaxInt
  }

  /** Every record written to the log is read back as itself. */
  lemma DecodeEncode(r: LogRecord)
    requires JavaInts(r)
    requires Encode(r).Some?
    ensures Decode(Encode(r).value) == Record(r)
  {
    match r
    case NQCheckpoint(ids) => DecodeNQ(ids);
    case SetInt(t, blk, off, v) => DecodeSetInt(t, blk, off, v);
    case SetString(t, blk, off, v) => DecodeSetString(t, blk, off, v);
    case _ =>
  }

  lemma DecodeNQ(ids: seq<int>)
    requires |ids| > 0 && JavaInts(NQCheckpoint(ids))
    ensures Encode(NQCheckpoint(ids)) == Some([IntField(NQCheckpointOp), StrField(Stringfy(ids).value)])
    ensures Decode([IntField(NQCheckpointOp), StrField(Stringfy(ids).value)]) == Record(NQCheckpoint(ids))
  {
    ListfyStringfy(ids);
  }

  lemma DecodeSetInt(t: int, blk: Block, off: int, v: int)
    ensures Decode(Encode(SetInt(t, blk, off, v)).value) == Record(SetInt(t, blk, off, v))
  {
    var f := [IntField(SetIntOp), IntField(t), StrField(blk.fileName), IntField(blk.number), IntField(off), IntField(v)];
    assert Encode(SetInt(t, blk, off, v)).value == f;
    assert IntAt(f, 1) && StrAt(f, 2) && IntAt(f, 3) && IntAt(f, 4) && IntAt(f, 5);
    assert Block(f[2].s, f[3].i) == blk;
  }

  lemma DecodeSetString(t: int, blk: Block, off: int, v: JString)
    ensures Decode(Encode(SetString(t, blk, off, v)).value) == Record(SetString(t, blk, off, v))
  {
    var f := [IntField(SetStringOp), IntField(t), StrField(blk.fileName), IntField(blk.number), IntField(off), StrField(v)];
    assert Encode(SetString(t, blk, off, v)).value == f;
    assert IntAt(f, 1) && StrAt(f, 2) && IntAt(f, 3) && IntAt(f, 4) && StrAt(f, 5);
    assert Block(f[2].s, f[3].i) == blk;
  }
}

=== FILE: page.dfy ===
/** The in-memory contents of one disk block (`simpledb.file.Page`): a
    400-byte array holding big-endian 4-byte ints and strings of 2-byte chars
    closed by a `'\0'` char. Disk reads and writes are not part of this module. */
module Page {
  import opened Base

  const BlockSize: int := 400
  const IntSize: int := 4
  const CharSize: int := 2

  /** The number of bytes a string of `n` chars occupies, terminator included. */
  function StrSize(n: int): int {
    (n + 1) * CharSize
  }

  type Byte = b: int | 0 <= b < 256

  const Zeros: seq<Byte> := seq(BlockSize, _ => 0)

  /** A page: exactly `BlockSize` bytes. */
  type Page = p: seq<Byte> | |p| == BlockSize witness Zeros

  /** The result of a write: the page afterwards, and whether the write
      completed (`false` when Java would have thrown part way). */
  datatype Written = Written(page: Page, ok: bool)

  /** The unsigned value of a Java `int` as it sits in memory. */
  function Unsigned(v: Int32): (u: int)
    ensures 0 <= u < 0x1_0000_0000
    ensures (u - v) % 0x1_0000_0000 == 0
  {
    if v < 0 then v + 0x1_0000_0000 else v
  }

  /** The four bytes of `v`, most significant first. */
  function IntBytes(v: Int32): (b: seq<Byte>)
    ensures |b| == IntSize
  {
    var u := Unsigned(v);
    [u / 0x100_0000, (u / 0x1_0000) % 256, (u / 256) % 256, u % 256]
  }

  /** The Java `int` whose big-endian bytes are `b`. */
  function BytesInt(b: seq<Byte>): Int32
    requires |b| == IntSize
  {
    var u := b[0] as int * 0x100_0000 + b[1] as int * 0x1_0000 + b[2] as int * 256 + b[3] as int;
    if u <= MaxInt then u else u - 0x1_0000_0000
  }

  lemma IntBytesRoundTrip(v: Int32)
    ensures BytesInt(IntBytes(v)) == v
  {
    var u := Unsigned(v);
    var b := IntBytes(v);
    assert b[0] as int * 0x100_0000 + b[1] as int * 0x1_0000 + b[2] as int * 256 + b[3] as int == u;
  }

  /** `getInt`: the int at `offset`, or 0 when its four bytes do not fit in
      the page (the exception is caught and 0 returned). */
  function GetInt(p: Page, offset: int): (r: Int32)
    ensures !(0 <= offset && offset + IntSize <= BlockSize) ==> r == 0
    ensures 0 <= offset && offset + IntSize <= BlockSize ==> r == BytesInt(p[offset..offset + IntSize])
  {
    if 0 <= offset && offset + IntSize <= BlockSize then BytesInt(p[offset..offset + IntSize]) else 0
  }

  /** `setInt`: writes the four bytes of `v` at `offset`. When they do not
      fit, Java throws before any byte is written. */
  function SetInt(p: Page, offset: int, v: Int32): (r: Written)
    ensures r.ok <==> 0 <= offset && offset + IntSize <= BlockSize
    ensures r.ok ==> GetInt(r.page, offset) == v
    ensures r.ok ==> r.page[offset..offset + IntSize] == IntBytes(v)
    ensures forall i :: 0 <= i < BlockSize && !(offset <= i < offset + IntSize) ==> r.page[i] == p[i]
  {
    if 0 <= offset && offset + IntSize <= BlockSize then
      var q: Page := p[..offset] + IntBytes(v) + p[offset + IntSize..];
      assert q[offset..offset + IntSize] == IntBytes(v);
      IntBytesRoundTrip(v);
      Written(q, true)
    else
      Written(p, false)
  }

  /** The char whose two big-endian bytes start at `i`. */
  function CharAt(p: seq<Byte>, i: int): Char16
    requires 0 <= i && i + CharSize <= |p|
  {
    p[i] as int * 256 + p[i + 1] as int
  }

  /** `putChar`: the two bytes of `c` at `offset`. */
  function PutChar(p: Page, offset: int, c: Char16): (q: Page)
    requires 0 <= offset && offset + CharSize <= BlockSize
    ensures CharAt(q, offset) == c
    ensures forall i :: 0 <= i < BlockSize && !(offset <= i < offset + CharSize) ==> q[i] == p[i]
  {
    p[..offset] + [c / 256, c % 256] + p[offset + CharSize..]
  }

  /** Successive `putChar` calls from `offset`; a char that no longer fits
      throws, leaving the chars before it written. */
  function PutChars(p: Page, offset: int, cs: seq<Char16>): (r: Written)
    requires 0 <= offset <= BlockSize
    ensures r.ok <==> offset + CharSize * |cs| <= BlockSize
    ensures forall i :: 0 <= i < BlockSize && !(offset <= i < offset + CharSize * |cs|) ==> r.page[i] == p[i]
    ensures r.ok ==> forall k :: 0 <= k < |cs| ==> CharAt(r.page, offset + CharSize * k) == cs[k]
    decreases |cs|
  {
    if |cs| == 0 then Written(p, true)
    else if offset + CharSize <= BlockSize then
      var q := PutChar(p, offset, cs[0]);
      var r := PutChars(q, offset + CharSize, cs[1..]);
      assert r.ok ==> forall k :: 1 <= k < |cs| ==> CharAt(r.page, offset + CharSize * k) == cs[k] by {
        if r.ok {
          forall k | 1 <= k < |cs|
            ensures CharAt(r.page, offset + CharSize * k) == cs[k]
          {
            assert cs[1..][k - 1] == cs[k];
            assert offset + CharSize + CharSize * (k - 1) == offset + CharSize * k;
          }
        }
      }
      r
    else Written(p, false)
  }

  /** `setString`: each char of `s` followed by a `'\0'` char. An offset
      outside the page throws before anything is written. */
  function SetString(p: Page, offset: int, s: JString): (r: Written)
    ensures r.ok <==> 0 <= offset && offset + StrSize(|s|) <= BlockSize
    ensures forall i :: 0 <= i < BlockSize && !(offset <= i < offset + StrSize(|s|)) ==> r.page[i] == p[i]
    ensures r.ok && 0 !in s ==> GetString(r.page, offset) == Some(s)
  {
    if 0 <= offset <= BlockSize then
      PutCharsReadBack(p, offset, s);
      PutChars(p, offset, s + [0])
    else Written(p, false)
  }

  /** Successive `getChar` calls from `offset` up to the first `'\0'`;
      running off the end of the page throws (`None`). */
  function ReadChars(p: Page, offset: int): Option<JString>
    requires 0 <= offset
    decreases BlockSize - offset
  {
    if offset + CharSize > BlockSize then None
    else if CharAt(p, offset) == 0 then Some([])
    else match ReadChars(p, offset + CharSize)
      case None => None
      case Some(rest) => Some([CharAt(p, offset)] + rest)
  }

  /** `getString`: the chars from `offset` up to the terminator, or `None`
      when Java would throw. */
  function GetString(p: Page, offset: int): (r: Option<JString>)
    ensures r.Some? ==> 0 <= offset && offset + StrSize(|r.value|) <= BlockSize
    ensures r.Some? ==> 0 !in r.value
  {
    ReadCharsBounds(p, offset);
    if 0 <= offset <= BlockSize then ReadChars(p, offset) else None
  }

  lemma {:induction false} ReadCharsBounds(p: Page, offset: int)
    ensures 0 <= offset && ReadChars(p, offset).Some? ==>
      offset + StrSize(|ReadChars(p, offset).value|) <= BlockSize && 0 !in ReadChars(p, offset).value
    decreases BlockSize - offset
  {
    if 0 <= offset && offset + CharSize <= BlockSize && CharAt(p, offset) != 0 {
      ReadCharsBounds(p, offset + CharSize);
    }
  }

  /** Reading back chars laid down by `PutChars`. */
  lemma {:induction false} ReadCharsOf(p: Page, offset: int, s: JString)
    requires 0 <= offset && offset + StrSize(|s|) <= BlockSize
    requires 0 !in s
    requires forall k :: 0 <= k <= |s| ==> CharAt(p, offset + CharSize * k) == (s + [0])[k]
    ensures ReadChars(p, offset) == Some(s)
    decreases |s|
  {
    if |s| == 0 {
      assert CharAt(p, offset + CharSize * 0) == (s + [0])[0];
    } else {
      assert CharAt(p, offset + CharSize * 0) == (s + [0])[0];
      forall k | 0 <= k <= |s[1..]|
        ensures CharAt(p, offset + CharSize + CharSize * k) == (s[1..] + [0])[k]
      {
        assert (s[1..] + [0])[k] == (s + [0])[k + 1];
        assert offset + CharSize + CharSize * k == offset + CharSize * (k + 1);
      }
      ReadCharsOf(p, offset + CharSize, s[1..]);
      assert [s[0]] + s[1..] == s;
    }
  }

  /** Chars laid down by `PutChars` with a terminator read back unchanged. */
  lemma PutCharsReadBack(p: Page, offset: int, s: JString)
    requires 0 <= offset <= BlockSize
    ensures PutChars(p, offset, s + [0]).ok && 0 !in s ==> ReadChars(PutChars(p, offset, s + [0]).page, offset) == Some(s)
  {
    var r := PutChars(p, offset, s + [0]);
    if r.ok && 0 !in s {
      ReadCharsOf(r.page, offset, s);
    }
  }

  /** `getInt` depends only on the four bytes it reads. */
  lemma GetIntLocal(p: Page, q: Page, offset: int)
    requires forall i :: offset <= i < offset + IntSize && 0 <= i < BlockSize ==> p[i] == q[i]
    ensures GetInt(p, offset) == GetInt(q, offset)
  {
    if 0 <= offset && offset + IntSize <= BlockSize {
      assert p[offset..offset + IntSize] == q[offset..offset + IntSize];
    }
  }

  /** `getString` depends only on the bytes of the string it returns and its terminator. */
  lemma {:induction false} GetStringLocal(p: Page, q: Page, offset: int, s: JString)
    requires GetString(p, offset) == Some(s)
    requires forall i :: offset <= i < offset + StrSize(|s|) ==> p[i] == q[i]
    ensures GetString(q, offset) == Some(s)
  {
    assert 0 <= offset && offset + StrSize(|s|) <= BlockSize;
    ReadCharsLocal(p, q, offset);
  }

  lemma {:induction false} ReadCharsLocal(p: Page, q: Page, offset: int)
    requires 0 <= offset
    requires ReadChars(p, offset).Some?
    requires forall i :: offset <= i < offset + StrSize(|ReadChars(p, offset).value|) && i < BlockSize ==> p[i] == q[i]
    ensures ReadChars(q, offset) == ReadChars(p, offset)
    decreases BlockSize - offset
  {
    ReadCharsBounds(p, offset);
    assert CharAt(p, offset) == CharAt(q, offset);
    if CharAt(p, offset) != 0 {
      ReadCharsLocal(p, q, offset + CharSize);
    }
  }
}

=== FILE: plans.dfy ===
/** Query plans for union and rename, with their cost estimates and
    schemas. A plan that is neither (a table, select or project plan) is a
    `Stored` leaf carrying its own estimates and the rows it opens onto.
    A schema is the set of its field names. */
module Plans {
  import opened Base
  import opened Term
  import opened Scans

  datatype Plan =
    | Stored(fields: set<JString>, blocks: Int32, records: Int32, distinct: JString -> Int32, rows: seq<Row>)
    | UnionOf(p1: Plan, p2: Plan)
    | Renamed(p: Plan, oldField: JString, newField: JString)

  /** `open`: a union plan opens both children under a fresh union scan; a
      rename plan wraps its child's scan. */
  function Open(p: Plan): (s: Scan)
    ensures p.Stored? ==> s == Rows(p.rows, 0, p.fields, false)
    ensures p.UnionOf? ==> s == NewUnion(Open(p.p1), Open(p.p2))
    ensures p.Renamed? ==> s == Rename(Open(p.p), p.oldField, p.newField)
  {
    match p
    case Stored(fields, _, _, _, rows) => Rows(rows, 0, fields, false)
    case UnionOf(p1, p2) => NewUnion(Open(p1), Open(p2))
    case Renamed(c, o, n) => Rename(Open(c), o, n)
  }

  /** `blocksAccessed`: a union adds its children's, in `int` arithmetic. */
  function BlocksAccessed(p: Plan): Int32 {
    match p
    case Stored(_, blocks, _, _, _) => blocks
    case UnionOf(p1, p2) => Wrap32(BlocksAccessed(p1) + BlocksAccessed(p2))
    case Renamed(c, _, _) => BlocksAccessed(c)
  }

  /** `recordsOutput`, likewise. */
  function RecordsOutput(p: Plan): Int32 {
    match p
    case Stored(_, _, records, _, _) => records
    case UnionOf(p1, p2) => Wrap32(RecordsOutput(p1) + RecordsOutput(p2))
    case Renamed(c, _, _) => RecordsOutput(c)
  }

  /** `distinctValues`: a union adds its children's estimates for the same
      field; a rename asks its child about the old name. */
  function DistinctValues(p: Plan, f: JString): Int32 {
    match p
    case Stored(_, _, _, distinct, _) => distinct(f)
    case UnionOf(p1, p2) => Wrap32(DistinctValues(p1, f) + DistinctValues(p2, f))
    case Renamed(c, o, n) => DistinctValues(c, GetField(f, o, n))
  }

  /** `schema` as written: a union's holds every field of either child, and
      a rename's is its child's, without the new name. */
  function Schema(p: Plan): set<JString> {
    match p
    case Stored(fields, _, _, _, _) => fields
    case UnionOf(p1, p2) => Schema(p1) + Schema(p2)
    case Renamed(c, _, _) => Schema(c)
  }

  /** The schema the opened scan answers `hasField` for: a union's holds
      the fields both children have, and a rename's shows the old field
      under the new name. */
  function SchemaFixed(p: Plan): (r: set<JString>)
    ensures p.Renamed? ==> forall f :: f in r <==> GetField(f, p.oldField, p.newField) in SchemaFixed(p.p)
  {
    match p
    case Stored(fields, _, _, _, _) => fields
    case UnionOf(p1, p2) => SchemaFixed(p1) * SchemaFixed(p2)
    case Renamed(c, o, n) =>
      var child := SchemaFixed(c);
      (child - {n}) + (if o in child then {n} else {})
  }

  /** The corrected schema is exactly the set of fields the plan's scan
      says it has. */
  lemma {:induction false} SchemaFixedMatchesScan(p: Plan, f: JString)
    ensures f in SchemaFixed(p) <==> HasField(Open(p), f)
  {
    match p
    case Stored(_, _, _, _, _) =>
    case UnionOf(p1, p2) =>
      SchemaFixedMatchesScan(p1, f);
      SchemaFixedMatchesScan(p2, f);
    case Renamed(c, o, n) =>
      SchemaFixedMatchesScan(c, GetField(f, o, n));
  }

  /** As written, a rename plan's schema lacks the new name, which its scan
      has. */
  lemma RenameSchemaMisses(o: JString, n: JString, blocks: Int32, records: Int32, distinct: JString -> Int32)
    requires o != n
    ensures var p := Renamed(Stored({o}, blocks, records, distinct, []), o, n);
      && n !in Schema(p) && HasField(Open(p), n)
      && n in SchemaFixed(p)
  {
    SchemaFixedMatchesScan(Renamed(Stored({o}, blocks, records, distinct, []), o, n), n);
  }

  /** As written, a union plan's schema lists a field only one child has,
      which its scan does not have. */
  lemma UnionSchemaOverstates(a: JString, b: JString, d: JString -> Int32)
    requires a != b
    ensures var p := UnionOf(Stored({a}, 1, 0, d, []), Stored({b}, 1, 0, d, []));
      && a in Schema(p) && !HasField(Open(p), a)
      && a !in SchemaFixed(p)
  {
  }

  /** Plans with no rename whose union children agree on their fields:
      there the written schema is the corrected one. */
  predicate Compatible(p: Plan) {
    match p
    case Stored(_, _, _, _, _) => true
    case UnionOf(p1, p2) => Compatible(p1) && Compatible(p2) && Schema(p1) == Schema(p2)
    case Renamed(_, _, _) => false
  }

  lemma {:induction false} CompatibleSchema(p: Plan)
    requires Compatible(p)
    ensures Schema(p) == SchemaFixed(p)
  {
    match p
    case Stored(_, _, _, _, _) =>
    case UnionOf(p1, p2) =>
      CompatibleSchema(p1);
      CompatibleSchema(p2);
  }

  /** The stored plans under `p`, left to right. */
  function Leaves(p: Plan): (ls: seq<Plan>)
    ensures forall k :: 0 <= k < |ls| ==> ls[k].Stored?
  {
    match p
    case Stored(_, _, _, _, _) => [p]
    case UnionOf(p1, p2) => Leaves(p1) + Leaves(p2)
    case Renamed(c, _, _) => Leaves(c)
  }

  function SumBlocks(ls: seq<Plan>): int
    requires forall k :: 0 <= k < |ls| ==> ls[k].Stored?
  {
    if ls == [] then 0 else ls[0].blocks + SumBlocks(ls[1..])
  }

  function SumRecords(ls: seq<Plan>): int
    requires forall k :: 0 <= k < |ls| ==> ls[k].Stored?
  {
    if ls == [] then 0 else ls[0].records + SumRecords(ls[1..])
  }

  lemma {:induction false} SumsAppend(a: seq<Plan>, b: seq<Plan>)
    requires forall k :: 0 <= k < |a| ==> a[k].Stored?
    requires forall k :: 0 <= k < |b| ==> b[k].Stored?
    ensures SumBlocks(a + b) == SumBlocks(a) + SumBlocks(b)
    ensures SumRecords(a + b) == SumRecords(a) + SumRecords(b)
  {
    if a == [] {
      assert a + b == b;
    } else {
      SumsAppend(a[1..], b);
      assert (a + b)[1..] == a[1..] + b;
    }
  }

  /** Two `int`s congruent modulo 2^32 are equal. */
  lemma WrapUnique(x: int, y: int)
    requires MinInt <= x <= MaxInt && MinInt <= y <= MaxInt
    requires (x - y) % 0x1_0000_0000 == 0
    ensures x == y
  {
  }

  /** Wrapping the operands of a sum does not change the wrapped sum. */
  lemma WrapAdd(a: int, b: int)
    ensures Wrap32(Wrap32(a) + Wrap32(b)) == Wrap32(a + b)
  {
    var l := Wrap32(Wrap32(a) + Wrap32(b));
    var r := Wrap32(a + b);
    var ka := (Wrap32(a) - a) / 0x1_0000_0000;
    var kb := (Wrap32(b) - b) / 0x1_0000_0000;
    var kl := (l - (Wrap32(a) + Wrap32(b))) / 0x1_0000_0000;
    var kr := (r - (a + b)) / 0x1_0000_0000;
    assert l - r == (ka + kb + kl - kr) * 0x1_0000_0000;
    WrapUnique(l, r);
  }

  /** Adding two wrapped values and wrapping gives the wrapped sum of what
      they wrap. */
  lemma WrapSum(x: int, y: int, a: int, b: int, total: int)
    requires x == Wrap32(a) && y == Wrap32(b) && total == a + b
    ensures Wrap32(x + y) == Wrap32(total)
  {
    WrapAdd(a, b);
  }

  /** The blocks a union reports are the leaves' total, wrapped once: the
      intermediate overflows of `int` addition do not matter. */
  lemma {:induction false} BlocksAreLeafTotal(p: Plan)
    ensures BlocksAccessed(p) == Wrap32(SumBlocks(Leaves(p)))
  {
    match p
    case Stored(_, _, _, _, _) =>
      assert Leaves(p)[1..] == [];
    case UnionOf(p1, p2) =>
      BlocksAreLeafTotal(p1);
      BlocksAreLeafTotal(p2);
      UnionBlocks(p1, p2);
    case Renamed(c, _, _) =>
      BlocksAreLeafTotal(c);
  }

  lemma UnionBlocks(p1: Plan, p2: Plan)
    requires BlocksAccessed(p1) == Wrap32(SumBlocks(Leaves(p1)))
    requires BlocksAccessed(p2) == Wrap32(SumBlocks(Leaves(p2)))
    ensures BlocksAccessed(UnionOf(p1, p2)) == Wrap32(SumBlocks(Leaves(UnionOf(p1, p2))))
  {
    var a, b := SumBlocks(Leaves(p1)), SumBlocks(Leaves(p2));
    SumsAppend(Leaves(p1), Leaves(p2));
    WrapSum(BlocksAccessed(p1), BlocksAccessed(p2), a, b, SumBlocks(Leaves(UnionOf(p1, p2))));
  }

  /** Likewise for the records a union reports. */
  lemma {:induction false} RecordsAreLeafTotal(p: Plan)
    ensures RecordsOutput(p) == Wrap32(SumRecords(Leaves(p)))
  {
    match p
    case Stored(_, _, _, _, _) =>
      assert Leaves(p)[1..] == [];
    case UnionOf(p1, p2) =>
      RecordsAreLeafTotal(p1);
      RecordsAreLeafTotal(p2);
      UnionRecords(p1, p2);
    case Renamed(c, _, _) =>
      RecordsAreLeafTotal(c);
  }

  lemma UnionRecords(p1: Plan, p2: Plan)
    requires RecordsOutput(p1) == Wrap32(SumRecords(Leaves(p1)))
    requires RecordsOutput(p2) == Wrap32(SumRecords(Leaves(p2)))
    ensures RecordsOutput(UnionOf(p1, p2)) == Wrap32(SumRecords(Leaves(UnionOf(p1, p2))))
  {
    var a, b := SumRecords(Leaves(p1)), SumRecords(Leaves(p2));
    SumsAppend(Leaves(p1), Leaves(p2));
    WrapSum(RecordsOutput(p1), RecordsOutput(p2), a, b, SumRecords(Leaves(UnionOf(p1, p2))));
  }

  /** A rename plan estimates the new name as its child estimates the old
      one, and leaves every other name alone. */
  lemma RenameDistinct(c: Plan, o: JString, n: JString, f: JString)
    ensures DistinctValues(Renamed(c, o, n), n) == DistinctValues(c, o)
    ensures f != n ==> DistinctValues(Renamed(c, o, n), f) == DistinctValues(c, f)
  {
  }

  /** A union of two stored plans yields the first one's rows and then the
      second's; when their record estimates are exact and their sum fits in
      an `int`, `recordsOutput` is exactly the number of rows yielded. */
  lemma UnionOfStored(p1: Plan, p2: Plan)
    requires p1.Stored? && p2.Stored?
    ensures Trace(Open(UnionOf(p1, p2)), |p1.rows| + |p2.rows| + 1) == Seen(p1.rows + p2.rows)
    ensures p1.records == |p1.rows| && p2.records == |p2.rows| && |p1.rows| + |p2.rows| <= MaxInt ==>
      RecordsOutput(UnionOf(p1, p2)) == |Trace(Open(UnionOf(p1, p2)), |p1.rows| + |p2.rows| + 1)|
  {
    UnionConcatenates(p1.rows, p1.fields, p2.rows, p2.fields);
  }

  /** A rename plan yields its child's rows, renamed. */
  lemma RenamedRows(c: Plan, o: JString, n: JString, fuel: nat)
    ensures |Trace(Open(Renamed(c, o, n)), fuel)| == |Trace(Open(c), fuel)|
    ensures forall k :: 0 <= k < |Trace(Open(c), fuel)| ==>
      Trace(Open(Renamed(c, o, n)), fuel)[k] == RenameView(Trace(Open(c), fuel)[k], o, n)
  {
    RenameTrace(Open(c), o, n, fuel);
  }
}

=== FILE: recordpage.dfy ===
/** The records of one block (`simpledb.record.RecordPage`): fixed-size
    slots, each a flag word followed by the record's fields. Bit 0 of the
    flag word says whether the slot is in use; bit `bitPosition(f)` says
    whether field `f` is non-null. The block's contents are a `Page.Page`
    as the transaction reads and writes it. */
module RecordPage {
  import opened Base
  import Page
  import TableInfo
  import FlagBits

  const Empty: int := 0
  const InUse: int := 1

  /** A record manager on one block: the table's layout and the current
      slot, -1 before the first. */
  datatype RecordPage = RecordPage(ti: TableInfo.TableInfo, current: int)

  /** A record length is never negative (both constructors of the layout
      give one that is the sum of field lengths, or the stored copy). */
  predicate LayoutWf(ti: TableInfo.TableInfo) {
    ti.recordLen >= 0
  }

  /** `slotsize`: the flag word and the record. */
  function SlotSize(ti: TableInfo.TableInfo): int {
    ti.recordLen + Page.IntSize
  }

  /** `currentpos` for slot `slot`. */
  function SlotPos(ti: TableInfo.TableInfo, slot: int): int {
    slot * SlotSize(ti)
  }

  /** `isValidSlot`: the whole slot fits in the block. */
  predicate ValidSlot(ti: TableInfo.TableInfo, slot: int) {
    SlotPos(ti, slot) + SlotSize(ti) <= Page.BlockSize
  }

  /** The flag word of `slot`. */
  function Flag(ti: TableInfo.TableInfo, page: Page.Page, slot: int): Int32 {
    Page.GetInt(page, SlotPos(ti, slot))
  }

  /** How bit 0 of a flag word is read: as the source reads it, with
      `getBitVal` (so a negative word with bit 0 set reads -1), or as the
      bit itself. */
  datatype Reading = AsWritten | Corrected

  /** Bit 0 of the slot's flag word, read `rd`'s way, equals `flag`. */
  predicate Matches(rd: Reading, ti: TableInfo.TableInfo, page: Page.Page, slot: int, flag: int) {
    var w := Flag(ti, page, slot);
    (if rd.AsWritten? then FlagBits.GetBitVal(w, 0) else FlagBits.GetBit(w, 0)) == flag
  }

  /** The two readings agree on EMPTY and on every non-negative word; as
      written, a slot is in use only when its flag word is non-negative. */
  lemma ReadingsAgree(ti: TableInfo.TableInfo, page: Page.Page, slot: int, flag: int)
    ensures Matches(AsWritten, ti, page, slot, Empty) <==> Matches(Corrected, ti, page, slot, Empty)
    ensures Flag(ti, page, slot) >= 0 ==> (Matches(AsWritten, ti, page, slot, flag) <==> Matches(Corrected, ti, page, slot, flag))
    ensures Matches(AsWritten, ti, page, slot, InUse) <==> Flag(ti, page, slot) >= 0 && Matches(Corrected, ti, page, slot, InUse)
  {
  }

  /** A range of bytes that lies inside the page; a write elsewhere throws. */
  predicate Within(pos: int, size: int) {
    0 <= pos && pos + size <= Page.BlockSize
  }

  /** The current slot's flag word lies inside the page. */
  predicate FlagFits(rp: RecordPage) {
    Within(SlotPos(rp.ti, rp.current), Page.IntSize)
  }

  /** The constructor: positioned before the first record. */
  function Open(ti: TableInfo.TableInfo): (rp: RecordPage)
    ensures rp.ti == ti && rp.current < 0
  {
    RecordPage(ti, -1)
  }

  lemma NextSlotPos(ti: TableInfo.TableInfo, slot: int)
    ensures SlotPos(ti, slot + 1) == SlotPos(ti, slot) + SlotSize(ti)
  {
  }

  /** Valid slots are exactly those below `BLOCK_SIZE / slotsize`. */
  lemma ValidSlotBelow(ti: TableInfo.TableInfo, slot: int)
    requires LayoutWf(ti)
    ensures ValidSlot(ti, slot) <==> slot < Page.BlockSize / SlotSize(ti)
  {
    var ss := SlotSize(ti);
    var q := Page.BlockSize / ss;
    assert Page.BlockSize == q * ss + Page.BlockSize % ss;
    assert SlotPos(ti, slot) + ss == (slot + 1) * ss;
    if slot + 1 <= q {
      MulMono(slot + 1, q, ss);
    } else {
      MulMono(q + 1, slot + 1, ss);
    }
  }

  lemma MulMono(a: int, b: int, c: int)
    requires a <= b && c >= 0
    ensures a * c <= b * c
  {
    assert b * c - a * c == (b - a) * c;
  }

  /** Distinct slots' flag words do not overlap. */
  lemma FlagsApart(ti: TableInfo.TableInfo, s: int, t: int)
    requires LayoutWf(ti) && s < t
    ensures SlotPos(ti, s) + Page.IntSize <= SlotPos(ti, t)
  {
    MulMono(s + 1, t, SlotSize(ti));
  }

  /** The outcome of a slot search: whether a slot was found, and where
      the current slot was left. */
  datatype Search = Search(found: bool, slot: int)

  /** The `searchFor` loop from `slot` on: the first valid slot whose bit 0
      is `flag`, or else the first invalid slot, every slot passed being
      valid and not matching. */
  function SearchFrom(rd: Reading, ti: TableInfo.TableInfo, page: Page.Page, slot: int, flag: int): (r: Search)
    requires LayoutWf(ti)
    ensures r.slot >= slot
    ensures r.found ==> ValidSlot(ti, r.slot) && Matches(rd, ti, page, r.slot, flag)
    ensures !r.found ==> !ValidSlot(ti, r.slot)
    ensures forall s :: slot <= s < r.slot ==> ValidSlot(ti, s) && !Matches(rd, ti, page, s, flag)
    decreases Page.BlockSize - SlotPos(ti, slot)
  {
    NextSlotPos(ti, slot);
    if !ValidSlot(ti, slot) then Search(false, slot)
    else if Matches(rd, ti, page, slot, flag) then Search(true, slot)
    else SearchFrom(rd, ti, page, slot + 1, flag)
  }

  /** The `previous` loop from `slot` down: the first slot at or below it
      that is in use, or -1 (or `slot` itself when already negative), every
      slot passed not in use. */
  function PrevFrom(rd: Reading, ti: TableInfo.TableInfo, page: Page.Page, slot: int): (r: Search)
    ensures r.slot <= slot
    ensures r.found ==> 0 <= r.slot && Matches(rd, ti, page, r.slot, InUse)
    ensures !r.found ==> r.slot == (if slot < 0 then slot else -1)
    ensures forall s :: r.slot < s <= slot ==> !Matches(rd, ti, page, s, InUse)
    decreases slot + 1
  {
    if slot < 0 then Search(false, slot)
    else if Matches(rd, ti, page, slot, InUse) then Search(true, slot)
    else PrevFrom(rd, ti, page, slot - 1)
  }

  datatype Moved = Moved(rp: RecordPage, found: bool)

  /** `next`: on to the next slot in use, as `getBitVal` reads it. */
  function Next(rp: RecordPage, page: Page.Page): (m: Moved)
    requires LayoutWf(rp.ti)
    ensures m.rp.ti == rp.ti && m.rp.current > rp.current
    ensures m.found <==> ValidSlot(rp.ti, m.rp.current)
    ensures m.found ==> Matches(AsWritten, rp.ti, page, m.rp.current, InUse)
    ensures forall s :: rp.current < s < m.rp.current ==> !Matches(AsWritten, rp.ti, page, s, InUse)
  {
    var r := SearchFrom(AsWritten, rp.ti, page, rp.current + 1, InUse);
    Moved(rp.(current := r.slot), r.found)
  }

  /** `next` reading the in-use bit itself: it stops at every slot whose
      bit 0 is set, whatever the sign of its flag word. */
  function NextFixed(rp: RecordPage, page: Page.Page): (m: Moved)
    requires LayoutWf(rp.ti)
    ensures m.rp.ti == rp.ti && m.rp.current > rp.current
    ensures m.found <==> ValidSlot(rp.ti, m.rp.current)
    ensures m.found ==> Matches(Corrected, rp.ti, page, m.rp.current, InUse)
    ensures forall s :: rp.current < s < m.rp.current ==> !Matches(Corrected, rp.ti, page, s, InUse)
  {
    var r := SearchFrom(Corrected, rp.ti, page, rp.current + 1, InUse);
    Moved(rp.(current := r.slot), r.found)
  }

  /** As written, `next` passes over an in-use slot whose flag word is
      negative: from the start of a block whose slot 0 holds `0x80000001`
      (in use, with bit 31 set by a 31st field), `next` moves beyond slot 0,
      while the corrected `next` stops there. */
  lemma NextSkipsNegativeFlag(ti: TableInfo.TableInfo, page: Page.Page)
    requires LayoutWf(ti) && ValidSlot(ti, 0)
    requires Flag(ti, page, 0) == MinInt + 1
    ensures Flag(ti, page, 0) == FlagBits.SetBitVal(InUse, 31, 1)
    ensures Next(Open(ti), page).rp.current > 0
    ensures NextFixed(Open(ti), page) == Moved(RecordPage(ti, 0), true)
  {
    FlagBits.NegativeFlagHidesRecord();
    assert !Matches(AsWritten, ti, page, 0, InUse);
    assert Matches(Corrected, ti, page, 0, InUse);
  }

  /** `previous`: back to the previous slot in use, as `getBitVal` reads it. */
  function Previous(rp: RecordPage, page: Page.Page): (m: Moved)
    ensures m.rp.ti == rp.ti && m.rp.current < rp.current
    ensures m.found ==> 0 <= m.rp.current && Matches(AsWritten, rp.ti, page, m.rp.current, InUse)
    ensures !m.found ==> m.rp.current < 0
    ensures forall s :: m.rp.current < s < rp.current ==> !Matches(AsWritten, rp.ti, page, s, InUse)
  {
    var r := PrevFrom(AsWritten, rp.ti, page, rp.current - 1);
    Moved(rp.(current := r.slot), r.found)
  }

  /** `afterLast`: just past the last valid slot. */
  function AfterLast(rp: RecordPage): (r: RecordPage)
    requires LayoutWf(rp.ti)
    ensures r.ti == rp.ti
    ensures !ValidSlot(rp.ti, r.current) && ValidSlot(rp.ti, r.current - 1)
  {
    ValidSlotBelow(rp.ti, Page.BlockSize / SlotSize(rp.ti));
    ValidSlotBelow(rp.ti, Page.BlockSize / SlotSize(rp.ti) - 1);
    rp.(current := Page.BlockSize / SlotSize(rp.ti))
  }

  /** Scanning backwards from after the last record finds the last valid
      slot in use, and fails only when no valid slot is in use. */
  lemma AfterLastPrevious(rp: RecordPage, page: Page.Page)
    requires LayoutWf(rp.ti)
    ensures var m := Previous(AfterLast(rp), page);
      && (m.found <==> exists s :: 0 <= s && ValidSlot(rp.ti, s) && Matches(AsWritten, rp.ti, page, s, InUse))
      && (m.found ==> ValidSlot(rp.ti, m.rp.current))
      && (forall s :: m.rp.current < s && ValidSlot(rp.ti, s) ==> !Matches(AsWritten, rp.ti, page, s, InUse))
  {
    var a := AfterLast(rp);
    var m := Previous(a, page);
    forall s | m.rp.current < s && ValidSlot(rp.ti, s)
      ensures !Matches(AsWritten, rp.ti, page, s, InUse)
    {
      ValidSlotBelow(rp.ti, s);
    }
    if m.found {
      ValidSlotBelow(rp.ti, m.rp.current);
    }
  }

  /** `moveToId`. */
  function MoveToId(rp: RecordPage, id: int): (r: RecordPage)
    ensures CurrentId(r) == id && r.ti == rp.ti
  {
    rp.(current := id)
  }

  /** `currentId`. */
  function CurrentId(rp: RecordPage): int {
    rp.current
  }

  datatype Inserted = Inserted(rp: RecordPage, page: Page.Page, found: bool)

  /** `insert`: the first valid empty slot from the start becomes the
      current one and is marked in use; with none, nothing is written. */
  function Insert(rp: RecordPage, page: Page.Page): (r: Inserted)
    requires LayoutWf(rp.ti)
    ensures r.rp.ti == rp.ti
    ensures r.found ==> 0 <= r.rp.current && ValidSlot(rp.ti, r.rp.current)
    ensures r.found ==> Matches(AsWritten, rp.ti, page, r.rp.current, Empty) && Matches(AsWritten, rp.ti, r.page, r.rp.current, InUse)
    ensures r.found ==> Flag(rp.ti, r.page, r.rp.current) == InUse
    ensures r.found ==> forall f :: f in rp.ti.bitLocs ==>
      (IsNull(r.rp, r.page, f) == Some(true) <==> rp.ti.bitLocs[f] % 32 != 0)
    ensures forall s :: 0 <= s < r.rp.current ==> !Matches(AsWritten, rp.ti, page, s, Empty)
    ensures !r.found ==> r.page == page && forall s :: 0 <= s && ValidSlot(rp.ti, s) ==> !Matches(AsWritten, rp.ti, page, s, Empty)
    ensures SameOutside(r.page, page, SlotPos(rp.ti, r.rp.current), SlotPos(rp.ti, r.rp.current) + Page.IntSize)
  {
    var s := SearchFrom(AsWritten, rp.ti, page, 0, Empty);
    if s.found then
      var w := Page.SetInt(page, SlotPos(rp.ti, s.slot), InUse);
      FlagBits.Pow2Values();
      assert FlagBits.GetBit(InUse, 0) == 1;
      forall f | f in rp.ti.bitLocs
        ensures FlagBits.GetBit(InUse, rp.ti.bitLocs[f]) == (if rp.ti.bitLocs[f] % 32 == 0 then 1 else 0)
      {
        FlagBits.InUseBits(rp.ti.bitLocs[f]);
      }
      Inserted(rp.(current := s.slot), w.page, true)
    else
      assert forall t :: 0 <= t && ValidSlot(rp.ti, t) ==> t < s.slot by {
        forall t | 0 <= t && ValidSlot(rp.ti, t)
          ensures t < s.slot
        {
          ValidSlotBelow(rp.ti, t);
          ValidSlotBelow(rp.ti, s.slot);
        }
      }
      Inserted(rp.(current := s.slot), page, false)
  }

  /** `delete`: the current slot's flag word becomes `EMPTY`; a flag word
      outside the page throws (`None`). */
  function Delete(rp: RecordPage, page: Page.Page): (r: Option<Page.Page>)
    ensures r.Some? <==> FlagFits(rp)
    ensures r.Some? ==> Flag(rp.ti, r.value, rp.current) == Empty
    ensures r.Some? ==> SameOutside(r.value, page, SlotPos(rp.ti, rp.current), SlotPos(rp.ti, rp.current) + Page.IntSize)
  {
    var w := Page.SetInt(page, SlotPos(rp.ti, rp.current), Empty);
    if w.ok then Some(w.page) else None
  }

  /** The pages agree on every byte outside `lo..hi`. */
  predicate SameOutside(p: Page.Page, q: Page.Page, lo: int, hi: int) {
    forall i :: 0 <= i < Page.BlockSize && !(lo <= i < hi) ==> p[i] == q[i]
  }

  /** The pages agree on every byte inside `lo..hi`. */
  predicate SameWithin(p: Page.Page, q: Page.Page, lo: int, hi: int) {
    forall i :: 0 <= i < Page.BlockSize && lo <= i < hi ==> p[i] == q[i]
  }

  /** An int read depends only on its four bytes. */
  lemma GetIntFrame(p: Page.Page, q: Page.Page, pos: int)
    requires SameWithin(p, q, pos, pos + Page.IntSize)
    ensures Page.GetInt(p, pos) == Page.GetInt(q, pos)
  {
    if 0 <= pos && pos + Page.IntSize <= Page.BlockSize {
      assert p[pos..pos + Page.IntSize] == q[pos..pos + Page.IntSize];
    }
  }

  /** A deleted record reads as not in use and every field as null, and
      the next `insert` takes that slot or an earlier one. */
  lemma DeleteThenInsert(rp: RecordPage, page: Page.Page)
    requires LayoutWf(rp.ti) && 0 <= rp.current && ValidSlot(rp.ti, rp.current)
    ensures Delete(rp, page).Some?
    ensures var d := Delete(rp, page).value;
      && Matches(AsWritten, rp.ti, d, rp.current, Empty)
      && (forall pos :: FlagBits.GetBit(Flag(rp.ti, d, rp.current), pos) == 0)
      && Insert(rp, d).found && Insert(rp, d).rp.current <= rp.current
  {
    MulMono(0, rp.current, SlotSize(rp.ti));
    var d := Delete(rp, page).value;
    forall pos
      ensures FlagBits.GetBit(0, pos) == 0
    {
      FlagBits.ShrZero(pos % 32);
    }
  }

  /** The position of field `f` in the current record (`fieldpos`), or
      `None` where `ti.offset(f)` is `null` and Java throws. */
  function FieldPos(rp: RecordPage, f: JString): (r: Option<int>)
    ensures r.Some? <==> f in rp.ti.offsets
    ensures r.Some? ==> r.value == SlotPos(rp.ti, rp.current) + Page.IntSize + rp.ti.offsets[f]
  {
    if f in rp.ti.offsets then Some(SlotPos(rp.ti, rp.current) + Page.IntSize + rp.ti.offsets[f]) else None
  }

  /** `getInt`. */
  function GetInt(rp: RecordPage, page: Page.Page, f: JString): (r: Option<Int32>)
    ensures r.Some? <==> f in rp.ti.offsets
  {
    match FieldPos(rp, f)
    case None => None
    case Some(pos) => Some(Page.GetInt(page, pos))
  }

  /** `getString`; `None` also when no terminator follows within the
      page. */
  function GetString(rp: RecordPage, page: Page.Page, f: JString): (r: Option<JString>)
    ensures r.Some? ==> f in rp.ti.offsets
  {
    match FieldPos(rp, f)
    case None => None
    case Some(pos) => Page.GetString(page, pos)
  }

  /** `isNull`: the field's bit of the current flag word is 0; `None` for a
      field without a bit, where Java throws. */
  function IsNull(rp: RecordPage, page: Page.Page, f: JString): (r: Option<bool>)
    ensures r.Some? <==> f in rp.ti.bitLocs
  {
    if f in rp.ti.bitLocs then
      Some(FlagBits.GetBit(Flag(rp.ti, page, rp.current), rp.ti.bitLocs[f]) == 0)
    else None
  }

  /** The flag-word rewrite `setNull` (`value` 0) and `setNotNull`
      (`value` 1) do. */
  function SetFlagBit(rp: RecordPage, page: Page.Page, bit: int, value: int): (r: Page.Written)
    ensures r.ok <==> FlagFits(rp)
    ensures SameOutside(r.page, page, SlotPos(rp.ti, rp.current), SlotPos(rp.ti, rp.current) + Page.IntSize)
  {
    var pos := SlotPos(rp.ti, rp.current);
    Page.SetInt(page, pos, FlagBits.SetBitVal(Page.GetInt(page, pos), bit, value))
  }

  /** `setNull`; a field without a bit, or a flag word outside the page,
      throws. */
  function SetNull(rp: RecordPage, page: Page.Page, f: JString): (r: Option<Page.Page>)
    ensures r.Some? <==> f in rp.ti.bitLocs && FlagFits(rp)
  {
    if f !in rp.ti.bitLocs then None
    else
      var w := SetFlagBit(rp, page, rp.ti.bitLocs[f], 0);
      if w.ok then Some(w.page) else None
  }

  /** `setInt`: the value goes to the field, then the field is marked
      non-null. A field missing from the offsets (or the bits) throws, and
      so does a write outside the page: a field that does not fit stops
      `setInt` before the flag word is touched. */
  function SetInt(rp: RecordPage, page: Page.Page, f: JString, v: Int32): (r: Option<Page.Page>)
    ensures r.Some? <==>
      && f in rp.ti.offsets && f in rp.ti.bitLocs
      && Within(FieldPos(rp, f).value, Page.IntSize) && FlagFits(rp)
  {
    if f !in rp.ti.offsets || f !in rp.ti.bitLocs then None
    else
      var written := Page.SetInt(page, FieldPos(rp, f).value, v);
      if !written.ok then None
      else
        var flagged := SetFlagBit(rp, written.page, rp.ti.bitLocs[f], 1);
        if flagged.ok then Some(flagged.page) else None
  }

  /** `setString`, likewise; the string and its terminator must fit. */
  function SetString(rp: RecordPage, page: Page.Page, f: JString, s: JString): (r: Option<Page.Page>)
    ensures r.Some? <==>
      && f in rp.ti.offsets && f in rp.ti.bitLocs
      && Within(FieldPos(rp, f).value, Page.StrSize(|s|)) && FlagFits(rp)
  {
    if f !in rp.ti.offsets || f !in rp.ti.bitLocs then None
    else
      var written := Page.SetString(page, FieldPos(rp, f).value, s);
      if !written.ok then None
      else
        var flagged := SetFlagBit(rp, written.page, rp.ti.bitLocs[f], 1);
        if flagged.ok then Some(flagged.page) else None
  }

  /** The current slot is a real slot in the block. */
  predicate AtValidSlot(rp: RecordPage) {
    LayoutWf(rp.ti) && 0 <= rp.current && ValidSlot(rp.ti, rp.current)
  }

  /** Rewriting one bit of the current flag word: that bit reads back as
      written, and every other bit (so the in-use bit and every other
      field's null bit) is kept. */
  lemma SetFlagBitSpec(rp: RecordPage, page: Page.Page, bit: int, value: int)
    requires AtValidSlot(rp)
    ensures SetFlagBit(rp, page, bit, value).ok
    ensures var r := SetFlagBit(rp, page, bit, value).page;
      && FlagBits.GetBit(Flag(rp.ti, r, rp.current), bit) == (if value == 0 then 0 else 1)
      && forall b :: 0 <= b < 32 && b != bit % 32 ==>
           FlagBits.GetBit(Flag(rp.ti, r, rp.current), b) == FlagBits.GetBit(Flag(rp.ti, page, rp.current), b)
  {
    MulMono(0, rp.current, SlotSize(rp.ti));
    FlagBits.SetBitSpec(Flag(rp.ti, page, rp.current), bit, value);
  }

  /** After `setNull`, the field reads as null; the record stays in use and
      the other fields keep their null bits, as long as bits differ mod 32.
      As `getBitVal` reads it, the record stays in use unless the field's
      bit is the sign bit. */
  lemma SetNullSpec(rp: RecordPage, page: Page.Page, f: JString, g: JString)
    requires AtValidSlot(rp) && f in rp.ti.bitLocs
    ensures SetNull(rp, page, f).Some?
    ensures var r := SetNull(rp, page, f).value;
      && IsNull(rp, r, f) == Some(true)
      && (rp.ti.bitLocs[f] % 32 != 0 ==> (Matches(Corrected, rp.ti, r, rp.current, InUse) <==> Matches(Corrected, rp.ti, page, rp.current, InUse)))
      && (rp.ti.bitLocs[f] % 32 !in {0, 31} ==> (Matches(AsWritten, rp.ti, r, rp.current, InUse) <==> Matches(AsWritten, rp.ti, page, rp.current, InUse)))
      && (g in rp.ti.bitLocs && rp.ti.bitLocs[g] % 32 != rp.ti.bitLocs[f] % 32 ==> IsNull(rp, r, g) == IsNull(rp, page, g))
  {
    SetFlagBitSpec(rp, page, rp.ti.bitLocs[f], 0);
    if rp.ti.bitLocs[f] % 32 !in {0, 31} {
      FlagBits.SetBitKeepsSign(Flag(rp.ti, page, rp.current), rp.ti.bitLocs[f], 0);
    }
    if g in rp.ti.bitLocs && rp.ti.bitLocs[g] % 32 != rp.ti.bitLocs[f] % 32 {
      var r := SetNull(rp, page, f).value;
      FlagBits.GetBitMod(Flag(rp.ti, page, rp.current), rp.ti.bitLocs[g]);
      FlagBits.GetBitMod(Flag(rp.ti, r, rp.current), rp.ti.bitLocs[g]);
    }
  }

  /** After `setInt`, the field reads back the value and is not null; the
      record stays in use and the other fields keep their null bits. */
  lemma SetIntSpec(rp: RecordPage, page: Page.Page, f: JString, v: Int32, g: JString)
    requires AtValidSlot(rp) && f in rp.ti.offsets && f in rp.ti.bitLocs
    requires 0 <= rp.ti.offsets[f] && rp.ti.offsets[f] + Page.IntSize <= rp.ti.recordLen
    ensures SetInt(rp, page, f, v).Some?
    ensures var r := SetInt(rp, page, f, v).value;
      && GetInt(rp, r, f) == Some(v)
      && IsNull(rp, r, f) == Some(false)
      && (rp.ti.bitLocs[f] % 32 != 0 ==> (Matches(Corrected, rp.ti, r, rp.current, InUse) <==> Matches(Corrected, rp.ti, page, rp.current, InUse)))
      && (rp.ti.bitLocs[f] % 32 !in {0, 31} ==> (Matches(AsWritten, rp.ti, r, rp.current, InUse) <==> Matches(AsWritten, rp.ti, page, rp.current, InUse)))
      && (g in rp.ti.bitLocs && rp.ti.bitLocs[g] % 32 != rp.ti.bitLocs[f] % 32 ==> IsNull(rp, r, g) == IsNull(rp, page, g))
  {
    var bit := rp.ti.bitLocs[f];
    var written := Page.SetInt(page, FieldPos(rp, f).value, v).page;
    SetIntSteps(rp, page, f, v);
    SetFlagBitSpec(rp, written, bit, 1);
    var r := SetFlagBit(rp, written, bit, 1).page;
    assert SetInt(rp, page, f, v).value == r;
    var fr, fp := Flag(rp.ti, r, rp.current), Flag(rp.ti, page, rp.current);
    assert Flag(rp.ti, written, rp.current) == fp;
    assert FlagBits.GetBit(fr, bit) == 1;
    if bit % 32 != 0 {
      assert FlagBits.GetBit(fr, 0) == FlagBits.GetBit(fp, 0);
    }
    if bit % 32 !in {0, 31} {
      FlagBits.SetBitKeepsSign(fp, bit, 1);
    }
    if g in rp.ti.bitLocs && rp.ti.bitLocs[g] % 32 != bit % 32 {
      var gb := rp.ti.bitLocs[g];
      assert FlagBits.GetBit(fr, gb % 32) == FlagBits.GetBit(fp, gb % 32);
      FlagBits.GetBitMod(fp, gb);
      FlagBits.GetBitMod(fr, gb);
    }
  }

  /** As written, giving a value to the field whose null bit is bit 31 makes
      the flag word negative, so an in-use record stops reading as in use
      and `next` passes it over; bit 0 itself is untouched. */
  lemma SetIntHidesRecord(rp: RecordPage, page: Page.Page, f: JString, v: Int32)
    requires AtValidSlot(rp) && f in rp.ti.offsets && f in rp.ti.bitLocs
    requires 0 <= rp.ti.offsets[f] && rp.ti.offsets[f] + Page.IntSize <= rp.ti.recordLen
    requires rp.ti.bitLocs[f] % 32 == 31
    requires Matches(Corrected, rp.ti, page, rp.current, InUse)
    ensures SetInt(rp, page, f, v).Some?
    ensures Matches(Corrected, rp.ti, SetInt(rp, page, f, v).value, rp.current, InUse)
    ensures !Matches(AsWritten, rp.ti, SetInt(rp, page, f, v).value, rp.current, InUse)
  {
    SetIntSpec(rp, page, f, v, f);
    var r := SetInt(rp, page, f, v).value;
    var fr := Flag(rp.ti, r, rp.current);
    FlagBits.GetBitMod(fr, rp.ti.bitLocs[f]);
    FlagBits.SignBit(fr);
    ReadingsAgree(rp.ti, r, rp.current, InUse);
  }

  /** The field write of `setInt` leaves the flag word alone, and the flag
      write after it leaves the field alone. */
  lemma SetIntSteps(rp: RecordPage, page: Page.Page, f: JString, v: Int32)
    requires AtValidSlot(rp) && f in rp.ti.offsets && f in rp.ti.bitLocs
    requires 0 <= rp.ti.offsets[f] && rp.ti.offsets[f] + Page.IntSize <= rp.ti.recordLen
    ensures Page.SetInt(page, FieldPos(rp, f).value, v).ok
    ensures var written := Page.SetInt(page, FieldPos(rp, f).value, v).page;
      && Flag(rp.ti, written, rp.current) == Flag(rp.ti, page, rp.current)
      && GetInt(rp, SetFlagBit(rp, written, rp.ti.bitLocs[f], 1).page, f) == Some(v)
  {
    var flagPos := SlotPos(rp.ti, rp.current);
    var pos := FieldPos(rp, f).value;
    MulMono(0, rp.current, SlotSize(rp.ti));
    assert 0 <= pos && pos + Page.IntSize <= Page.BlockSize;
    var written := Page.SetInt(page, pos, v).page;
    assert Page.GetInt(written, pos) == v;
    GetIntFrame(page, written, flagPos);
    GetIntFrame(written, SetFlagBit(rp, written, rp.ti.bitLocs[f], 1).page, pos);
  }

  /** Chars read from `offset` depend only on the bytes they occupy and
      the terminator's. */
  lemma {:induction false} ReadCharsFrame(p: Page.Page, q: Page.Page, offset: int)
    requires 0 <= offset && Page.ReadChars(p, offset).Some?
    requires SameWithin(p, q, offset, offset + Page.StrSize(|Page.ReadChars(p, offset).value|))
    ensures Page.ReadChars(q, offset) == Page.ReadChars(p, offset)
    decreases Page.BlockSize - offset
  {
    assert p[offset] == q[offset] && p[offset + 1] == q[offset + 1];
    if Page.CharAt(p, offset) != 0 {
      var rest := Page.ReadChars(p, offset + Page.CharSize).value;
      assert Page.StrSize(|Page.ReadChars(p, offset).value|) == Page.CharSize + Page.StrSize(|rest|);
      ReadCharsFrame(p, q, offset + Page.CharSize);
    }
  }

  /** After `setString` of a string that fits its slot and holds no
      `'\0'`, the field reads it back and is not null. */
  lemma SetStringSpec(rp: RecordPage, page: Page.Page, f: JString, s: JString)
    requires AtValidSlot(rp) && f in rp.ti.offsets && f in rp.ti.bitLocs
    requires 0 <= rp.ti.offsets[f] && rp.ti.offsets[f] + Page.StrSize(|s|) <= rp.ti.recordLen
    requires 0 !in s
    ensures SetString(rp, page, f, s).Some?
    ensures var r := SetString(rp, page, f, s).value;
      && GetString(rp, r, f) == Some(s)
      && IsNull(rp, r, f) == Some(false)
  {
    var flagPos := SlotPos(rp.ti, rp.current);
    var pos := FieldPos(rp, f).value;
    MulMono(0, rp.current, SlotSize(rp.ti));
    var written := Page.SetString(page, pos, s).page;
    var r := SetFlagBit(rp, written, rp.ti.bitLocs[f], 1).page;
    GetIntFrame(page, written, flagPos);
    assert Page.GetString(written, pos) == Some(s);
    ReadCharsFrame(written, r, pos);
    SetFlagBitSpec(rp, written, rp.ti.bitLocs[f], 1);
  }
}

=== FILE: recovery.dfy ===
/** The recovery manager (`simpledb.tx.recovery.RecoveryMgr`) over an
    abstract store and a log kept oldest record first. Undo walks the log
    newest first, as `LogRecordIterator` does. Buffer flushing and log
    forcing appear as events in the returned trace. */
module Recovery {
  import opened Base
  import opened LogRecords

  /** A stored value, and where it is stored: the int or the string at a
      byte offset of a block. The int and the string at one offset are
      independent here (see README). */
  datatype Value = IntVal(i: int) | StrVal(s: JString)
  datatype Slot = Slot(blk: Block, offset: int, isStr: bool)
  type Store = map<Slot, Value>

  /** What an unwritten slot reads as: the value of all-zero bytes. */
  function Default(x: Slot): (v: Value)
    ensures v.StrVal? == x.isStr
  {
    if x.isStr then StrVal([]) else IntVal(0)
  }

  function Get(s: Store, x: Slot): Value {
    if x in s then s[x] else Default(x)
  }

  /** Every slot holds a value of its own kind. */
  predicate Typed(s: Store) {
    forall x :: x in s ==> s[x].StrVal? == x.isStr
  }

  /** The int a store holds at an offset. */
  function GetInt(s: Store, blk: Block, offset: int): (v: int)
    ensures Typed(s) ==> Get(s, Slot(blk, offset, false)) == IntVal(v)
  {
    match Get(s, Slot(blk, offset, false))
    case IntVal(i) => i
    case StrVal(_) => 0
  }

  /** The string a store holds at an offset. */
  function GetString(s: Store, blk: Block, offset: int): (v: JString)
    ensures Typed(s) ==> Get(s, Slot(blk, offset, true)) == StrVal(v)
  {
    match Get(s, Slot(blk, offset, true))
    case StrVal(v) => v
    case IntVal(_) => []
  }

  predicate IsUpdate(r: LogRecord) {
    r.SetInt? || r.SetString?
  }

  /** The slot an update record wrote. */
  function SlotOf(r: LogRecord): Slot
    requires IsUpdate(r)
  {
    Slot(r.blk, r.offset, r.SetString?)
  }

  /** The value an update record saved. */
  function OldValue(r: LogRecord): (v: Value)
    requires IsUpdate(r)
    ensures v.StrVal? == SlotOf(r).isStr
  {
    if r.SetInt? then IntVal(r.oldVal) else StrVal(r.oldStr)
  }

  /** `undo`: an update record puts back the value it saved; every other
      record does nothing. */
  function Undo(r: LogRecord, s: Store): (s': Store)
    ensures IsUpdate(r) ==> Get(s', SlotOf(r)) == OldValue(r)
    ensures forall x :: !(IsUpdate(r) && x == SlotOf(r)) ==> Get(s', x) == Get(s, x)
    ensures Typed(s) ==> Typed(s')
  {
    if IsUpdate(r) then s[SlotOf(r) := OldValue(r)] else s
  }

  /** The records undone in order, oldest undo last. */
  function ApplyUndos(s: Store, undos: seq<LogRecord>): (s': Store)
    ensures forall x :: (forall k :: 0 <= k < |undos| && IsUpdate(undos[k]) ==> SlotOf(undos[k]) != x) ==>
      Get(s', x) == Get(s, x)
    decreases |undos|
  {
    if |undos| == 0 then s else ApplyUndos(Undo(undos[0], s), undos[1..])
  }

  lemma {:induction false} ApplyUndosAppend(s: Store, a: seq<LogRecord>, b: seq<LogRecord>)
    ensures ApplyUndos(s, a + b) == ApplyUndos(ApplyUndos(s, a), b)
    decreases |a|
  {
    if |a| == 0 {
      assert a + b == b;
    } else {
      assert (a + b)[1..] == a[1..] + b;
      ApplyUndosAppend(Undo(a[0], s), a[1..], b);
    }
  }

  /** The log in the order the log iterator returns it. */
  function NewestFirst(log: seq<LogRecord>): (r: seq<LogRecord>)
    ensures |r| == |log|
    ensures forall k :: 0 <= k < |log| ==> r[k] == log[|log| - 1 - k]
  {
    if |log| == 0 then [] else [log[|log| - 1]] + NewestFirst(log[..|log| - 1])
  }

  lemma NewestFirstAppend(log: seq<LogRecord>, r: LogRecord)
    ensures NewestFirst(log + [r]) == [r] + NewestFirst(log)
  {
  }

  lemma NewestFirstConcat(a: seq<LogRecord>, b: seq<LogRecord>)
    ensures NewestFirst(a + b) == NewestFirst(b) + NewestFirst(a)
  {
  }

  /** `LogRecordIterator`: the raw records, stored oldest first, decoded
      one for one, newest first. */
  function ReadLog(raw: seq<seq<Field>>): (r: seq<Decoded>)
    ensures |r| == |raw|
    ensures forall k :: 0 <= k < |raw| ==> r[k] == Decode(raw[|raw| - 1 - k])
  {
    seq(|raw|, k requires 0 <= k < |raw| => Decode(raw[|raw| - 1 - k]))
  }

  /** Reading back a log that was written record by record gives every
      record, newest first. */
  lemma ReadWrittenLog(log: seq<LogRecord>, raw: seq<seq<Field>>)
    requires |raw| == |log|
    requires forall k :: 0 <= k < |log| ==> JavaInts(log[k]) && Encode(log[k]) == Some(raw[k])
    ensures forall k :: 0 <= k < |log| ==> ReadLog(raw)[k] == Record(NewestFirst(log)[k])
  {
    forall k | 0 <= k < |log|
      ensures ReadLog(raw)[k] == Record(NewestFirst(log)[k])
    {
      ReadWrittenAt(log, raw, k);
    }
  }

  lemma ReadWrittenAt(log: seq<LogRecord>, raw: seq<seq<Field>>, k: int)
    requires |raw| == |log| && 0 <= k < |log|
    requires JavaInts(log[|log| - 1 - k]) && Encode(log[|log| - 1 - k]) == Some(raw[|log| - 1 - k])
    ensures ReadLog(raw)[k] == Record(NewestFirst(log)[k])
  {
    var j := |log| - 1 - k;
    assert ReadLog(raw)[k] == Decode(raw[j]);
    assert NewestFirst(log)[k] == log[j];
    DecodeWritten(log[j], raw[j]);
  }

  lemma DecodeWritten(rec: LogRecord, fields: seq<Field>)
    requires JavaInts(rec) && Encode(rec) == Some(fields)
    ensures Decode(fields) == Record(rec)
  {
    DecodeEncode(rec);
  }

  // ---------------------------------------------------------------- rollback

  /** `doRollback`: walking the log newest first, undoes each record of
      `txnum` until that transaction's START. Returns the store and the
      records undone, in order. */
  function DoRollback(recs: seq<LogRecord>, txnum: int, s: Store): (r: (Store, seq<LogRecord>))
    ensures r.0 == ApplyUndos(s, r.1)
    ensures forall k :: 0 <= k < |r.1| ==> TxNumber(r.1[k]) == txnum && !r.1[k].Start?
    ensures Typed(s) ==> Typed(r.0)
  {
    if |recs| == 0 then (s, [])
    else
      var rec := recs[0];
      if TxNumber(rec) == txnum then
        if rec.Start? then (s, [])
        else
          var (s', undone) := DoRollback(recs[1..], txnum, Undo(rec, s));
          (s', [rec] + undone)
      else DoRollback(recs[1..], txnum, s)
  }

  /** The records of `txnum` newer than its latest START. */
  function OwnRecords(recs: seq<LogRecord>, txnum: int): (r: seq<LogRecord>)
  {
    if |recs| == 0 then []
    else if TxNumber(recs[0]) == txnum && recs[0].Start? then []
    else if TxNumber(recs[0]) == txnum then [recs[0]] + OwnRecords(recs[1..], txnum)
    else OwnRecords(recs[1..], txnum)
  }

  /** The slots the records of `txnum` newer than its latest START wrote. */
  function RolledSlots(recs: seq<LogRecord>, txnum: int): set<Slot>
  {
    set r | r in OwnRecords(recs, txnum) && IsUpdate(r) :: SlotOf(r)
  }

  lemma {:induction false} OwnRecordsOf(recs: seq<LogRecord>, txnum: int)
    ensures DoRollback(recs, txnum, map[]).1 == OwnRecords(recs, txnum)
    ensures forall s: Store :: DoRollback(recs, txnum, s).1 == OwnRecords(recs, txnum)
  {
    if |recs| > 0 {
      OwnRecordsOf(recs[1..], txnum);
    }
  }

  /** Rollback leaves every slot the transaction did not write as it was. */
  lemma RollbackFrame(recs: seq<LogRecord>, txnum: int, s: Store, x: Slot)
    requires x !in RolledSlots(recs, txnum)
    ensures Get(DoRollback(recs, txnum, s).0, x) == Get(s, x)
  {
    OwnRecordsOf(recs, txnum);
    var u := DoRollback(recs, txnum, s).1;
    forall k | 0 <= k < |u| && IsUpdate(u[k])
      ensures SlotOf(u[k]) != x
    {
      assert u[k] in OwnRecords(recs, txnum);
    }
  }

  /** What rollback leaves in a slot depends only on what the slot held. */
  lemma {:induction false} RollbackPointwise(recs: seq<LogRecord>, txnum: int, s1: Store, s2: Store, x: Slot)
    requires Get(s1, x) == Get(s2, x)
    ensures Get(DoRollback(recs, txnum, s1).0, x) == Get(DoRollback(recs, txnum, s2).0, x)
  {
    if |recs| > 0 {
      var rec := recs[0];
      if TxNumber(rec) == txnum && !rec.Start? {
        RollbackPointwise(recs[1..], txnum, Undo(rec, s1), Undo(rec, s2), x);
      } else if TxNumber(rec) != txnum {
        RollbackPointwise(recs[1..], txnum, s1, s2, x);
      }
    }
  }

  // ---------------------------------------------------------------- recovery

  /** The state of the `doRecover` loop: the committed ids seen so far, the
      ids an NQ checkpoint still waits for (`null` before one is met),
      the store, whether the loop has ended, and the records undone. */
  datatype Scan = Scan(committed: seq<int>, remaining: Option<seq<int>>, store: Store, stopped: bool, undone: seq<LogRecord>)

  /** `remainingTxs.remove(i)` for each committed id in turn. */
  function RemoveAll(ids: seq<int>, committed: seq<int>): (r: seq<int>)
    ensures forall y :: y in r ==> y in ids
    ensures forall y :: y in ids && y !in committed ==> y in r
    decreases |committed|
  {
    if |committed| == 0 then ids else RemoveAll(RemoveFirst(ids, committed[0]), committed[1..])
  }

  /** One iteration of the `doRecover` loop. A record is undone, and then
      only, when its transaction is not among those seen committing. */
  function RecoverStep(st: Scan, r: LogRecord): (st': Scan)
    ensures st.stopped ==> st' == st
    ensures st'.undone == st.undone + [r] ==> !st.stopped && !r.Commit? && TxNumber(r) !in st.committed && st'.store == Undo(r, st.store)
    ensures st'.undone != st.undone + [r] ==> st'.undone == st.undone && st'.store == st.store
    ensures st'.committed == st.committed || (!st.stopped && r.Commit? && st'.committed == st.committed + [r.txnum])
    ensures !st'.stopped ==> st'.committed == st.committed + (if r.Commit? then [r.txnum] else [])
  {
    if st.stopped then st
    else if r.Checkpoint? then st.(stopped := true)
    else
      var rem := if r.NQCheckpoint? then Some(RemoveAll(r.active, st.committed)) else st.remaining;
      if r.Commit? then st.(committed := st.committed + [r.txnum], remaining := rem)
      else if r.Start? && rem.Some? then
        var rest := RemoveFirst(rem.value, r.txnum);
        st.(remaining := Some(rest), stopped := |rest| == 0)
      else if TxNumber(r) in st.committed then st.(remaining := rem)
      else st.(remaining := rem, store := Undo(r, st.store), undone := st.undone + [r])
  }

  /** How one iteration treats the checkpoint bookkeeping: without an NQ
      checkpoint in sight nothing stops the loop but a CHECKPOINT; after
      one, each START crosses its id off, and the loop ends when none are
      left. */
  lemma StepCases(st: Scan, r: LogRecord)
    requires !st.stopped
    ensures var st' := RecoverStep(st, r);
      && (st.remaining.None? && !r.Checkpoint? && !r.NQCheckpoint? ==> !st'.stopped && st'.remaining.None?)
      && (st.remaining.None? && !r.Checkpoint? && !r.NQCheckpoint? && !r.Commit? && TxNumber(r) !in st.committed ==>
            st'.undone == st.undone + [r])
      && (!r.Checkpoint? && !r.NQCheckpoint? && !r.Start? ==> st'.remaining == st.remaining && !st'.stopped)
      && (r.NQCheckpoint? ==> st'.remaining == Some(RemoveAll(r.active, st.committed)) && !st'.stopped)
      && (r.Start? && st.remaining.Some? ==>
            st'.remaining == Some(RemoveFirst(st.remaining.value, r.txnum)) && st'.stopped == (|st'.remaining.value| == 0))
  {
  }

  /** The ids of the COMMIT records among `recs`, in order. */
  function CommitIds(recs: seq<LogRecord>): seq<int> {
    if |recs| == 0 then []
    else (if recs[0].Commit? then [recs[0].txnum] else []) + CommitIds(recs[1..])
  }

  /** The loop run over `recs`, newest first; once it has ended it stays ended. */
  function RecoverScan(st: Scan, recs: seq<LogRecord>): (r: Scan)
    ensures st.stopped ==> r == st
    decreases |recs|
  {
    if |recs| == 0 then st else RecoverScan(RecoverStep(st, recs[0]), recs[1..])
  }

  /** The undo trace only grows, and the store is the start store with the
      new undos applied. */
  lemma {:induction false} ScanUndos(st: Scan, recs: seq<LogRecord>)
    ensures var r := RecoverScan(st, recs);
      && |st.undone| <= |r.undone| && r.undone[..|st.undone|] == st.undone
      && r.store == ApplyUndos(st.store, r.undone[|st.undone|..])
    decreases |recs|
  {
    if |recs| > 0 {
      var st1 := RecoverStep(st, recs[0]);
      ScanUndos(st1, recs[1..]);
      var r := RecoverScan(st1, recs[1..]);
      assert r.undone[..|st.undone|] == st.undone by {
        assert r.undone[..|st1.undone|][..|st.undone|] == st.undone;
      }
      if st1.undone != st.undone {
        assert r.undone[|st.undone|..] == [recs[0]] + r.undone[|st1.undone|..];
      }
    }
  }

  lemma PrefixTrans(a: seq<int>, b: seq<int>, c: seq<int>)
    requires |a| <= |b| && b[..|a|] == a
    requires |b| <= |c| && c[..|b|] == b
    ensures |a| <= |c| && c[..|a|] == a
  {
    assert c[..|b|][..|a|] == c[..|a|];
  }

  /** The committed list only grows; while the loop runs it gains the ids of
      the COMMIT records read. */
  lemma {:induction false} ScanCommitted(st: Scan, recs: seq<LogRecord>)
    ensures var r := RecoverScan(st, recs);
      && |st.committed| <= |r.committed| && r.committed[..|st.committed|] == st.committed
      && (!r.stopped ==> r.committed == st.committed + CommitIds(recs))
    decreases |recs|
  {
    if |recs| > 0 {
      var st1 := RecoverStep(st, recs[0]);
      var c0 := if recs[0].Commit? then [recs[0].txnum] else [];
      ScanCommitted(st1, recs[1..]);
      var r := RecoverScan(st1, recs[1..]);
      assert RecoverScan(st, recs) == r;
      StepCommitted(st, recs[0]);
      PrefixTrans(st.committed, st1.committed, r.committed);
      if !r.stopped {
        assert !st1.stopped;
        assert st1.committed == st.committed + c0;
        assert CommitIds(recs) == c0 + CommitIds(recs[1..]);
        assert r.committed == st1.committed + CommitIds(recs[1..]);
        assert st.committed + (c0 + CommitIds(recs[1..])) == (st.committed + c0) + CommitIds(recs[1..]);
      }
    }
  }

  /** One iteration only appends to the committed list. */
  lemma StepCommitted(st: Scan, r: LogRecord)
    ensures var st' := RecoverStep(st, r);
      |st.committed| <= |st'.committed| && st'.committed[..|st.committed|] == st.committed
  {
    var st' := RecoverStep(st, r);
    if st'.committed != st.committed {
      assert st'.committed == st.committed + [r.txnum];
    }
  }

  /** `doRecover`, from the newest record. */
  function DoRecover(recs: seq<LogRecord>, s: Store): (r: Scan)
  {
    RecoverScan(Scan([], None, s, false, []), recs)
  }

  lemma {:induction false} ScanAppend(st: Scan, a: seq<LogRecord>, b: seq<LogRecord>)
    ensures RecoverScan(st, a + b) == RecoverScan(RecoverScan(st, a), b)
    decreases |a|
  {
    if |a| == 0 {
      assert a + b == b;
    } else {
      assert (a + b)[1..] == a[1..] + b;
      ScanAppend(RecoverStep(st, a[0]), a[1..], b);
    }
  }

  /** Nothing older than a quiescent checkpoint is read. */
  lemma CheckpointCutoff(newer: seq<LogRecord>, older1: seq<LogRecord>, older2: seq<LogRecord>, s: Store)
    ensures DoRecover(newer + [Checkpoint] + older1, s) == DoRecover(newer + [Checkpoint] + older2, s)
  {
    var init := Scan([], None, s, false, []);
    ScanAppend(init, newer + [Checkpoint], older1);
    ScanAppend(init, newer + [Checkpoint], older2);
    ScanAppend(init, newer, [Checkpoint]);
  }

  /** The transaction of `recs[i]` has a COMMIT newer than `recs[i]`, or is
      in `committed`. */
  predicate CommittedBefore(committed: seq<int>, recs: seq<LogRecord>, i: int)
    requires 0 <= i < |recs|
  {
    TxNumber(recs[i]) in committed || exists j :: 0 <= j < i && recs[j] == Commit(TxNumber(recs[i]))
  }

  /** A record not yet seen committing once the newest record has been
      read was not seen committing before it either. */
  lemma NotCommittedShift(c: seq<int>, c1: seq<int>, recs: seq<LogRecord>, i: int)
    requires 0 <= i < |recs| - 1
    requires c1 == c + (if recs[0].Commit? then [recs[0].txnum] else [])
    requires !CommittedBefore(c1, recs[1..], i)
    ensures !CommittedBefore(c, recs, i + 1)
  {
    var tx := TxNumber(recs[i + 1]);
    assert recs[1..][i] == recs[i + 1];
    forall j | 0 <= j < i + 1
      ensures recs[j] != Commit(tx)
    {
      if j == 0 {
        if recs[0].Commit? {
          assert recs[0].txnum in c1;
        }
      } else {
        assert recs[1..][j - 1] == recs[j];
      }
    }
  }

  /** Every record the loop undoes is one whose transaction had not
      committed: a COMMIT protects all older records of its transaction. */
  lemma {:induction false} UndoneUncommitted(st: Scan, recs: seq<LogRecord>)
    ensures var r := RecoverScan(st, recs);
      forall k :: |st.undone| <= k < |r.undone| ==>
        exists i :: 0 <= i < |recs| && recs[i] == r.undone[k] && !recs[i].Commit? && !CommittedBefore(st.committed, recs, i)
    decreases |recs|
  {
    if |recs| > 0 {
      var st1 := RecoverStep(st, recs[0]);
      UndoneUncommitted(st1, recs[1..]);
      ScanUndos(st1, recs[1..]);
      var r := RecoverScan(st, recs);
      assert r == RecoverScan(st1, recs[1..]);
      forall k | |st.undone| <= k < |r.undone|
        ensures exists i :: 0 <= i < |recs| && recs[i] == r.undone[k] && !recs[i].Commit? && !CommittedBefore(st.committed, recs, i)
      {
        if k < |st1.undone| {
          assert st1.undone == st.undone + [recs[0]];
          assert k == |st.undone|;
          assert r.undone[..|st1.undone|] == st1.undone;
          assert r.undone[k] == r.undone[..|st1.undone|][k];
          assert !CommittedBefore(st.committed, recs, 0);
        } else {
          assert !st1.stopped;
          var i :| 0 <= i < |recs[1..]| && recs[1..][i] == r.undone[k] && !recs[1..][i].Commit? && !CommittedBefore(st1.committed, recs[1..], i);
          assert recs[i + 1] == recs[1..][i];
          NotCommittedShift(st.committed, st1.committed, recs, i);
        }
      }
    }
  }

  /** Without checkpoints of either kind, the loop undoes every record whose
      transaction has no newer COMMIT (START and ROLLBACK records included,
      whose undo does nothing). */
  lemma {:induction false} UncommittedUndone(st: Scan, recs: seq<LogRecord>)
    requires !st.stopped && st.remaining.None?
    requires forall k :: 0 <= k < |recs| ==> !recs[k].Checkpoint? && !recs[k].NQCheckpoint?
    ensures var r := RecoverScan(st, recs);
      && |st.undone| <= |r.undone|
      && forall i :: 0 <= i < |recs| && !recs[i].Commit? && !CommittedBefore(st.committed, recs, i) ==>
           recs[i] in r.undone[|st.undone|..]
    decreases |recs|
  {
    ScanUndos(st, recs);
    if |recs| > 0 {
      StepCases(st, recs[0]);
      var st1 := RecoverStep(st, recs[0]);
      UncommittedUndone(st1, recs[1..]);
      ScanUndos(st1, recs[1..]);
      var r := RecoverScan(st, recs);
      forall i | 0 <= i < |recs| && !recs[i].Commit? && !CommittedBefore(st.committed, recs, i)
        ensures recs[i] in r.undone[|st.undone|..]
      {
        if i == 0 {
          assert r.undone[|st.undone|] == recs[0];
        } else {
          assert recs[1..][i - 1] == recs[i];
          assert r.undone[|st.undone|..] == r.undone[|st.undone|..|st1.undone|] + r.undone[|st1.undone|..];
        }
      }
    }
  }

  /** No START among the first `i` records empties the waiting list `rem`:
      the loop is still running when it reaches record `i`. */
  predicate StillWaiting(rem: seq<int>, recs: seq<LogRecord>, i: int)
    requires 0 <= i <= |recs|
    decreases i
  {
    if i == 0 then true
    else
      var rem1 := if recs[0].Start? then RemoveFirst(rem, recs[0].txnum) else rem;
      !(recs[0].Start? && rem1 == []) && StillWaiting(rem1, recs[1..], i - 1)
  }

  /** After an NQ checkpoint, while the loop waits, it undoes every record
      other than a COMMIT or START whose transaction has no newer COMMIT. */
  lemma {:induction false} WaitingUndone(st: Scan, recs: seq<LogRecord>)
    requires !st.stopped && st.remaining.Some?
    requires forall k :: 0 <= k < |recs| ==> !recs[k].Checkpoint? && !recs[k].NQCheckpoint?
    ensures var r := RecoverScan(st, recs);
      && |st.undone| <= |r.undone|
      && forall i ::
           (0 <= i < |recs| && !recs[i].Commit? && !recs[i].Start?
            && !CommittedBefore(st.committed, recs, i) && StillWaiting(st.remaining.value, recs, i)) ==>
           recs[i] in r.undone[|st.undone|..]
    decreases |recs|
  {
    ScanUndos(st, recs);
    if |recs| > 0 {
      StepCases(st, recs[0]);
      var st1 := RecoverStep(st, recs[0]);
      var r := RecoverScan(st, recs);
      assert r == RecoverScan(st1, recs[1..]);
      var rem := st.remaining.value;
      if !st1.stopped {
        WaitingUndone(st1, recs[1..]);
        ScanUndos(st1, recs[1..]);
      }
      forall i | 0 <= i < |recs| && !recs[i].Commit? && !recs[i].Start?
          && !CommittedBefore(st.committed, recs, i) && StillWaiting(rem, recs, i)
        ensures recs[i] in r.undone[|st.undone|..]
      {
        if i == 0 {
          assert st1.undone == st.undone + [recs[0]];
          assert r.undone[..|st1.undone|] == st1.undone;
          assert r.undone[|st.undone|] == recs[0];
        } else {
          assert !st1.stopped;
          UndoneLater(st, st1, r, recs, i);
        }
      }
    }
  }

  /** The inductive step of `WaitingUndone` for a record past the first. */
  lemma UndoneLater(st: Scan, st1: Scan, r: Scan, recs: seq<LogRecord>, i: int)
    requires 0 < i < |recs| && !st.stopped && !st1.stopped && st1.remaining.Some?
    requires st1.committed == st.committed + (if recs[0].Commit? then [recs[0].txnum] else [])
    requires |st.undone| <= |st1.undone| <= |r.undone| && r.undone[..|st1.undone|] == st1.undone
    requires !CommittedBefore(st.committed, recs, i)
    requires StillWaiting(st1.remaining.value, recs[1..], i - 1) && !recs[i].Commit? && !recs[i].Start?
    requires forall i' ::
      (0 <= i' < |recs[1..]| && !recs[1..][i'].Commit? && !recs[1..][i'].Start?
       && !CommittedBefore(st1.committed, recs[1..], i') && StillWaiting(st1.remaining.value, recs[1..], i')) ==>
      recs[1..][i'] in r.undone[|st1.undone|..]
    ensures recs[i] in r.undone[|st.undone|..]
  {
    assert recs[1..][i - 1] == recs[i];
    if CommittedBefore(st1.committed, recs[1..], i - 1) {
      NotCommittedBack(st.committed, st1.committed, recs, i);
    }
    assert r.undone[|st.undone|..] == r.undone[|st.undone|..|st1.undone|] + r.undone[|st1.undone|..];
  }

  /** The converse step of `NotCommittedShift`. */
  lemma NotCommittedBack(c: seq<int>, c1: seq<int>, recs: seq<LogRecord>, i: int)
    requires 0 < i < |recs|
    requires c1 == c + (if recs[0].Commit? then [recs[0].txnum] else [])
    requires CommittedBefore(c1, recs[1..], i - 1)
    ensures CommittedBefore(c, recs, i)
  {
    var tx := TxNumber(recs[i]);
    assert recs[1..][i - 1] == recs[i];
    if tx in c1 && tx !in c {
      assert recs[0] == Commit(tx);
    } else if tx !in c1 {
      var j :| 0 <= j < i - 1 && recs[1..][j] == Commit(tx);
      assert recs[j + 1] == Commit(tx);
    }
  }

  /** Reading records without checkpoints of either kind, the loop neither
      ends nor starts waiting. */
  lemma {:induction false} ScanPlain(st: Scan, recs: seq<LogRecord>)
    requires !st.stopped && st.remaining.None?
    requires forall k :: 0 <= k < |recs| ==> !recs[k].Checkpoint? && !recs[k].NQCheckpoint?
    ensures !RecoverScan(st, recs).stopped && RecoverScan(st, recs).remaining.None?
    decreases |recs|
  {
    if |recs| > 0 {
      StepCases(st, recs[0]);
      ScanPlain(RecoverStep(st, recs[0]), recs[1..]);
    }
  }

  /** A transaction id is among the COMMIT ids exactly when its COMMIT is. */
  lemma {:induction false} CommitIdsHas(recs: seq<LogRecord>, x: int)
    ensures x in CommitIds(recs) <==> Commit(x) in recs
    decreases |recs|
  {
    if |recs| > 0 {
      CommitIdsHas(recs[1..], x);
      assert recs == [recs[0]] + recs[1..];
    }
  }

  /** Undo completeness past a non-quiescent checkpoint: a record other
      than a COMMIT or START, read after the checkpoint and before the
      START that ends the loop, is undone when its transaction has no
      newer COMMIT. */
  lemma NQUncommittedUndone(newer: seq<LogRecord>, active: seq<int>, mid: seq<LogRecord>, i: int, s: Store)
    requires forall k :: 0 <= k < |newer| ==> !newer[k].Checkpoint? && !newer[k].NQCheckpoint?
    requires forall k :: 0 <= k < |mid| ==> !mid[k].Checkpoint? && !mid[k].NQCheckpoint?
    requires 0 <= i < |mid| && !mid[i].Commit? && !mid[i].Start?
    requires Commit(TxNumber(mid[i])) !in newer
    requires forall j :: 0 <= j < i ==> mid[j] != Commit(TxNumber(mid[i]))
    requires StillWaiting(RemoveAll(active, CommitIds(newer)), mid, i)
    ensures mid[i] in DoRecover(newer + [NQCheckpoint(active)] + mid, s).undone
  {
    var init := Scan([], None, s, false, []);
    ScanAppend(init, newer, [NQCheckpoint(active)]);
    ScanAppend(init, newer + [NQCheckpoint(active)], mid);
    ScanPlain(init, newer);
    ScanCommitted(init, newer);
    var st0 := RecoverScan(init, newer);
    StepCases(st0, NQCheckpoint(active));
    var st1 := RecoverStep(st0, NQCheckpoint(active));
    assert RecoverScan(init, newer + [NQCheckpoint(active)]) == st1;
    assert st1.committed == CommitIds(newer);
    CommitIdsHas(newer, TxNumber(mid[i]));
    assert !CommittedBefore(st1.committed, mid, i);
    WaitingUndone(st1, mid);
    var r := RecoverScan(st1, mid);
    assert mid[i] in r.undone[|st1.undone|..];
  }

  /** A committed transaction's writes survive recovery: a slot that only
      transaction `t` wrote, with every record of `t` older than a COMMIT
      of `t`, is left as it is. */
  lemma CommitSurvivesRecovery(recs: seq<LogRecord>, s: Store, x: Slot, t: int)
    requires forall i :: 0 <= i < |recs| && IsUpdate(recs[i]) && SlotOf(recs[i]) == x ==> TxNumber(recs[i]) == t
    requires forall i :: 0 <= i < |recs| && TxNumber(recs[i]) == t && !recs[i].Commit? ==>
      exists j :: 0 <= j < i && recs[j] == Commit(t)
    ensures Get(DoRecover(recs, s).store, x) == Get(s, x)
  {
    var init := Scan([], None, s, false, []);
    ScanUndos(init, recs);
    UndoneUncommitted(init, recs);
    var u := DoRecover(recs, s).undone;
    assert u[|init.undone|..] == u;
    forall k | 0 <= k < |u| && IsUpdate(u[k])
      ensures SlotOf(u[k]) != x
    {
      var i :| 0 <= i < |recs| && recs[i] == u[k] && !recs[i].Commit? && !CommittedBefore([], recs, i);
    }
  }

  /** The ids left after removing, for each START record in turn, one
      occurrence of its id. */
  function StartsRemove(rem: seq<int>, recs: seq<LogRecord>): seq<int>
    decreases |recs|
  {
    if |recs| == 0 then rem
    else StartsRemove(if recs[0].Start? then RemoveFirst(rem, recs[0].txnum) else rem, recs[1..])
  }

  lemma {:induction false} StartsRemoveAppend(rem: seq<int>, a: seq<LogRecord>, b: seq<LogRecord>)
    ensures StartsRemove(rem, a + b) == StartsRemove(StartsRemove(rem, a), b)
    decreases |a|
  {
    if |a| == 0 {
      assert a + b == b;
    } else {
      assert (a + b)[1..] == a[1..] + b;
      StartsRemoveAppend(if a[0].Start? then RemoveFirst(rem, a[0].txnum) else rem, a[1..], b);
    }
  }

  /** Between checkpoints, once an NQ checkpoint has been read, the loop
      either has ended or is waiting for the listed ids whose START it has
      not yet read. */
  lemma {:induction false} ScanWaits(st: Scan, recs: seq<LogRecord>)
    requires !st.stopped && st.remaining.Some?
    requires forall k :: 0 <= k < |recs| ==> !recs[k].Checkpoint? && !recs[k].NQCheckpoint?
    ensures var r := RecoverScan(st, recs);
      r.stopped || r.remaining == Some(StartsRemove(st.remaining.value, recs))
    decreases |recs|
  {
    if |recs| > 0 {
      StepCases(st, recs[0]);
      var st1 := RecoverStep(st, recs[0]);
      if !st1.stopped {
        ScanWaits(st1, recs[1..]);
      }
    }
  }

  /** After a non-quiescent checkpoint listing `active`, the loop ends at the
      START that leaves none of the listed, uncommitted ids unaccounted for;
      nothing older is read. */
  lemma NQCheckpointStops(newer: seq<LogRecord>, active: seq<int>, mid: seq<LogRecord>, u: int, s: Store)
    requires forall k :: 0 <= k < |mid| ==> !mid[k].Checkpoint? && !mid[k].NQCheckpoint?
    requires StartsRemove(RemoveAll(active, CommitIds(newer)), mid + [Start(u)]) == []
    ensures DoRecover(newer + [NQCheckpoint(active)] + mid + [Start(u)], s).stopped
  {
    var init := Scan([], None, s, false, []);
    var st0 := RecoverScan(init, newer);
    ScanAppend(init, newer, [NQCheckpoint(active)]);
    ScanAppend(init, newer + [NQCheckpoint(active)], mid);
    ScanAppend(init, newer + [NQCheckpoint(active)] + mid, [Start(u)]);
    if !st0.stopped {
      ScanCommitted(init, newer);
      StepCases(st0, NQCheckpoint(active));
      var st1 := RecoverStep(st0, NQCheckpoint(active));
      var rem := RemoveAll(active, CommitIds(newer));
      assert st1.remaining == Some(rem) && !st1.stopped;
      assert RecoverScan(init, newer + [NQCheckpoint(active)]) == st1;
      ScanWaits(st1, mid);
      StartsRemoveAppend(rem, mid, [Start(u)]);
      var st2 := RecoverScan(st1, mid);
      assert RecoverScan(init, newer + [NQCheckpoint(active)] + mid) == st2;
      assert RecoverScan(st2, [Start(u)]) == RecoverStep(st2, Start(u));
      if !st2.stopped {
        StepCases(st2, Start(u));
      }
    }
  }

  /** Records older than that START are not read. */
  lemma NQCheckpointCutoff(newer: seq<LogRecord>, active: seq<int>, mid: seq<LogRecord>, u: int,
                           older1: seq<LogRecord>, older2: seq<LogRecord>, s: Store)
    requires forall k :: 0 <= k < |mid| ==> !mid[k].Checkpoint? && !mid[k].NQCheckpoint?
    requires StartsRemove(RemoveAll(active, CommitIds(newer)), mid + [Start(u)]) == []
    ensures var head := newer + [NQCheckpoint(active)] + mid + [Start(u)];
      DoRecover(head + older1, s) == DoRecover(head + older2, s)
  {
    var head := newer + [NQCheckpoint(active)] + mid + [Start(u)];
    var init := Scan([], None, s, false, []);
    NQCheckpointStops(newer, active, mid, u, s);
    ScanAppend(init, head, older1);
    ScanAppend(init, head, older2);
  }
}

=== FILE: recoverymgr.dfy ===
/** `simpledb.tx.recovery.RecoveryMgr`: each transaction's log records and the
    commit, rollback and recovery protocols, over a log that distinguishes
    the records appended from those forced to disk. */
module RecoveryMgr {
  import opened Base
  import LogRecords
  import Recovery

  /** The log: its records, oldest first, and how many of them have been
      forced to disk. */
  datatype Log = Log(records: seq<LogRecords.LogRecord>, durable: nat)

  predicate LogWf(log: Log) {
    log.durable <= |log.records|
  }

  /** What survives a crash. */
  function Durable(log: Log): seq<LogRecords.LogRecord>
    requires LogWf(log)
  {
    log.records[..log.durable]
  }

  /** `logMgr.append`: the record goes at the end; its lsn is its position. */
  function Append(log: Log, r: LogRecords.LogRecord): (res: (Log, int))
    requires LogWf(log)
    ensures LogWf(res.0) && res.0.records == log.records + [r] && res.0.durable == log.durable
    ensures res.1 == |log.records| && res.0.records[res.1] == r
  {
    (log.(records := log.records + [r]), |log.records|)
  }

  /** `logMgr.flush(lsn)`: every record up to `lsn` becomes durable. */
  function Force(log: Log, lsn: int): (log': Log)
    requires LogWf(log) && 0 <= lsn < |log.records|
    ensures LogWf(log') && log'.records == log.records
    ensures log'.durable > lsn && log'.durable >= log.durable
    ensures Durable(log) <= Durable(log')
  {
    if lsn + 1 > log.durable then log.(durable := lsn + 1) else log
  }

  /** The I/O the manager asks for, in order. */
  datatype Event =
    | FlushBuffers(txnum: int)             // bufferMgr.flushAll(txnum)
    | LogAppend(rec: LogRecords.LogRecord, lsn: int)  // a record appended at lsn
    | LogForce(lsn: int)                   // the log forced through lsn
    | Undid(rec: LogRecords.LogRecord)                // rec.undo

  datatype Rm = Rm(log: Log, store: Recovery.Store)

  /** The constructor: a START record for the transaction. */
  function Begin(rm: Rm, txnum: int): (r: (Rm, seq<Event>))
    requires LogWf(rm.log)
    ensures LogWf(r.0.log) && r.0.store == rm.store
    ensures r.0.log.records == rm.log.records + [LogRecords.Start(txnum)]
    ensures r.1 == [LogAppend(LogRecords.Start(txnum), |rm.log.records|)]
  {
    var (log, lsn) := Append(rm.log, LogRecords.Start(txnum));
    (rm.(log := log), [LogAppend(LogRecords.Start(txnum), lsn)])
  }

  /** `commit`: the transaction's buffers are flushed, then a COMMIT record
      is appended and the log forced through it, so it survives a crash. */
  function Commit(rm: Rm, txnum: int): (r: (Rm, seq<Event>))
    requires LogWf(rm.log)
    ensures LogWf(r.0.log) && r.0.store == rm.store
    ensures r.0.log.records == rm.log.records + [LogRecords.Commit(txnum)]
    ensures Durable(r.0.log) == r.0.log.records
    ensures r.1 == [FlushBuffers(txnum), LogAppend(LogRecords.Commit(txnum), |rm.log.records|), LogForce(|rm.log.records|)]
  {
    var (log, lsn) := Append(rm.log, LogRecords.Commit(txnum));
    (rm.(log := Force(log, lsn)), [FlushBuffers(txnum), LogAppend(LogRecords.Commit(txnum), lsn), LogForce(lsn)])
  }

  function Undids(undone: seq<LogRecords.LogRecord>): (es: seq<Event>)
    ensures |es| == |undone| && forall k :: 0 <= k < |undone| ==> es[k] == Undid(undone[k])
  {
    seq(|undone|, k requires 0 <= k < |undone| => Undid(undone[k]))
  }

  /** `rollback`: the transaction's buffers are flushed first, then its
      records are undone, then a ROLLBACK record is appended and forced. */
  function Rollback(rm: Rm, txnum: int): (r: (Rm, seq<Event>))
    requires LogWf(rm.log)
    ensures LogWf(r.0.log)
    ensures r.0.log.records == rm.log.records + [LogRecords.Rollback(txnum)]
    ensures Durable(r.0.log) == r.0.log.records
    ensures var (s, undone) := Recovery.DoRollback(Recovery.NewestFirst(rm.log.records), txnum, rm.store);
      && r.0.store == s
      && r.1 == [FlushBuffers(txnum)] + Undids(undone) +
                [LogAppend(LogRecords.Rollback(txnum), |rm.log.records|), LogForce(|rm.log.records|)]
  {
    var (s, undone) := Recovery.DoRollback(Recovery.NewestFirst(rm.log.records), txnum, rm.store);
    var (log, lsn) := Append(rm.log, LogRecords.Rollback(txnum));
    (Rm(Force(log, lsn), s), [FlushBuffers(txnum)] + Undids(undone) + [LogAppend(LogRecords.Rollback(txnum), lsn), LogForce(lsn)])
  }

  /** `recover`: undoes what `doRecover` finds, then appends a quiescent
      CHECKPOINT and forces it. */
  function Recover(rm: Rm): (r: (Rm, seq<Event>))
    requires LogWf(rm.log)
    ensures LogWf(r.0.log)
    ensures r.0.log.records == rm.log.records + [LogRecords.Checkpoint]
    ensures Durable(r.0.log) == r.0.log.records
    ensures var sc := Recovery.DoRecover(Recovery.NewestFirst(rm.log.records), rm.store);
      && r.0.store == sc.store
      && r.1 == Undids(sc.undone) + [LogAppend(LogRecords.Checkpoint, |rm.log.records|), LogForce(|rm.log.records|)]
  {
    var sc := Recovery.DoRecover(Recovery.NewestFirst(rm.log.records), rm.store);
    var (log, lsn) := Append(rm.log, LogRecords.Checkpoint);
    (Rm(Force(log, lsn), sc.store), Undids(sc.undone) + [LogAppend(LogRecords.Checkpoint, lsn), LogForce(lsn)])
  }

  /** `"temp"`. */
  const TempPrefix: JString := [116, 101, 109, 112]

  /** `isTempBlock`: temporary tables' blocks are not logged. */
  predicate IsTempBlock(blk: Block) {
    StartsWith(blk.fileName, TempPrefix)
  }

  /** `setInt`: logs the value currently at the offset and returns the
      record's lsn; a temporary block is not logged and answers -1. */
  function SetInt(rm: Rm, txnum: int, blk: Block, offset: int): (r: (Rm, int))
    requires LogWf(rm.log)
    ensures LogWf(r.0.log) && r.0.store == rm.store && r.0.log.durable == rm.log.durable
    ensures IsTempBlock(blk) ==> r == (rm, -1)
    ensures !IsTempBlock(blk) ==>
      && r.0.log.records == rm.log.records + [LogRecords.SetInt(txnum, blk, offset, Recovery.GetInt(rm.store, blk, offset))]
      && r.1 == |rm.log.records|
  {
    if IsTempBlock(blk) then (rm, -1)
    else
      var (log, lsn) := Append(rm.log, LogRecords.SetInt(txnum, blk, offset, Recovery.GetInt(rm.store, blk, offset)));
      (rm.(log := log), lsn)
  }

  /** `setString`: as `setInt`, for the string at the offset. */
  function SetString(rm: Rm, txnum: int, blk: Block, offset: int): (r: (Rm, int))
    requires LogWf(rm.log)
    ensures LogWf(r.0.log) && r.0.store == rm.store && r.0.log.durable == rm.log.durable
    ensures IsTempBlock(blk) ==> r == (rm, -1)
    ensures !IsTempBlock(blk) ==>
      && r.0.log.records == rm.log.records + [LogRecords.SetString(txnum, blk, offset, Recovery.GetString(rm.store, blk, offset))]
      && r.1 == |rm.log.records|
  {
    if IsTempBlock(blk) then (rm, -1)
    else
      var (log, lsn) := Append(rm.log, LogRecords.SetString(txnum, blk, offset, Recovery.GetString(rm.store, blk, offset)));
      (rm.(log := log), lsn)
  }

  /** `checkpoint`: appends an NQ checkpoint listing the active ids. Writing
      one for an empty list throws (`None`). The record is not forced. */
  function NQCheckpoint(rm: Rm, active: seq<int>): (r: Option<Rm>)
    requires LogWf(rm.log)
    ensures r.None? <==> |active| == 0
    ensures r.Some? ==> LogWf(r.value.log) && r.value.store == rm.store && r.value.log.durable == rm.log.durable
    ensures r.Some? ==> r.value.log.records == rm.log.records + [LogRecords.NQCheckpoint(active)]
  {
    if |active| == 0 then None
    else Some(rm.(log := Append(rm.log, LogRecords.NQCheckpoint(active)).0))
  }

  // ---------------------------------------------------------------- writes and rollback

  /** A transaction's write of a value into a slot. */
  datatype Write = Write(txnum: int, x: Recovery.Slot, v: Recovery.Value)

  predicate WriteTyped(w: Write) {
    w.v.StrVal? == w.x.isStr
  }

  /** The transaction-level `setInt`/`setString` once the X lock is held:
      the manager logs the value the slot holds, then the buffer takes the
      new one, tagged with the record's lsn. */
  function LogAndWrite(rm: Rm, w: Write): (r: Rm)
    requires LogWf(rm.log)
    ensures LogWf(r.log) && r.log.durable == rm.log.durable
    ensures Recovery.Get(r.store, w.x) == w.v
    ensures forall y :: y != w.x ==> Recovery.Get(r.store, y) == Recovery.Get(rm.store, y)
    ensures Recovery.Typed(rm.store) && WriteTyped(w) ==> Recovery.Typed(r.store)
    ensures IsTempBlock(w.x.blk) ==> r.log == rm.log
    ensures !IsTempBlock(w.x.blk) ==> |r.log.records| == |rm.log.records| + 1 && r.log.records[..|rm.log.records|] == rm.log.records
    ensures !IsTempBlock(w.x.blk) ==>
      var rec := r.log.records[|rm.log.records|];
      && LogRecords.TxNumber(rec) == w.txnum && Recovery.IsUpdate(rec) && Recovery.SlotOf(rec) == w.x
      && (Recovery.Typed(rm.store) ==> Recovery.OldValue(rec) == Recovery.Get(rm.store, w.x))
  {
    var (rm1, _) := if w.x.isStr then SetString(rm, w.txnum, w.x.blk, w.x.offset)
                    else SetInt(rm, w.txnum, w.x.blk, w.x.offset);
    assert rm1.log.records[..|rm.log.records|] == rm.log.records;
    rm1.(store := rm1.store[w.x := w.v])
  }

  /** Writes performed in order. */
  function Perform(rm: Rm, ws: seq<Write>): (r: Rm)
    requires LogWf(rm.log)
    ensures LogWf(r.log)
    ensures Recovery.Typed(rm.store) && (forall k :: 0 <= k < |ws| ==> WriteTyped(ws[k])) ==> Recovery.Typed(r.store)
    ensures forall y :: (forall k :: 0 <= k < |ws| ==> ws[k].x != y) ==> Recovery.Get(r.store, y) == Recovery.Get(rm.store, y)
    decreases |ws|
  {
    if |ws| == 0 then rm
    else
      var r := LogAndWrite(Perform(rm, ws[..|ws| - 1]), ws[|ws| - 1]);
      assert forall k :: 0 <= k < |ws| - 1 ==> ws[..|ws| - 1][k] == ws[k];
      r
  }

  /** The slots transaction `t` wrote. */
  function TSlots(ws: seq<Write>, t: int): set<Recovery.Slot> {
    set w | w in ws && w.txnum == t :: w.x
  }

  /** No other transaction writes a slot `t` writes: what `t`'s X locks,
      held until it ends, guarantee. */
  predicate Disjoint(ws: seq<Write>, t: int) {
    forall i, j :: 0 <= i < |ws| && 0 <= j < |ws| && ws[i].txnum == t && ws[j].txnum != t ==> ws[i].x != ws[j].x
  }

  /** What one more write changes about rolling `t` back. */
  lemma RollbackAfterWrite(rm: Rm, w: Write, t: int)
    requires LogWf(rm.log) && Recovery.Typed(rm.store)
    ensures var rm' := LogAndWrite(rm, w);
      var nf := Recovery.NewestFirst(rm.log.records);
      var nf' := Recovery.NewestFirst(rm'.log.records);
      var back := Recovery.DoRollback(nf, t, rm.store).0;
      var back' := Recovery.DoRollback(nf', t, rm'.store).0;
      && (forall y :: y != w.x ==> Recovery.Get(back', y) == Recovery.Get(back, y))
      && (w.txnum == t && !IsTempBlock(w.x.blk) ==> Recovery.Get(back', w.x) == Recovery.Get(back, w.x))
      && Recovery.RolledSlots(nf', t) <= Recovery.RolledSlots(nf, t) + {w.x}
      && (w.txnum != t ==> Recovery.RolledSlots(nf', t) == Recovery.RolledSlots(nf, t))
  {
    var rm' := LogAndWrite(rm, w);
    var nf := Recovery.NewestFirst(rm.log.records);
    var nf' := Recovery.NewestFirst(rm'.log.records);
    if IsTempBlock(w.x.blk) {
      forall y | y != w.x
        ensures Recovery.Get(Recovery.DoRollback(nf', t, rm'.store).0, y) == Recovery.Get(Recovery.DoRollback(nf, t, rm.store).0, y)
      {
        Recovery.RollbackPointwise(nf, t, rm'.store, rm.store, y);
      }
      Recovery.OwnRecordsOf(nf, t);
    } else {
      var rec := rm'.log.records[|rm.log.records|];
      assert rm'.log.records == rm.log.records + [rec];
      Recovery.NewestFirstAppend(rm.log.records, rec);
      assert nf'[0] == rec && nf'[1..] == nf;
      if w.txnum == t {
        var s1 := Recovery.Undo(rec, rm'.store);
        assert Recovery.DoRollback(nf', t, rm'.store).0 == Recovery.DoRollback(nf, t, s1).0;
        forall y
          ensures Recovery.Get(Recovery.DoRollback(nf', t, rm'.store).0, y) == Recovery.Get(Recovery.DoRollback(nf, t, rm.store).0, y)
        {
          Recovery.RollbackPointwise(nf, t, s1, rm.store, y);
        }
        assert Recovery.OwnRecords(nf', t) == [rec] + Recovery.OwnRecords(nf, t);
      } else {
        assert Recovery.DoRollback(nf', t, rm'.store).0 == Recovery.DoRollback(nf, t, rm'.store).0;
        forall y | y != w.x
          ensures Recovery.Get(Recovery.DoRollback(nf', t, rm'.store).0, y) == Recovery.Get(Recovery.DoRollback(nf, t, rm.store).0, y)
        {
          Recovery.RollbackPointwise(nf, t, rm'.store, rm.store, y);
        }
        assert Recovery.OwnRecords(nf', t) == Recovery.OwnRecords(nf, t);
      }
    }
  }

  lemma TSlotsAppend(ws: seq<Write>, w: Write, t: int)
    ensures TSlots(ws + [w], t) == TSlots(ws, t) + (if w.txnum == t then {w.x} else {})
  {
  }

  /** The rollback facts for a run of writes carry over to one more write. */
  lemma RestoreStep(store0: Recovery.Store, rm1: Rm, t: int, ws0: seq<Write>, w: Write)
    requires LogWf(rm1.log) && Recovery.Typed(rm1.store)
    requires Disjoint(ws0 + [w], t)
    requires forall y :: (forall k :: 0 <= k < |ws0| ==> ws0[k].x != y) ==> Recovery.Get(rm1.store, y) == Recovery.Get(store0, y)
    requires var nf := Recovery.NewestFirst(rm1.log.records);
      var back := Recovery.DoRollback(nf, t, rm1.store).0;
      && Recovery.RolledSlots(nf, t) <= TSlots(ws0, t)
      && (forall y :: y in TSlots(ws0, t) && !IsTempBlock(y.blk) ==> Recovery.Get(back, y) == Recovery.Get(store0, y))
      && (forall y :: y !in TSlots(ws0, t) ==> Recovery.Get(back, y) == Recovery.Get(rm1.store, y))
    ensures var rm2 := LogAndWrite(rm1, w);
      var nf := Recovery.NewestFirst(rm2.log.records);
      var back := Recovery.DoRollback(nf, t, rm2.store).0;
      && Recovery.RolledSlots(nf, t) <= TSlots(ws0 + [w], t)
      && (forall y :: y in TSlots(ws0 + [w], t) && !IsTempBlock(y.blk) ==> Recovery.Get(back, y) == Recovery.Get(store0, y))
      && (forall y :: y !in TSlots(ws0 + [w], t) ==> Recovery.Get(back, y) == Recovery.Get(rm2.store, y))
  {
    var ws := ws0 + [w];
    var rm2 := LogAndWrite(rm1, w);
    RollbackAfterWrite(rm1, w, t);
    TSlotsAppend(ws0, w, t);
    var nf1 := Recovery.NewestFirst(rm1.log.records);
    var nf2 := Recovery.NewestFirst(rm2.log.records);
    var mine := w.txnum == t;
    if !mine {
      assert w.x !in TSlots(ws0, t) by {
        forall k | 0 <= k < |ws0| && ws0[k].txnum == t
          ensures ws0[k].x != w.x
        {
          assert ws[k] == ws0[k] && ws[|ws0|] == w;
        }
      }
      Recovery.RollbackFrame(nf2, t, rm2.store, w.x);
    } else if w.x !in TSlots(ws0, t) {
      forall k | 0 <= k < |ws0|
        ensures ws0[k].x != w.x
      {
        assert ws[k] == ws0[k] && ws[|ws0|] == w;
      }
    }
    RestoreCombine(store0, rm1.store, rm2.store,
      Recovery.DoRollback(nf1, t, rm1.store).0, Recovery.DoRollback(nf2, t, rm2.store).0,
      Recovery.RolledSlots(nf1, t), Recovery.RolledSlots(nf2, t),
      TSlots(ws0, t), TSlots(ws, t), w.x, mine);
  }

  /** The slot-by-slot reasoning behind `RestoreStep`, over plain stores:
      `back1`/`back2` are what rolling back gives before and after the
      write of `x`, `t0`/`t2` the slots `t` has written by then. */
  lemma RestoreCombine(store0: Recovery.Store, store1: Recovery.Store, store2: Recovery.Store,
                       back1: Recovery.Store, back2: Recovery.Store,
                       rolled1: set<Recovery.Slot>, rolled2: set<Recovery.Slot>,
                       t0: set<Recovery.Slot>, t2: set<Recovery.Slot>, x: Recovery.Slot, mine: bool)
    requires rolled1 <= t0
    requires forall y :: y in t0 && !IsTempBlock(y.blk) ==> Recovery.Get(back1, y) == Recovery.Get(store0, y)
    requires forall y :: y !in t0 ==> Recovery.Get(back1, y) == Recovery.Get(store1, y)
    requires forall y :: y != x ==> Recovery.Get(back2, y) == Recovery.Get(back1, y)
    requires mine && !IsTempBlock(x.blk) ==> Recovery.Get(back2, x) == Recovery.Get(back1, x)
    requires rolled2 <= rolled1 + {x}
    requires !mine ==> rolled2 == rolled1
    requires t2 == t0 + (if mine then {x} else {})
    requires forall y :: y != x ==> Recovery.Get(store2, y) == Recovery.Get(store1, y)
    requires !mine ==> x !in t0 && Recovery.Get(back2, x) == Recovery.Get(store2, x)
    requires mine && x !in t0 ==> Recovery.Get(store1, x) == Recovery.Get(store0, x)
    ensures rolled2 <= t2
    ensures forall y :: y in t2 && !IsTempBlock(y.blk) ==> Recovery.Get(back2, y) == Recovery.Get(store0, y)
    ensures forall y :: y !in t2 ==> Recovery.Get(back2, y) == Recovery.Get(store2, y)
  {
  }

  /** Rolling back after a run of writes: `t`'s non-temporary slots hold
      what they held before the writes, every other slot what the writes
      left there. */
  lemma {:induction false} PerformThenRollback(rm0: Rm, t: int, ws: seq<Write>)
    requires LogWf(rm0.log) && Recovery.Typed(rm0.store)
    requires Recovery.OwnRecords(Recovery.NewestFirst(rm0.log.records), t) == []
    requires forall k :: 0 <= k < |ws| ==> WriteTyped(ws[k])
    requires Disjoint(ws, t)
    ensures var rm1 := Perform(rm0, ws);
      var nf := Recovery.NewestFirst(rm1.log.records);
      var back := Recovery.DoRollback(nf, t, rm1.store).0;
      && Recovery.RolledSlots(nf, t) <= TSlots(ws, t)
      && (forall y :: y in TSlots(ws, t) && !IsTempBlock(y.blk) ==> Recovery.Get(back, y) == Recovery.Get(rm0.store, y))
      && (forall y :: y !in TSlots(ws, t) ==> Recovery.Get(back, y) == Recovery.Get(rm1.store, y))
    decreases |ws|
  {
    if |ws| == 0 {
      var back := Recovery.DoRollback(Recovery.NewestFirst(rm0.log.records), t, rm0.store).0;
      forall y
        ensures Recovery.Get(back, y) == Recovery.Get(rm0.store, y)
      {
        Recovery.RollbackFrame(Recovery.NewestFirst(rm0.log.records), t, rm0.store, y);
      }
    } else {
      var ws0 := ws[..|ws| - 1];
      var w := ws[|ws| - 1];
      assert ws == ws0 + [w];
      assert forall k :: 0 <= k < |ws0| ==> ws0[k] == ws[k];
      assert Disjoint(ws0, t);
      PerformThenRollback(rm0, t, ws0);
      var rm1 := Perform(rm0, ws0);
      assert Recovery.Typed(rm1.store);
      assert Perform(rm0, ws) == LogAndWrite(rm1, w);
      RestoreStep(rm0.store, rm1, t, ws0, w);
    }
  }

  /** Right after `Begin`, rolling back would undo nothing. */
  lemma BeginStartsClean(rm: Rm, t: int)
    requires LogWf(rm.log)
    ensures Recovery.OwnRecords(Recovery.NewestFirst(Begin(rm, t).0.log.records), t) == []
  {
    Recovery.NewestFirstAppend(rm.log.records, LogRecords.Start(t));
  }

  /** Rolling back undoes a transaction: after `Begin`, any writes (the
      other transactions' kept off its slots by its X locks) and `Rollback`,
      each slot the transaction wrote outside a temporary file holds what it
      held before, every other slot keeps what the writes left there, and
      the ROLLBACK record is on disk. */
  lemma RollbackRestores(rm: Rm, t: int, ws: seq<Write>)
    requires LogWf(rm.log) && Recovery.Typed(rm.store)
    requires forall k :: 0 <= k < |ws| ==> WriteTyped(ws[k])
    requires Disjoint(ws, t)
    ensures var rm1 := Perform(Begin(rm, t).0, ws);
      var rm2 := Rollback(rm1, t).0;
      && (forall y :: y in TSlots(ws, t) && !IsTempBlock(y.blk) ==> Recovery.Get(rm2.store, y) == Recovery.Get(rm.store, y))
      && (forall y :: y !in TSlots(ws, t) ==> Recovery.Get(rm2.store, y) == Recovery.Get(rm1.store, y))
      && LogRecords.Rollback(t) in Durable(rm2.log)
  {
    BeginStartsClean(rm, t);
    PerformThenRollback(Begin(rm, t).0, t, ws);
    var rm2 := Rollback(Perform(Begin(rm, t).0, ws), t).0;
    assert Durable(rm2.log)[|rm2.log.records| - 1] == LogRecords.Rollback(t);
  }
}

=== FILE: scans.dfy ===
/** Scans as a tree: `UnionScan` and `RenameScan` over child scans. A
    child that is neither (a table, select or project scan) is a `Rows`
    leaf that yields a fixed sequence of rows in order. */
module Scans {
  import opened Base
  import opened Term

  /** `pos` counts the rows consumed: 0 is before the first, `k` in
      1..|rows| is on row `k - 1`, and `|rows| + 1` is after the last. */
  datatype Scan =
    | Rows(rows: seq<Row>, pos: nat, fields: set<JString>, closed: bool)
    | Union(s1: Scan, s2: Scan, atS1: bool)
    | Rename(s: Scan, oldField: JString, newField: JString)

  /** `new UnionScan(s1, s2)`: reading from `s1` first. */
  function NewUnion(s1: Scan, s2: Scan): (u: Scan)
    ensures u.Union? && u.s1 == s1 && u.s2 == s2 && u.atS1
  {
    Union(s1, s2, true)
  }

  /** `getField`: the new name stands for the old one; every other name,
      the old one included, stays as it is. */
  function GetField(f: JString, oldField: JString, newField: JString): (g: JString)
    ensures f == newField ==> g == oldField
    ensures f != newField ==> g == f
  {
    if f == newField then oldField else f
  }

  datatype Moved = Moved(scan: Scan, found: bool)

  /** `next`. A leaf steps to its next row or past the last. A union asks
      `s1` first; once `s1` says no, it reads from `s2` and answers with
      `s2.next()`. A rename delegates. */
  function Next(s: Scan): (m: Moved)
    ensures s.Rows? ==> m.scan.Rows? && m.scan.rows == s.rows && (m.found <==> s.pos < |s.rows|)
    ensures s.Rows? && m.found ==> m.scan.pos == s.pos + 1
  {
    match s
    case Rows(rows, pos, fields, closed) =>
      if pos < |rows| then Moved(Rows(rows, pos + 1, fields, closed), true)
      else Moved(Rows(rows, |rows| + 1, fields, closed), false)
    case Union(s1, s2, atS1) =>
      var m1 := Next(s1);
      if m1.found then Moved(Union(m1.scan, s2, atS1), true)
      else
        var m2 := Next(s2);
        Moved(Union(m1.scan, m2.scan, false), m2.found)
    case Rename(c, o, n) =>
      var m := Next(c);
      Moved(Rename(m.scan, o, n), m.found)
  }

  /** `beforeFirst`: leaves rewind; a union rewinds both children but keeps
      its pointer; a rename delegates. */
  function BeforeFirst(s: Scan): Scan {
    match s
    case Rows(rows, _, fields, closed) => Rows(rows, 0, fields, closed)
    case Union(s1, s2, atS1) => Union(BeforeFirst(s1), BeforeFirst(s2), atS1)
    case Rename(c, o, n) => Rename(BeforeFirst(c), o, n)
  }

  /** `close`: every child is closed. */
  function Close(s: Scan): (r: Scan)
    ensures AllClosed(r)
    ensures Shape(r) == Shape(s)
  {
    match s
    case Rows(rows, pos, fields, _) => Rows(rows, pos, fields, true)
    case Union(s1, s2, atS1) => Union(Close(s1), Close(s2), atS1)
    case Rename(c, o, n) => Rename(Close(c), o, n)
  }

  predicate AllClosed(s: Scan) {
    match s
    case Rows(_, _, _, closed) => closed
    case Union(s1, s2, _) => AllClosed(s1) && AllClosed(s2)
    case Rename(c, _, _) => AllClosed(c)
  }

  /** The scan with positions and flags erased: what `close` must keep. */
  function Shape(s: Scan): Scan {
    match s
    case Rows(rows, _, fields, _) => Rows(rows, 0, fields, false)
    case Union(s1, s2, _) => Union(Shape(s1), Shape(s2), true)
    case Rename(c, o, n) => Rename(Shape(c), o, n)
  }

  /** `getVal`. A leaf reads its current row (`None` off a row or for a
      missing field, where Java throws); a union reads `s1` or `s2` as its
      pointer says; a rename reads the mapped name. */
  function GetVal(s: Scan, f: JString): Option<Constant> {
    match s
    case Rows(rows, pos, _, _) =>
      if 1 <= pos <= |rows| && f in rows[pos - 1] then Some(rows[pos - 1][f]) else None
    case Union(s1, s2, atS1) => if atS1 then GetVal(s1, f) else GetVal(s2, f)
    case Rename(c, o, n) => GetVal(c, GetField(f, o, n))
  }

  /** `getInt`: the int in the field, dispatched as `getVal` is. */
  function GetInt(s: Scan, f: JString): (r: Option<Int32>)
    ensures r.Some? <==> GetVal(s, f).Some? && GetVal(s, f).value.IntC?
    ensures r.Some? ==> GetVal(s, f) == Some(IntC(r.value))
  {
    match GetVal(s, f)
    case Some(IntC(i)) => Some(i)
    case _ => None
  }

  /** `getString`, likewise. */
  function GetString(s: Scan, f: JString): (r: Option<JString>)
    ensures r.Some? <==> GetVal(s, f).Some? && GetVal(s, f).value.StrC?
    ensures r.Some? ==> GetVal(s, f) == Some(StrC(r.value))
  {
    match GetVal(s, f)
    case Some(StrC(x)) => Some(x)
    case _ => None
  }

  /** `hasField`: a union needs the field in both children; a rename asks
      for the mapped name. */
  predicate HasField(s: Scan, f: JString) {
    match s
    case Rows(_, _, fields, _) => f in fields
    case Union(s1, s2, _) => HasField(s1, f) && HasField(s2, f)
    case Rename(c, o, n) => HasField(c, GetField(f, o, n))
  }

  /** A row seen through a rename: the new name shows the old field, the
      old name stays, and a field already called by the new name is
      hidden. */
  function RenameRow(r: Row, oldField: JString, newField: JString): (v: Row)
    ensures forall f :: f in v <==> GetField(f, oldField, newField) in r
    ensures forall f :: f in v ==> v[f] == r[GetField(f, oldField, newField)]
  {
    var keys := (r.Keys - {newField}) + (if oldField in r then {newField} else {});
    map f | f in keys :: r[GetField(f, oldField, newField)]
  }

  /** The row a scan is on, as `getVal` shows it. */
  function View(s: Scan): Option<Row> {
    match s
    case Rows(rows, pos, _, _) => if 1 <= pos <= |rows| then Some(rows[pos - 1]) else None
    case Union(s1, s2, atS1) => if atS1 then View(s1) else View(s2)
    case Rename(c, o, n) =>
      match View(c)
      case None => None
      case Some(r) => Some(RenameRow(r, o, n))
  }

  /** `getVal` reads the field of the row the scan is on. */
  lemma GetValView(s: Scan, f: JString)
    ensures GetVal(s, f) == (match View(s)
                             case None => None
                             case Some(r) => if f in r then Some(r[f]) else None)
  {
    match s
    case Rows(_, _, _, _) =>
    case Union(s1, s2, atS1) =>
      if atS1 { GetValView(s1, f); } else { GetValView(s2, f); }
    case Rename(c, o, n) =>
      GetValView(c, GetField(f, o, n));
  }

  /** The rows a client sees by calling `next` until it says no, at most
      `fuel` times. */
  function Trace(s: Scan, fuel: nat): seq<Option<Row>>
    decreases fuel
  {
    if fuel == 0 then []
    else
      var m := Next(s);
      if m.found then [View(m.scan)] + Trace(m.scan, fuel - 1) else []
  }

  function RenameView(v: Option<Row>, oldField: JString, newField: JString): Option<Row> {
    match v
    case None => None
    case Some(r) => Some(RenameRow(r, oldField, newField))
  }

  /** Each row seen through a rename. */
  function RenameViews(vs: seq<Option<Row>>, oldField: JString, newField: JString): (ws: seq<Option<Row>>)
    ensures |ws| == |vs| && forall k :: 0 <= k < |vs| ==> ws[k] == RenameView(vs[k], oldField, newField)
  {
    if vs == [] then [] else [RenameView(vs[0], oldField, newField)] + RenameViews(vs[1..], oldField, newField)
  }

  /** A rename yields its child's rows, each renamed, and no others. */
  lemma {:induction false} RenameTrace(c: Scan, oldField: JString, newField: JString, fuel: nat)
    ensures Trace(Rename(c, oldField, newField), fuel) == RenameViews(Trace(c, fuel), oldField, newField)
    decreases fuel
  {
    if fuel > 0 {
      var m := Next(c);
      var rn' := Rename(m.scan, oldField, newField);
      assert Next(Rename(c, oldField, newField)) == Moved(rn', m.found);
      if m.found {
        RenameTrace(m.scan, oldField, newField, fuel - 1);
        var tc := Trace(c, fuel);
        assert tc == [View(m.scan)] + Trace(m.scan, fuel - 1);
        assert tc[1..] == Trace(m.scan, fuel - 1);
        assert Trace(Rename(c, oldField, newField), fuel) == [View(rn')] + Trace(rn', fuel - 1);
      }
    }
  }

  /** A leaf's rows as seen. */
  function Seen(rows: seq<Row>): (v: seq<Option<Row>>)
    ensures |v| == |rows| && forall k :: 0 <= k < |rows| ==> v[k] == Some(rows[k])
  {
    if rows == [] then [] else [Some(rows[0])] + Seen(rows[1..])
  }

  /** A leaf yields the rows after its position, in order. */
  lemma {:induction false} RowsTrace(rows: seq<Row>, pos: nat, fields: set<JString>, closed: bool, fuel: nat)
    requires pos <= |rows| && fuel > |rows| - pos
    ensures Trace(Rows(rows, pos, fields, closed), fuel) == Seen(rows[pos..])
    decreases |rows| - pos
  {
    if pos < |rows| {
      RowsTrace(rows, pos + 1, fields, closed, fuel - 1);
      assert rows[pos..][1..] == rows[pos + 1..];
    }
  }

  /** Once past its first child, a union yields what is left of the second. */
  lemma {:induction false} UnionSecondTrace(r1: seq<Row>, f1: set<JString>, c1: bool, r2: seq<Row>, pos2: nat,
                                            f2: set<JString>, c2: bool, fuel: nat)
    requires pos2 <= |r2| && fuel > |r2| - pos2
    ensures Trace(Union(Rows(r1, |r1| + 1, f1, c1), Rows(r2, pos2, f2, c2), false), fuel) == Seen(r2[pos2..])
    decreases |r2| - pos2
  {
    if pos2 < |r2| {
      var u := Union(Rows(r1, |r1| + 1, f1, c1), Rows(r2, pos2, f2, c2), false);
      var u' := Union(Rows(r1, |r1| + 1, f1, c1), Rows(r2, pos2 + 1, f2, c2), false);
      assert Next(u) == Moved(u', true);
      assert Trace(u, fuel) == [View(u')] + Trace(u', fuel - 1);
      assert View(u') == Some(r2[pos2]);
      UnionSecondTrace(r1, f1, c1, r2, pos2 + 1, f2, c2, fuel - 1);
      assert r2[pos2..][1..] == r2[pos2 + 1..];
    }
  }

  /** A union whose first child is exhausted before its first `next`
      yields every row of the second child. */
  lemma UnionSwitchTrace(r1: seq<Row>, f1: set<JString>, c1: bool, r2: seq<Row>, f2: set<JString>, c2: bool, fuel: nat)
    requires fuel > |r2|
    ensures Trace(Union(Rows(r1, |r1|, f1, c1), Rows(r2, 0, f2, c2), true), fuel) == Seen(r2)
  {
    if |r2| > 0 {
      var u := Union(Rows(r1, |r1|, f1, c1), Rows(r2, 0, f2, c2), true);
      var u' := Union(Rows(r1, |r1| + 1, f1, c1), Rows(r2, 1, f2, c2), false);
      assert Next(u) == Moved(u', true);
      assert Trace(u, fuel) == [View(u')] + Trace(u', fuel - 1);
      assert View(u') == Some(r2[0]);
      UnionSecondTrace(r1, f1, c1, r2, 1, f2, c2, fuel - 1);
      assert Seen(r2) == [Some(r2[0])] + Seen(r2[1..]);
    }
  }

  /** A union reading its first child yields the rest of the first child,
      then every row of the second. */
  lemma {:induction false} UnionFirstTrace(r1: seq<Row>, pos1: nat, f1: set<JString>, c1: bool,
                                           r2: seq<Row>, f2: set<JString>, c2: bool, fuel: nat)
    requires pos1 <= |r1| && fuel > |r1| - pos1 + |r2|
    ensures Trace(Union(Rows(r1, pos1, f1, c1), Rows(r2, 0, f2, c2), true), fuel) == Seen(r1[pos1..] + r2)
    decreases |r1| - pos1
  {
    if pos1 < |r1| {
      UnionFirstStep(r1, pos1, f1, c1, r2, f2, c2, fuel);
      UnionFirstTrace(r1, pos1 + 1, f1, c1, r2, f2, c2, fuel - 1);
      assert (r1[pos1..] + r2)[1..] == r1[pos1 + 1..] + r2;
    } else {
      UnionSwitchTrace(r1, f1, c1, r2, f2, c2, fuel);
      assert r1[pos1..] + r2 == r2;
    }
  }

  lemma UnionFirstStep(r1: seq<Row>, pos1: nat, f1: set<JString>, c1: bool,
                       r2: seq<Row>, f2: set<JString>, c2: bool, fuel: nat)
    requires pos1 < |r1| && fuel > 0
    ensures Trace(Union(Rows(r1, pos1, f1, c1), Rows(r2, 0, f2, c2), true), fuel)
         == [Some(r1[pos1])] + Trace(Union(Rows(r1, pos1 + 1, f1, c1), Rows(r2, 0, f2, c2), true), fuel - 1)
  {
    var u := Union(Rows(r1, pos1, f1, c1), Rows(r2, 0, f2, c2), true);
    var u' := Union(Rows(r1, pos1 + 1, f1, c1), Rows(r2, 0, f2, c2), true);
    assert Next(u) == Moved(u', true);
    assert Trace(u, fuel) == [View(u')] + Trace(u', fuel - 1);
    assert View(u') == Some(r1[pos1]);
  }

  /** A fresh union of two children yields the first child's rows and then
      the second's. */
  lemma UnionConcatenates(r1: seq<Row>, f1: set<JString>, r2: seq<Row>, f2: set<JString>)
    ensures Trace(NewUnion(Rows(r1, 0, f1, false), Rows(r2, 0, f2, false)), |r1| + |r2| + 1) == Seen(r1 + r2)
  {
    UnionFirstTrace(r1, 0, f1, false, r2, f2, false, |r1| + |r2| + 1);
    assert r1[0..] == r1;
  }

  /** As written: a union that has run through its first child and is
      rewound with `beforeFirst` keeps reading from `s2`. Its next `next`
      advances `s1` onto its first row and says yes, yet every field reads
      from the rewound `s2`, which is on no row. */
  lemma RewoundUnionReadsSecond(r1: seq<Row>, f1: set<JString>, r2: seq<Row>, f2: set<JString>, f: JString)
    requires |r1| > 0 && f in r1[0]
    ensures var drained := Union(Rows(r1, |r1| + 1, f1, false), Rows(r2, |r2| + 1, f2, false), false);
      var m := Next(BeforeFirst(drained));
      && !Next(drained).found
      && m.found
      && GetVal(m.scan, f) == None
      && GetVal(m.scan.s1, f) == Some(r1[0][f])
  {
  }

  /** `beforeFirst` as evidently intended: it also points a union back at
      its first child. */
  function BeforeFirstFixed(s: Scan): (r: Scan)
    ensures Shape(r) == Shape(s)
  {
    match s
    case Rows(rows, _, fields, closed) => Rows(rows, 0, fields, closed)
    case Union(s1, s2, _) => Union(BeforeFirstFixed(s1), BeforeFirstFixed(s2), true)
    case Rename(c, o, n) => Rename(BeforeFirstFixed(c), o, n)
  }

  /** With the pointer reset, a rewound union yields the first child's rows
      and then the second's again, from any state. */
  lemma RewoundUnionFixed(r1: seq<Row>, p1: nat, f1: set<JString>, r2: seq<Row>, p2: nat, f2: set<JString>, atS1: bool)
    ensures Trace(BeforeFirstFixed(Union(Rows(r1, p1, f1, false), Rows(r2, p2, f2, false), atS1)), |r1| + |r2| + 1)
         == Seen(r1 + r2)
  {
    UnionConcatenates(r1, f1, r2, f2);
  }

  /** A union has a field only when both children have it; reads still go
      to one child. */
  lemma UnionHasField(s1: Scan, s2: Scan, atS1: bool, f: JString)
    ensures HasField(Union(s1, s2, atS1), f) <==> HasField(s1, f) && HasField(s2, f)
    ensures GetVal(Union(s1, s2, atS1), f) == (if atS1 then GetVal(s1, f) else GetVal(s2, f))
  {
  }
}

=== FILE: strings.dfy ===
/** `String.compareTo`, the order in which `TreeMap` sorts field names and
    string constants compare. */
module JStrings {
  import opened Base

  /** `a.compareTo(b)`: the difference of the first differing chars, or
      else the difference of the lengths. */
  function CompareTo(a: JString, b: JString): int
  {
    if |a| == 0 || |b| == 0 then |a| - |b|
    else if a[0] != b[0] then a[0] - b[0]
    else CompareTo(a[1..], b[1..])
  }

  /** `a` sorts strictly before `b`. */
  predicate Less(a: JString, b: JString) {
    CompareTo(a, b) < 0
  }

  lemma {:induction false} CompareToZero(a: JString, b: JString)
    ensures CompareTo(a, b) == 0 <==> a == b
  {
    if |a| == 0 || |b| == 0 {
    } else if a[0] != b[0] {
    } else {
      CompareToZero(a[1..], b[1..]);
      if a[1..] == b[1..] {
        assert a == [a[0]] + a[1..] && b == [b[0]] + b[1..];
      }
    }
  }

  lemma {:induction false} CompareToAntisymmetric(a: JString, b: JString)
    ensures CompareTo(a, b) == -CompareTo(b, a)
  {
    if |a| > 0 && |b| > 0 && a[0] == b[0] {
      CompareToAntisymmetric(a[1..], b[1..]);
    }
  }

  lemma {:induction false} LessTransitive(a: JString, b: JString, c: JString)
    requires Less(a, b) && Less(b, c)
    ensures Less(a, c)
  {
    if |a| == 0 || |b| == 0 || |c| == 0 {
    } else if a[0] == b[0] && b[0] == c[0] {
      LessTransitive(a[1..], b[1..], c[1..]);
    }
  }

  /** Distinct strings are ordered one way or the other. */
  lemma LessTotal(a: JString, b: JString)
    requires a != b
    ensures Less(a, b) != Less(b, a)
  {
    CompareToZero(a, b);
    CompareToAntisymmetric(a, b);
  }

  /** The pieces of `s` between occurrences of `sep`, empty pieces included. */
  function Pieces(s: JString, sep: Char16): (r: seq<JString>)
    ensures |r| > 0
    decreases |s|
  {
    if |s| == 0 then [[]]
    else
      var rest := Pieces(s[1..], sep);
      if s[0] == sep then [[]] + rest else [[s[0]] + rest[0]] + rest[1..]
  }

  function DropTrailingEmpty(r: seq<JString>): (d: seq<JString>)
    ensures |d| <= |r| && d == r[..|d|]
    ensures |d| > 0 ==> |d[|d| - 1]| > 0
  {
    if |r| > 0 && |r[|r| - 1]| == 0 then DropTrailingEmpty(r[..|r| - 1]) else r
  }

  /** `s.split(sep)` for a one-char separator that is not a regex
      metacharacter: a string without `sep` is its own only piece; otherwise
      the pieces between separators, trailing empty pieces removed. */
  function Split(s: JString, sep: Char16): (r: seq<JString>)
  {
    if sep !in s then [s] else DropTrailingEmpty(Pieces(s, sep))
  }

  /** The parts with one `sep` between each two. */
  function Join(parts: seq<JString>, sep: Char16): JString
  {
    if |parts| == 0 then []
    else if |parts| == 1 then parts[0]
    else parts[0] + [sep] + Join(parts[1..], sep)
  }

  lemma {:induction false} PiecesNoSep(a: JString, sep: Char16)
    requires sep !in a
    ensures Pieces(a, sep) == [a]
    decreases |a|
  {
    if |a| > 0 {
      PiecesNoSep(a[1..], sep);
      assert [a[0]] + a[1..] == a;
    }
  }

  lemma {:induction false} PiecesCons(a: JString, b: JString, sep: Char16)
    requires sep !in a
    ensures Pieces(a + [sep] + b, sep) == [a] + Pieces(b, sep)
    decreases |a|
  {
    var s := a + [sep] + b;
    if |a| == 0 {
      assert s[1..] == b;
    } else {
      assert s[1..] == a[1..] + [sep] + b;
      PiecesCons(a[1..], b, sep);
      assert [a[0]] + a[1..] == a;
    }
  }

  lemma {:induction false} PiecesJoin(parts: seq<JString>, sep: Char16)
    requires |parts| > 0
    requires forall k :: 0 <= k < |parts| ==> sep !in parts[k]
    ensures Pieces(Join(parts, sep), sep) == parts
  {
    if |parts| == 1 {
      PiecesNoSep(parts[0], sep);
    } else {
      PiecesJoin(parts[1..], sep);
      PiecesCons(parts[0], Join(parts[1..], sep), sep);
      assert [parts[0]] + parts[1..] == parts;
    }
  }

  /** Splitting a join of non-empty parts that do not contain the separator
      gives the parts back. */
  lemma SplitJoin(parts: seq<JString>, sep: Char16)
    requires |parts| > 0
    requires forall k :: 0 <= k < |parts| ==> |parts[k]| > 0 && sep !in parts[k]
    ensures Split(Join(parts, sep), sep) == parts
  {
    var s := Join(parts, sep);
    PiecesJoin(parts, sep);
    if sep !in s {
      PiecesNoSep(s, sep);
    }
  }
}

=== FILE: tableinfo.dfy ===
/** A table's record layout (`simpledb.record.TableInfo`): each field's byte
    offset within a record, the record length, and the null-bit position of
    each field in the record's flag word. */
module TableInfo {
  import opened Base
  import JStrings
  import Page

  /** `INTEGER`, or a string of at most `length` chars. */
  datatype FieldType = IntField | VarcharField(length: nat)

  datatype FieldInfo = FieldInfo(name: JString, ftype: FieldType)

  /** A schema: its fields in the order `fields()` hands them out. */
  datatype Schema = Schema(fields: seq<FieldInfo>)

  /** A schema names each field once. */
  predicate SchemaWf(sch: Schema) {
    forall i, j :: 0 <= i < j < |sch.fields| ==> sch.fields[i].name != sch.fields[j].name
  }

  function Names(sch: Schema): set<JString> {
    set k | 0 <= k < |sch.fields| :: sch.fields[k].name
  }

  datatype TableInfo = TableInfo(tblname: JString, schema: Schema, offsets: map<JString, int>,
                                 recordLen: int, bitLocs: map<JString, int>)

  /** `lengthInBytes`: an int takes `INT_SIZE` bytes, a string field its
      `STR_SIZE`. */
  function LengthInBytes(t: FieldType): (n: int)
    ensures n > 0
  {
    match t
    case IntField => Page.IntSize
    case VarcharField(len) => Page.StrSize(len)
  }

  /** The bytes the first `i` fields take. */
  function PrefixLength(fields: seq<FieldInfo>, i: nat): (n: int)
    requires i <= |fields|
    ensures n >= 0
  {
    if i == 0 then 0 else PrefixLength(fields, i - 1) + LengthInBytes(fields[i - 1].ftype)
  }

  /** The offset loop after its first `n` iterations: field `k` was put at
      the running position, the length of the fields before it. */
  function PutOffsets(fields: seq<FieldInfo>, n: nat): map<JString, int>
    requires n <= |fields|
  {
    if n == 0 then map[]
    else PutOffsets(fields, n - 1)[fields[n - 1].name := PrefixLength(fields, n - 1)]
  }

  /** The loop puts exactly the names of the fields it has passed. */
  lemma {:induction false} PutOffsetsKeys(fields: seq<FieldInfo>, n: nat)
    requires n <= |fields|
    ensures PutOffsets(fields, n).Keys == set k | 0 <= k < n :: fields[k].name
  {
    if n > 0 {
      PutOffsetsKeys(fields, n - 1);
      assert (set k | 0 <= k < n :: fields[k].name)
          == (set k | 0 <= k < n - 1 :: fields[k].name) + {fields[n - 1].name};
    }
  }

  /** With distinct names, each field sits at the length of the fields
      before it. */
  lemma {:induction false} PutOffsetsValues(fields: seq<FieldInfo>, n: nat)
    requires n <= |fields|
    requires forall i, j :: 0 <= i < j < |fields| ==> fields[i].name != fields[j].name
    ensures forall i {:trigger PrefixLength(fields, i)} :: 0 <= i < n ==>
      fields[i].name in PutOffsets(fields, n) && PutOffsets(fields, n)[fields[i].name] == PrefixLength(fields, i)
  {
    if n > 0 {
      PutOffsetsValues(fields, n - 1);
      var prev := PutOffsets(fields, n - 1);
      var m := prev[fields[n - 1].name := PrefixLength(fields, n - 1)];
      assert PutOffsets(fields, n) == m;
      forall i | 0 <= i < n
        ensures fields[i].name in m && m[fields[i].name] == PrefixLength(fields, i)
      {
        if i < n - 1 {
          assert fields[i].name != fields[n - 1].name;
          ghost var before := PrefixLength(fields, i);
          assert prev[fields[i].name] == before;
        }
      }
    }
  }

  /** The fields lie one after another: each ends where the next begins,
      and all within the record. */
  lemma {:induction false} FieldsDisjoint(fields: seq<FieldInfo>, i: nat, j: nat)
    requires i < j <= |fields|
    ensures PrefixLength(fields, i) + LengthInBytes(fields[i].ftype) <= PrefixLength(fields, j)
    decreases j - i
  {
    if j > i + 1 {
      FieldsDisjoint(fields, i, j - 1);
    }
  }

  /** The number of names that sort before `f`. */
  function SmallerNames(keys: set<JString>, f: JString): set<JString> {
    set g | g in keys && JStrings.Less(g, f)
  }

  /** The bit assigned to `f` when `keys` are numbered from 1 in ascending
      `compareTo` order. */
  function BitPosition(keys: set<JString>, f: JString): int {
    1 + |SmallerNames(keys, f)|
  }

  /** The bit map both constructors build: every key, numbered from 1 in
      ascending order. */
  function BitLocs(keys: set<JString>): (m: map<JString, int>)
    ensures m.Keys == keys
    ensures forall f :: f in keys ==> m[f] == BitPosition(keys, f)
  {
    map f | f in keys :: BitPosition(keys, f)
  }

  /** Every field's bit lies in 1..k; bit 0 is left for the in-use flag. */
  lemma BitPositionRange(keys: set<JString>, f: JString)
    requires f in keys
    ensures 1 <= BitPosition(keys, f) <= |keys|
  {
    JStrings.CompareToZero(f, f);
    assert f !in SmallerNames(keys, f);
    SubsetCard(SmallerNames(keys, f), keys, f);
  }

  /** A subset missing one element of the superset is smaller. */
  lemma SubsetCard<T>(a: set<T>, b: set<T>, x: T)
    requires a <= b && x in b && x !in a
    ensures |a| < |b|
  {
    assert b == a + (b - a);
    assert a * (b - a) == {};
    assert x in b - a;
  }

  lemma SmallerSubset(keys: set<JString>, f: JString, g: JString)
    requires f in keys && JStrings.Less(f, g)
    ensures SmallerNames(keys, f) < SmallerNames(keys, g)
    ensures |SmallerNames(keys, f)| < |SmallerNames(keys, g)|
  {
    forall h | h in SmallerNames(keys, f)
      ensures h in SmallerNames(keys, g)
    {
      JStrings.LessTransitive(h, f, g);
    }
    JStrings.CompareToZero(f, f);
    assert f in SmallerNames(keys, g) && f !in SmallerNames(keys, f);
    SubsetCard(SmallerNames(keys, f), SmallerNames(keys, g), f);
  }

  /** No two fields share a bit. */
  lemma BitPositionInjective(keys: set<JString>, f: JString, g: JString)
    requires f in keys && g in keys && f != g
    ensures BitPosition(keys, f) != BitPosition(keys, g)
  {
    JStrings.LessTotal(f, g);
    if JStrings.Less(f, g) {
      SmallerSubset(keys, f, g);
    } else {
      SmallerSubset(keys, g, f);
    }
  }

  /** Strictly ascending, as a `TreeMap` key set is iterated. */
  predicate Ascending(s: seq<JString>) {
    forall i, j :: 0 <= i < j < |s| ==> JStrings.Less(s[i], s[j])
  }

  function Elements(s: seq<JString>): set<JString> {
    set x | x in s
  }

  lemma {:induction false} DistinctCard(s: seq<JString>)
    requires forall i, j :: 0 <= i < j < |s| ==> s[i] != s[j]
    ensures |Elements(s)| == |s|
  {
    if |s| > 0 {
      var p := s[..|s| - 1];
      DistinctCard(p);
      assert Elements(s) == Elements(p) + {s[|s| - 1]};
      assert s[|s| - 1] !in Elements(p);
    }
  }

  /** In an ascending sequence, the names smaller than the `i`-th element
      are exactly the `i` before it. */
  lemma AscendingRank(s: seq<JString>, i: int)
    requires Ascending(s) && 0 <= i < |s|
    ensures BitPosition(Elements(s), s[i]) == i + 1
  {
    var keys := Elements(s);
    var before := Elements(s[..i]);
    forall g | g in keys
      ensures g in SmallerNames(keys, s[i]) <==> g in before
    {
      var j :| 0 <= j < |s| && s[j] == g;
      if j >= i {
        if j > i {
          JStrings.CompareToAntisymmetric(s[i], s[j]);
        }
        JStrings.CompareToZero(g, s[i]);
        assert !JStrings.Less(g, s[i]);
        forall k | 0 <= k < i
          ensures s[..i][k] != g
        {
          JStrings.CompareToZero(s[k], s[j]);
        }
      } else {
        assert s[..i][j] == g;
      }
    }
    assert before <= keys;
    assert SmallerNames(keys, s[i]) == before;
    forall a, b | 0 <= a < b < i
      ensures s[..i][a] != s[..i][b]
    {
      JStrings.CompareToZero(s[a], s[b]);
    }
    DistinctCard(s[..i]);
  }

  /** The bit-numbering loop of both constructors, over the keys in
      ascending order: it numbers them 1, 2, ... */
  method AssignBitLocs(sortedKeys: seq<JString>) returns (m: map<JString, int>)
    requires Ascending(sortedKeys)
    ensures m == BitLocs(Elements(sortedKeys))
  {
    m := map[];
    var loc := 1;
    var i := 0;
    while i < |sortedKeys|
      invariant 0 <= i <= |sortedKeys| && loc == i + 1
      invariant m.Keys == Elements(sortedKeys[..i])
      invariant forall k :: 0 <= k < i ==> m[sortedKeys[k]] == k + 1
    {
      m := m[sortedKeys[i] := loc];
      loc := loc + 1;
      i := i + 1;
      assert sortedKeys[..i] == sortedKeys[..i - 1] + [sortedKeys[i - 1]];
      forall k | 0 <= k < i - 1
        ensures sortedKeys[k] != sortedKeys[i - 1]
      {
        JStrings.CompareToZero(sortedKeys[k], sortedKeys[i - 1]);
      }
    }
    assert sortedKeys[..i] == sortedKeys;
    var keys := Elements(sortedKeys);
    forall f | f in keys
      ensures m[f] == BitPosition(keys, f)
    {
      var k :| 0 <= k < |sortedKeys| && sortedKeys[k] == f;
      AscendingRank(sortedKeys, k);
    }
  }

  /** The constructor used when a table is created: offsets from the
      offset loop, the length where it ends, bits numbered over the names. */
  function Create(tblname: JString, sch: Schema): (ti: TableInfo)
    ensures ti.tblname == tblname && ti.schema == sch
    ensures ti.recordLen == PrefixLength(sch.fields, |sch.fields|)
    ensures ti.bitLocs == BitLocs(ti.offsets.Keys)
  {
    var offsets := PutOffsets(sch.fields, |sch.fields|);
    TableInfo(tblname, sch, offsets, PrefixLength(sch.fields, |sch.fields|), BitLocs(offsets.Keys))
  }

  /** `Create` gives each field of a well-formed schema an offset, namely
      the length of the fields before it, and no other name one. */
  lemma CreateOffsets(tblname: JString, sch: Schema)
    requires SchemaWf(sch)
    ensures Create(tblname, sch).offsets.Keys == Names(sch)
    ensures forall i {:trigger PrefixLength(sch.fields, i)} :: 0 <= i < |sch.fields| ==>
      Create(tblname, sch).offsets[sch.fields[i].name] == PrefixLength(sch.fields, i)
  {
    PutOffsetsKeys(sch.fields, |sch.fields|);
    PutOffsetsValues(sch.fields, |sch.fields|);
  }

  /** The constructor used with metadata read from the catalog: the offsets
      and length as given, the bits derived from the offsets' names. */
  function FromCatalog(tblname: JString, sch: Schema, offsets: map<JString, int>, recordLen: int): (ti: TableInfo)
    ensures ti.offsets == offsets && ti.recordLen == recordLen
    ensures ti.bitLocs == BitLocs(offsets.Keys)
  {
    TableInfo(tblname, sch, offsets, recordLen, BitLocs(offsets.Keys))
  }

  /** Reading back what `Create` computed gives the same layout and bits. */
  lemma CatalogRoundTrip(tblname: JString, sch: Schema)
    requires SchemaWf(sch)
    ensures var ti := Create(tblname, sch);
      FromCatalog(tblname, sch, ti.offsets, ti.recordLen) == ti
  {
  }

  /** `".tbl"`. */
  const TableSuffix: JString := [46, 116, 98, 108]

  /** `fileName`: the table name followed by `".tbl"`. */
  function FileName(ti: TableInfo): (r: JString)
    ensures |r| == |ti.tblname| + 4
    ensures r[..|ti.tblname|] == ti.tblname && r[|ti.tblname|..] == TableSuffix
  {
    ti.tblname + TableSuffix
  }

  /** `bitPosition`: the field's bit; a name with none makes Java unbox
      `null` and throw (`None`). */
  function BitPositionOf(ti: TableInfo, f: JString): (r: Option<int>)
    ensures r.Some? <==> f in ti.bitLocs
    ensures r.Some? ==> r.value == ti.bitLocs[f]
  {
    if f in ti.bitLocs then Some(ti.bitLocs[f]) else None
  }
}

=== FILE: term.dfy ===
/** Selection terms (`simpledb.query.Term`) over constants that include the
    null constant (`simpledb.query.NullConstant`). A term compares two
    expressions, each a field name or a constant, against the current row
    of a scan. */
module Term {
  import opened Base
  import JStrings
  import Decimal

  /** `IntConstant`, `StringConstant` or `NullConstant`. */
  datatype Constant = IntC(i: Int32) | StrC(s: JString) | NullC

  /** The field values the current row of a scan shows (`getVal`). */
  type Row = map<JString, Constant>

  /** `"="`, `">"`, `"<"`, `"isnull"`. */
  const OpEq: JString := [61]
  const OpGt: JString := [62]
  const OpLt: JString := [60]
  const OpIsNull: JString := [105, 115, 110, 117, 108, 108]

  /** `"null"` and `" is null"`. */
  const NullText: JString := [110, 117, 108, 108]
  const IsNullText: JString := [32, 105, 115, 32, 110, 117, 108, 108]

  /** `c.compareTo(d)`: ints by value as `Integer.compareTo` (-1, 0 or 1),
      strings by `String.compareTo`, and the null constant equal to
      anything. An int or string against a constant of another kind is a
      failed cast (`None`). */
  function CompareConst(a: Constant, b: Constant): (r: Option<int>)
    ensures a.NullC? ==> r == Some(0)
    ensures r.None? <==> (a.IntC? && !b.IntC?) || (a.StrC? && !b.StrC?)
    ensures a.IntC? && b.IntC? ==> r.Some? && (r.value < 0 <==> a.i < b.i) && (r.value > 0 <==> a.i > b.i)
    ensures a.StrC? && b.StrC? ==> r.Some? && (r.value < 0 <==> JStrings.Less(a.s, b.s))
  {
    match a
    case NullC => Some(0)
    case IntC(x) =>
      if b.IntC? then Some(if x < b.i then -1 else if x == b.i then 0 else 1) else None
    case StrC(x) =>
      if b.StrC? then Some(JStrings.CompareTo(x, b.s)) else None
  }

  /** `c.equals(d)`: equal values of one kind; a null constant is equal
      only to itself as an object, and the parser makes a new one each
      time (`false`); an int or string against another kind is a failed
      cast (`None`). */
  function ConstEquals(a: Constant, b: Constant): (r: Option<bool>)
    ensures r.None? <==> CompareConst(a, b).None?
    ensures r == Some(true) ==> a == b && !a.NullC?
    ensures a == b && !a.NullC? ==> r == Some(true)
  {
    match a
    case NullC => Some(false)
    case IntC(x) => if b.IntC? then Some(x == b.i) else None
    case StrC(x) => if b.StrC? then Some(x == b.s) else None
  }

  /** `c.toString()`: the decimal digits, the string itself, or `"null"`.
      An int's text parses back to the int. */
  function ConstToString(c: Constant): (r: JString)
    ensures c.IntC? ==> Decimal.ParseInt(r) == Some(c.i)
  {
    match c
    case IntC(x) => Decimal.ParseIntToString(x); Decimal.IntToString(x)
    case StrC(x) => x
    case NullC => NullText
  }

  /** `FieldNameExpression` or `ConstantExpression`. */
  datatype Expression = FieldExpr(name: JString) | ConstExpr(c: Constant)

  /** `evaluate(s)`: the field's value in the current row, or the constant.
      A field the scan does not have makes `getVal` throw (`None`). */
  function Evaluate(e: Expression, row: Row): (r: Option<Constant>)
    ensures r.None? <==> e.FieldExpr? && e.name !in row
  {
    match e
    case FieldExpr(f) => if f in row then Some(row[f]) else None
    case ConstExpr(c) => Some(c)
  }

  /** `appliesTo(sch)`: a field must be in the schema; a constant always
      applies. */
  predicate ExprAppliesTo(e: Expression, sch: set<JString>) {
    e.FieldExpr? ==> e.name in sch
  }

  function ExprToString(e: Expression): JString {
    match e
    case FieldExpr(f) => f
    case ConstExpr(c) => ConstToString(c)
  }

  datatype Term = Term(lhs: Expression, op: JString, rhs: Expression)

  /** The two-argument constructor: an equality term. */
  function Equality(lhs: Expression, rhs: Expression): (t: Term)
    ensures t.op == OpEq && t.lhs == lhs && t.rhs == rhs
  {
    Term(lhs, OpEq, rhs)
  }

  /** `isSatisfied(s)` against the current row: an `isnull` term holds when
      its left side is the null constant; any other term with a null side
      fails, and otherwise `">"` and `"<"` compare, and every other operator
      tests equality. `None` where Java throws. */
  function IsSatisfied(t: Term, row: Row): (r: Option<bool>)
    ensures t.op == OpIsNull ==> r == (match Evaluate(t.lhs, row)
                                       case None => None
                                       case Some(c) => Some(c.NullC?))
    ensures (t.op != OpIsNull && Evaluate(t.lhs, row).Some? && Evaluate(t.rhs, row).Some?
             && (Evaluate(t.lhs, row).value.NullC? || Evaluate(t.rhs, row).value.NullC?)) ==> r == Some(false)
    ensures r.Some? ==> Evaluate(t.lhs, row).Some?
    ensures r.Some? && t.op != OpIsNull ==> Evaluate(t.rhs, row).Some?
  {
    match Evaluate(t.lhs, row)
    case None => None
    case Some(l) =>
      if t.op == OpIsNull then Some(l.NullC?)
      else match Evaluate(t.rhs, row)
        case None => None
        case Some(rv) =>
          if l.NullC? || rv.NullC? then Some(false)
          else match CompareConst(l, rv)
            case None => None
            case Some(cmp) => Some(if t.op == OpGt then cmp > 0 else if t.op == OpLt then cmp < 0 else cmp == 0)
  }

  /** An `isnull` term never looks at its right side. */
  lemma IsNullIgnoresRhs(lhs: Expression, rhs1: Expression, rhs2: Expression, row: Row)
    ensures IsSatisfied(Term(lhs, OpIsNull, rhs1), row) == IsSatisfied(Term(lhs, OpIsNull, rhs2), row)
  {
  }

  /** On ints, `">"`, `"<"` and `"="` are the integer orders. */
  lemma SatisfiedInts(a: Int32, op: JString, b: Int32, row: Row)
    requires op != OpIsNull
    ensures IsSatisfied(Term(ConstExpr(IntC(a)), op, ConstExpr(IntC(b))), row)
         == Some(if op == OpGt then a > b else if op == OpLt then a < b else a == b)
  {
  }

  /** On strings, `">"`, `"<"` and `"="` are `compareTo`'s order. */
  lemma SatisfiedStrings(a: JString, op: JString, b: JString, row: Row)
    requires op != OpIsNull
    ensures IsSatisfied(Term(ConstExpr(StrC(a)), op, ConstExpr(StrC(b))), row)
         == Some(if op == OpGt then JStrings.Less(b, a) else if op == OpLt then JStrings.Less(a, b) else a == b)
  {
    JStrings.CompareToZero(a, b);
    JStrings.CompareToAntisymmetric(a, b);
  }

  /** `a > b` holds exactly when `b < a` does. */
  lemma GreaterIsFlippedLess(a: Expression, b: Expression, row: Row)
    ensures IsSatisfied(Term(a, OpGt, b), row) == IsSatisfied(Term(b, OpLt, a), row)
  {
    match (Evaluate(a, row), Evaluate(b, row))
    case (Some(StrC(x)), Some(StrC(y))) =>
      JStrings.CompareToAntisymmetric(x, y);
    case _ =>
  }

  /** An operator other than `">"`, `"<"` and `"isnull"` tests equality. */
  lemma OtherOpsAreEquality(lhs: Expression, op: JString, rhs: Expression, row: Row)
    requires op != OpGt && op != OpLt && op != OpIsNull
    ensures IsSatisfied(Term(lhs, op, rhs), row) == IsSatisfied(Equality(lhs, rhs), row)
  {
  }

  /** `equatesWithConstant(F)`: `c` for an `"="` term `F=c` or `c=F`, the
      left-hand shape taking precedence; else `null` (`None`). */
  function EquatesWithConstant(t: Term, f: JString): (r: Option<Constant>)
    ensures r.Some? <==> t.op == OpEq && ((t.lhs == FieldExpr(f) && t.rhs.ConstExpr?) || (t.rhs == FieldExpr(f) && t.lhs.ConstExpr?))
    ensures r.Some? ==> ConstExpr(r.value) in {t.lhs, t.rhs}
  {
    if t.op == OpEq then
      if t.lhs.FieldExpr? && t.lhs.name == f && t.rhs.ConstExpr? then Some(t.rhs.c)
      else if t.rhs.FieldExpr? && t.rhs.name == f && t.lhs.ConstExpr? then Some(t.lhs.c)
      else None
    else None
  }

  /** `equatesWithField(F)`: `G` for an `"="` term `F=G` or `G=F`; else
      `null` (`None`). */
  function EquatesWithField(t: Term, f: JString): (r: Option<JString>)
    ensures r.Some? <==> t.op == OpEq && ((t.lhs == FieldExpr(f) && t.rhs.FieldExpr?) || (t.rhs == FieldExpr(f) && t.lhs.FieldExpr?))
    ensures r.Some? ==> FieldExpr(r.value) in {t.lhs, t.rhs}
  {
    if t.op == OpEq then
      if t.lhs.FieldExpr? && t.lhs.name == f && t.rhs.FieldExpr? then Some(t.rhs.name)
      else if t.rhs.FieldExpr? && t.rhs.name == f && t.lhs.FieldExpr? then Some(t.lhs.name)
      else None
    else None
  }

  /** Equal comparison means equal constants. */
  lemma CompareZeroEqual(a: Constant, b: Constant)
    requires !a.NullC? && CompareConst(a, b) == Some(0)
    ensures a == b
  {
    if a.StrC? {
      JStrings.CompareToZero(a.s, b.s);
    }
  }

  /** A row that satisfies `F=c` has `c` in `F`: what the planner relies on
      when it uses `equatesWithConstant` to pick an index lookup. */
  lemma EquatesWithConstantSound(t: Term, f: JString, row: Row)
    requires EquatesWithConstant(t, f).Some? && IsSatisfied(t, row) == Some(true)
    ensures f in row && row[f] == EquatesWithConstant(t, f).value
  {
    var l := Evaluate(t.lhs, row).value;
    var r := Evaluate(t.rhs, row).value;
    CompareZeroEqual(l, r);
  }

  /** A row that satisfies `F=G` has equal values in `F` and `G`. */
  lemma EquatesWithFieldSound(t: Term, f: JString, row: Row)
    requires EquatesWithField(t, f).Some? && IsSatisfied(t, row) == Some(true)
    ensures f in row && EquatesWithField(t, f).value in row && row[f] == row[EquatesWithField(t, f).value]
  {
    var l := Evaluate(t.lhs, row).value;
    var r := Evaluate(t.rhs, row).value;
    CompareZeroEqual(l, r);
  }

  /** `appliesTo(sch)`: only the left side for `isnull`, else both sides. */
  predicate AppliesTo(t: Term, sch: set<JString>) {
    if t.op == OpIsNull then ExprAppliesTo(t.lhs, sch)
    else ExprAppliesTo(t.lhs, sch) && ExprAppliesTo(t.rhs, sch)
  }

  /** A term that applies to a schema can be evaluated on any row with
      those fields: it fails only by comparing an int with a string. */
  lemma AppliesToEvaluates(t: Term, sch: set<JString>, row: Row)
    requires AppliesTo(t, sch) && sch <= row.Keys
    ensures IsSatisfied(t, row).None? ==>
      && t.op != OpIsNull
      && CompareConst(Evaluate(t.lhs, row).value, Evaluate(t.rhs, row).value).None?
  {
  }

  /** `toString`: `lhs op rhs` with no spaces, or `lhs is null`. */
  function ToString(t: Term): (s: JString)
    ensures |s| >= |ExprToString(t.lhs)|
    ensures s[..|ExprToString(t.lhs)|] == ExprToString(t.lhs)
    ensures t.op == OpIsNull ==> s[|ExprToString(t.lhs)|..] == IsNullText
    ensures t.op != OpIsNull ==> s[|ExprToString(t.lhs)|..] == t.op + ExprToString(t.rhs)
  {
    if t.op == OpIsNull then ExprToString(t.lhs) + IsNullText
    else ExprToString(t.lhs) + t.op + ExprToString(t.rhs)
  }

  /** The estimate before it is scaled by the operator (`value`): the
      larger distinct count of two fields, the count of the one field, or
      for two constants 1 if equal and `MAX_VALUE` if not. `None` where the
      constants' `equals` throws. */
  function RfValue(t: Term, distinct: JString -> Int32): (r: Option<Int32>)
    ensures t.lhs.FieldExpr? && t.rhs.FieldExpr? ==>
      r.Some? && r.value >= distinct(t.lhs.name) && r.value >= distinct(t.rhs.name)
      && (r.value == distinct(t.lhs.name) || r.value == distinct(t.rhs.name))
    ensures t.lhs.FieldExpr? && !t.rhs.FieldExpr? ==> r == Some(distinct(t.lhs.name))
    ensures !t.lhs.FieldExpr? && t.rhs.FieldExpr? ==> r == Some(distinct(t.rhs.name))
    ensures t.lhs.ConstExpr? && t.rhs.ConstExpr? ==>
      r == (match ConstEquals(t.lhs.c, t.rhs.c)
            case None => None
            case Some(eq) => Some(if eq then 1 else MaxInt))
  {
    if t.lhs.FieldExpr? && t.rhs.FieldExpr? then
      var a := distinct(t.lhs.name);
      var b := distinct(t.rhs.name);
      Some(if a >= b then a else b)
    else if t.lhs.FieldExpr? then Some(distinct(t.lhs.name))
    else if t.rhs.FieldExpr? then Some(distinct(t.rhs.name))
    else match ConstEquals(t.lhs.c, t.rhs.c)
      case None => None
      case Some(eq) => Some(if eq then 1 else MaxInt)
  }

  /** The scaled factor outside the floating-point `"="` case (`None`
      there): doubled for `">"` and `"<"`, with int wrap-around, and
      `MAX_VALUE` for every other operator. The constants' `equals` runs
      before the operator is looked at, so two constants of different
      kinds throw (`None`) whatever the operator. */
  function ReductionFactor(t: Term, distinct: JString -> Int32): (r: Option<Int32>)
    ensures RfValue(t, distinct).None? || t.op == OpEq ==> r.None?
    ensures RfValue(t, distinct).Some? && t.op != OpGt && t.op != OpLt && t.op != OpEq ==> r == Some(MaxInt)
    ensures (t.op == OpGt || t.op == OpLt) && RfValue(t, distinct).Some? ==>
      r.Some? && (r.value - 2 * RfValue(t, distinct).value) % 0x1_0000_0000 == 0
    ensures ((t.op == OpGt || t.op == OpLt) && RfValue(t, distinct).Some?
             && MinInt <= 2 * RfValue(t, distinct).value <= MaxInt) ==> r == Some(2 * RfValue(t, distinct).value)
  {
    match RfValue(t, distinct)
    case None => None
    case Some(v) =>
      if t.op == OpGt || t.op == OpLt then Some(Wrap32(v * 2))
      else if t.op == OpEq then None
      else Some(MaxInt)
  }

  /** When a term has a reduction factor: never for `"="` (floating point),
      and otherwise unless it compares two constants of different kinds. */
  lemma ReductionFactorDefined(t: Term, distinct: JString -> Int32)
    ensures ReductionFactor(t, distinct).Some? <==>
      && t.op != OpEq
      && !(t.lhs.ConstExpr? && t.rhs.ConstExpr? && CompareConst(t.lhs.c, t.rhs.c).None?)
  {
  }

  /** Doubling `MAX_VALUE` wraps: `1 < 2` gets the reduction factor -2. */
  lemma UnequalConstantsFactorWraps(distinct: JString -> Int32)
    ensures ReductionFactor(Term(ConstExpr(IntC(1)), OpLt, ConstExpr(IntC(2))), distinct) == Some(-2)
  {
  }

  /** The factor without int wrap-around: twice the estimate for `">"` and
      `"<"`, held as an unbounded integer. */
  function ReductionFactorWide(t: Term, distinct: JString -> Int32): (r: Option<int>)
    ensures r.Some? <==> ReductionFactor(t, distinct).Some?
    ensures r.Some? && MinInt <= r.value <= MaxInt ==> r == ReductionFactor(t, distinct)
    ensures r.Some? ==> Wrap32(r.value) == ReductionFactor(t, distinct).value
  {
    match RfValue(t, distinct)
    case None => None
    case Some(v) =>
      if t.op == OpGt || t.op == OpLt then Some(v * 2)
      else if t.op == OpEq then None
      else Some(MaxInt)
  }

  /** Without wrap-around, a term over fields whose distinct counts are
      positive, or over constants, has a factor of at least 1, as a
      reduction factor must: `1 < 2` gets `2 * MAX_VALUE`. */
  lemma WideFactorPositive(t: Term, distinct: JString -> Int32)
    requires t.lhs.FieldExpr? ==> distinct(t.lhs.name) >= 1
    requires t.rhs.FieldExpr? ==> distinct(t.rhs.name) >= 1
    ensures ReductionFactorWide(t, distinct).Some? ==> ReductionFactorWide(t, distinct).value >= 1
    ensures ReductionFactorWide(Term(ConstExpr(IntC(1)), OpLt, ConstExpr(IntC(2))), distinct) == Some(2 * MaxInt)
  {
  }
}

=== FILE: transaction.dfy ===
/** `simpledb.tx.Transaction`: the coordinator that numbers transactions,
    writes a non-quiescent checkpoint every fifth one, and puts the
    concurrency and recovery managers in front of every read and write.
    The state all transactions share (the id counter, the active ids, the
    lock table, the log and the data) is one `Db` value; each operation
    returns the new state and what it asked of the other components, in
    order. */
module Transaction {
  import opened Base
  import LogRecords
  import Recovery
  import RecoveryMgr
  import LockTable
  import Concurrency

  /** `CKPT_PERIOD`. */
  const CheckpointPeriod: int := 5

  /** The shared state: `nextTxNum`, the active ids `txs`, the one lock
      table, and the recovery manager's log and data. */
  datatype Db = Db(nextTxNum: int, active: seq<int>, table: LockTable.Table, rm: RecoveryMgr.Rm)

  /** One transaction: its id and its concurrency manager's record. */
  datatype Tx = Tx(txnum: int, locks: Concurrency.LockRecord)

  /** What a transaction asks of the other components. */
  datatype Event =
    | LockCall(call: Concurrency.Call)                          // the shared lock table
    | RecoveryEvent(e: RecoveryMgr.Event)                       // the recovery manager's log and buffer I/O
    | UnpinAll(txnum: int)                                      // myBuffers.unpinAll
    | BufferWrite(x: Recovery.Slot, v: Recovery.Value, txnum: int, lsn: int)  // buff.setInt / buff.setString
    | FlushAll(txnum: int)                                      // bufferMgr.flushAll
    | FileSize(fileName: JString)                               // fileMgr.size
    | PinNew(fileName: JString)                                 // myBuffers.pinNew
    | UnpinBlock(blk: Block)                                    // myBuffers.unpin

  function LockEvents(calls: seq<Concurrency.Call>): (es: seq<Event>)
    ensures |es| == |calls| && forall k :: 0 <= k < |calls| ==> es[k] == LockCall(calls[k])
  {
    seq(|calls|, k requires 0 <= k < |calls| => LockCall(calls[k]))
  }

  function RecoveryEvents(rs: seq<RecoveryMgr.Event>): (es: seq<Event>)
    ensures |es| == |rs| && forall k :: 0 <= k < |rs| ==> es[k] == RecoveryEvent(rs[k])
  {
    seq(|rs|, k requires 0 <= k < |rs| => RecoveryEvent(rs[k]))
  }

  /** The state before any transaction: the counter at 0, nobody active,
      no locks. */
  function Initial(rm: RecoveryMgr.Rm): (db: Db)
    ensures db.nextTxNum == 0 && |db.active| == 0 && |db.table| == 0
  {
    Db(0, [], map[], rm)
  }

  /** The active ids are distinct ids the counter has handed out. */
  predicate Wf(db: Db) {
    && RecoveryMgr.LogWf(db.rm.log)
    && db.nextTxNum >= 0
    && (forall k :: 0 <= k < |db.active| ==> 1 <= db.active[k] <= db.nextTxNum)
    && Distinct(db.active)
  }

  /** The outcome of the constructor: the shared state afterwards, the new
      transaction (`None` when the constructor throws), and the log appends. */
  datatype Begun = Begun(db: Db, tx: Option<Tx>, events: seq<Event>)

  /** `new Transaction()`: takes the next id; when it is a multiple of
      `CheckpointPeriod`, first logs an NQ checkpoint listing the active ids
      (which throws when there are none, after the counter has moved on);
      then joins the active ids and logs its START. */
  function Begin(db: Db): (r: Begun)
    requires RecoveryMgr.LogWf(db.rm.log)
    ensures RecoveryMgr.LogWf(r.db.rm.log)
    ensures r.db.nextTxNum == db.nextTxNum + 1
    ensures r.db.table == db.table && r.db.rm.store == db.rm.store && r.db.rm.log.durable == db.rm.log.durable
    ensures var id := db.nextTxNum + 1;
      && (r.tx.None? <==> id % CheckpointPeriod == 0 && |db.active| == 0)
      && (r.tx.None? ==> r.db == db.(nextTxNum := id) && r.events == [])
      && (r.tx.Some? ==>
        var ckpt := if id % CheckpointPeriod == 0 then [LogRecords.NQCheckpoint(db.active)] else [];
        && r.tx.value == Tx(id, Concurrency.New(id))
        && r.db.active == db.active + [id]
        && r.db.rm.log.records == db.rm.log.records + ckpt + [LogRecords.Start(id)]
        && |r.events| == |ckpt| + 1
        && (forall k :: 0 <= k < |r.events| ==>
              && r.events[k].RecoveryEvent? && r.events[k].e.LogAppend?
              && r.events[k].e.lsn == |db.rm.log.records| + k
              && r.events[k].e.rec == (ckpt + [LogRecords.Start(id)])[k]))
  {
    var id := db.nextTxNum + 1;
    var db1 := db.(nextTxNum := id);
    var ck := if id % CheckpointPeriod == 0 then RecoveryMgr.NQCheckpoint(db.rm, db.active) else Some(db.rm);
    if ck.None? then Begun(db1, None, [])
    else
      var ckEvents := if id % CheckpointPeriod == 0
        then [RecoveryEvent(RecoveryMgr.LogAppend(LogRecords.NQCheckpoint(db.active), |db.rm.log.records|))]
        else [];
      var (rm, startEvents) := RecoveryMgr.Begin(ck.value, id);
      Begun(db1.(active := db.active + [id], rm := rm), Some(Tx(id, Concurrency.New(id))), ckEvents + RecoveryEvents(startEvents))
  }

  /** A new transaction's id is fresh: it is not among the active ids, and
      the shared state stays well formed. */
  lemma BeginFresh(db: Db)
    requires Wf(db)
    ensures Wf(Begin(db).db)
    ensures Begin(db).tx.Some? ==> Begin(db).tx.value.txnum !in db.active
  {
    var r := Begin(db);
    if r.tx.Some? {
      forall k | 0 <= k < |r.db.active|
        ensures 1 <= r.db.active[k] <= r.db.nextTxNum
      {
        if k < |db.active| {
          assert r.db.active[k] == db.active[k];
        } else {
          assert r.db.active[k] == db.nextTxNum + 1;
        }
      }
    }
  }

  /** Ids come from the counter: a transaction's id is one more than the
      last id handed out, so two transactions begun in a row get
      consecutive ids. */
  lemma IdsConsecutive(db: Db)
    requires RecoveryMgr.LogWf(db.rm.log)
    ensures Begin(db).tx.Some? ==> Begin(db).tx.value.txnum == db.nextTxNum + 1
    ensures var b1 := Begin(db);
      var b2 := Begin(b1.db);
      b1.tx.Some? && b2.tx.Some? ==> b2.tx.value.txnum == b1.tx.value.txnum + 1
  {
  }

  /** From the initial state the first two transactions are 1 and 2. */
  lemma IdsCount(rm: RecoveryMgr.Rm)
    requires RecoveryMgr.LogWf(rm.log)
    ensures var b1 := Begin(Initial(rm));
      && b1.tx == Some(Tx(1, Concurrency.New(1)))
      && var b2 := Begin(b1.db);
         b2.tx == Some(Tx(2, Concurrency.New(2)))
  {
  }

  /** The fifth transaction follows the NQ checkpoint of the four before it. */
  lemma FifthCheckpoints(rm: RecoveryMgr.Rm)
    requires RecoveryMgr.LogWf(rm.log)
    ensures var b1 := Begin(Initial(rm));
      var b2 := Begin(b1.db);
      var b3 := Begin(b2.db);
      var b4 := Begin(b3.db);
      var b5 := Begin(b4.db);
      && b5.tx == Some(Tx(5, Concurrency.New(5)))
      && b5.db.rm.log.records == rm.log.records +
           [LogRecords.Start(1), LogRecords.Start(2), LogRecords.Start(3), LogRecords.Start(4),
            LogRecords.NQCheckpoint([1, 2, 3, 4]), LogRecords.Start(5)]
  {
    var b4 := FourBegun(rm);
    var b5 := Begin(b4);
    assert b5.db.rm.log.records == b4.rm.log.records + [LogRecords.NQCheckpoint([1, 2, 3, 4])] + [LogRecords.Start(5)];
  }

  /** A transaction whose id is not a multiple of `CheckpointPeriod` just
      joins the active ids and logs its START. */
  lemma BegunPlain(db: Db) returns (r: Db)
    requires RecoveryMgr.LogWf(db.rm.log)
    requires (db.nextTxNum + 1) % CheckpointPeriod != 0
    ensures r == Begin(db).db && RecoveryMgr.LogWf(r.rm.log)
    ensures r.nextTxNum == db.nextTxNum + 1 && r.active == db.active + [r.nextTxNum]
    ensures r.rm.log.records == db.rm.log.records + [LogRecords.Start(r.nextTxNum)]
  {
    r := Begin(db).db;
  }

  /** The state after four transactions begin. */
  lemma FourBegun(rm: RecoveryMgr.Rm) returns (b4: Db)
    requires RecoveryMgr.LogWf(rm.log)
    ensures b4 == Begin(Begin(Begin(Begin(Initial(rm)).db).db).db).db
    ensures RecoveryMgr.LogWf(b4.rm.log) && b4.nextTxNum == 4 && b4.active == [1, 2, 3, 4]
    ensures b4.rm.log.records == rm.log.records +
      [LogRecords.Start(1), LogRecords.Start(2), LogRecords.Start(3), LogRecords.Start(4)]
  {
    var b1 := BegunPlain(Initial(rm));
    var b2 := BegunPlain(b1);
    var b3 := BegunPlain(b2);
    b4 := BegunPlain(b3);
  }

  /** A read or write: the shared state and transaction afterwards, the lock
      outcome, the value read, and the events. */
  datatype Access<T> = Access(db: Db, tx: Tx, status: Concurrency.Status, value: Option<T>, events: seq<Event>)

  /** The S-locked read shared by `getInt` and `getString`. */
  function SLocked(db: Db, tx: Tx, blk: Block): (s: Concurrency.Step)
    ensures s.cm.txnum == tx.locks.txnum
  {
    Concurrency.SLock(tx.locks, db.table, blk)
  }

  /** `getInt`: takes an S lock on the block, then reads. A refused lock
      (wait or abort) reads nothing. */
  function GetInt(db: Db, tx: Tx, blk: Block, offset: int): (r: Access<int>)
    ensures var s := Concurrency.SLock(tx.locks, db.table, blk);
      && r.db == db.(table := s.table) && r.tx == tx.(locks := s.cm)
      && r.status == s.status && r.events == LockEvents(s.calls)
      && (r.status == Concurrency.Granted <==> r.value.Some?)
      && (r.value.Some? ==> r.value.value == Recovery.GetInt(db.rm.store, blk, offset))
  {
    var s := SLocked(db, tx, blk);
    var v := if s.status == Concurrency.Granted then Some(Recovery.GetInt(db.rm.store, blk, offset)) else None;
    Access(db.(table := s.table), tx.(locks := s.cm), s.status, v, LockEvents(s.calls))
  }

  /** `getString`: as `getInt`. */
  function GetString(db: Db, tx: Tx, blk: Block, offset: int): (r: Access<JString>)
    ensures var s := Concurrency.SLock(tx.locks, db.table, blk);
      && r.db == db.(table := s.table) && r.tx == tx.(locks := s.cm)
      && r.status == s.status && r.events == LockEvents(s.calls)
      && (r.status == Concurrency.Granted <==> r.value.Some?)
      && (r.value.Some? ==> r.value.value == Recovery.GetString(db.rm.store, blk, offset))
  {
    var s := SLocked(db, tx, blk);
    var v := if s.status == Concurrency.Granted then Some(Recovery.GetString(db.rm.store, blk, offset)) else None;
    Access(db.(table := s.table), tx.(locks := s.cm), s.status, v, LockEvents(s.calls))
  }

  /** The X-locked write shared by `setInt` and `setString`: the lock, then
      the recovery manager logs the old value, then the buffer takes the new
      one tagged with the transaction and the record's lsn (-1 for a
      temporary file). */
  function Set(db: Db, tx: Tx, w: RecoveryMgr.Write): (r: Access<int>)
    requires RecoveryMgr.LogWf(db.rm.log)
    requires w.txnum == tx.locks.txnum
    ensures RecoveryMgr.LogWf(r.db.rm.log)
    ensures var s := Concurrency.XLock(tx.locks, db.table, w.x.blk);
      && r.tx == tx.(locks := s.cm) && r.db.table == s.table && r.status == s.status
      && r.db.nextTxNum == db.nextTxNum && r.db.active == db.active
      && (r.status != Concurrency.Granted ==> r.db.rm == db.rm && r.events == LockEvents(s.calls) && r.value.None?)
      && (r.status == Concurrency.Granted ==>
        var temp := RecoveryMgr.IsTempBlock(w.x.blk);
        var lsn := if temp then -1 else |db.rm.log.records|;
        && r.db.rm == RecoveryMgr.LogAndWrite(db.rm, w)
        && r.value == Some(lsn)
        && r.events == LockEvents(s.calls) +
             (if temp then [] else [RecoveryEvent(RecoveryMgr.LogAppend(r.db.rm.log.records[lsn], lsn))]) +
             [BufferWrite(w.x, w.v, w.txnum, lsn)])
  {
    var s := Concurrency.XLock(tx.locks, db.table, w.x.blk);
    if s.status != Concurrency.Granted then
      Access(db.(table := s.table), tx.(locks := s.cm), s.status, None, LockEvents(s.calls))
    else
      var temp := RecoveryMgr.IsTempBlock(w.x.blk);
      var lsn := if temp then -1 else |db.rm.log.records|;
      var rm := RecoveryMgr.LogAndWrite(db.rm, w);
      var logged := if temp then [] else [RecoveryEvent(RecoveryMgr.LogAppend(rm.log.records[lsn], lsn))];
      Access(db.(table := s.table, rm := rm), tx.(locks := s.cm), s.status, Some(lsn),
             LockEvents(s.calls) + logged + [BufferWrite(w.x, w.v, w.txnum, lsn)])
  }

  /** `setInt`: returns the lsn the write was tagged with. */
  function SetInt(db: Db, tx: Tx, blk: Block, offset: int, val: Int32): (r: Access<int>)
    requires RecoveryMgr.LogWf(db.rm.log)
    ensures RecoveryMgr.LogWf(r.db.rm.log)
    ensures r.status == Concurrency.Granted ==>
      && Concurrency.HasXLock(r.tx.locks, blk)
      && Recovery.Get(r.db.rm.store, Recovery.Slot(blk, offset, false)) == Recovery.IntVal(val)
      && (RecoveryMgr.IsTempBlock(blk) <==> r.db.rm.log == db.rm.log)
    ensures r.status != Concurrency.Granted ==> r.db.rm == db.rm
  {
    var w := RecoveryMgr.Write(tx.locks.txnum, Recovery.Slot(blk, offset, false), Recovery.IntVal(val));
    Set(db, tx, w)
  }

  /** `setString`: as `setInt`. */
  function SetString(db: Db, tx: Tx, blk: Block, offset: int, val: JString): (r: Access<int>)
    requires RecoveryMgr.LogWf(db.rm.log)
    ensures RecoveryMgr.LogWf(r.db.rm.log)
    ensures r.status == Concurrency.Granted ==>
      && Concurrency.HasXLock(r.tx.locks, blk)
      && Recovery.Get(r.db.rm.store, Recovery.Slot(blk, offset, true)) == Recovery.StrVal(val)
      && (RecoveryMgr.IsTempBlock(blk) <==> r.db.rm.log == db.rm.log)
    ensures r.status != Concurrency.Granted ==> r.db.rm == db.rm
  {
    var w := RecoveryMgr.Write(tx.locks.txnum, Recovery.Slot(blk, offset, true), Recovery.StrVal(val));
    Set(db, tx, w)
  }

  /** Reading back one's own write: once `setInt` is granted, `getInt` of
      the same offset by the same transaction needs no lock-table call and
      returns the value written. */
  lemma SetIntGetInt(db: Db, tx: Tx, blk: Block, offset: int, val: Int32)
    requires RecoveryMgr.LogWf(db.rm.log)
    requires SetInt(db, tx, blk, offset, val).status == Concurrency.Granted
    ensures var w := SetInt(db, tx, blk, offset, val);
      var g := GetInt(w.db, w.tx, blk, offset);
      g.status == Concurrency.Granted && g.events == [] && g.value == Some(val as int)
  {
  }

  lemma SetStringGetString(db: Db, tx: Tx, blk: Block, offset: int, val: JString)
    requires RecoveryMgr.LogWf(db.rm.log)
    requires SetString(db, tx, blk, offset, val).status == Concurrency.Granted
    ensures var w := SetString(db, tx, blk, offset, val);
      var g := GetString(w.db, w.tx, blk, offset);
      g.status == Concurrency.Granted && g.events == [] && g.value == Some(val)
  {
  }

  /** The outcome of `commit` and `rollback`: `ok` is false when releasing
      the locks threw part way, in which case the id stays active. */
  datatype Ended = Ended(db: Db, tx: Tx, ok: bool, events: seq<Event>)

  /** Releases the locks and, when that completes, leaves the active ids. */
  function Finish(db: Db, tx: Tx, rm: RecoveryMgr.Rm, events: seq<Event>, order: seq<Block>): (r: Ended)
    requires forall b :: b in order <==> b in tx.locks.modes
    requires forall i, j :: 0 <= i < j < |order| ==> order[i] != order[j]
  {
    var rel := Concurrency.Release(tx.locks, db.table, order);
    var active := if rel.ok then RemoveFirst(db.active, tx.locks.txnum) else db.active;
    Ended(db.(table := rel.table, rm := rm, active := active), tx.(locks := rel.cm), rel.ok, events + LockEvents(rel.calls))
  }

  /** `commit`: unpins the transaction's buffers, commits through the
      recovery manager, releases the locks (in `order`, the record's key
      order), and leaves the active ids. */
  function Commit(db: Db, tx: Tx, order: seq<Block>): (r: Ended)
    requires RecoveryMgr.LogWf(db.rm.log)
    requires forall b :: b in order <==> b in tx.locks.modes
    requires forall i, j :: 0 <= i < j < |order| ==> order[i] != order[j]
    ensures var (rm, rEvents) := RecoveryMgr.Commit(db.rm, tx.locks.txnum);
      var rel := Concurrency.Release(tx.locks, db.table, order);
      && r.db.rm == rm && r.db.table == rel.table && r.tx.locks == rel.cm && r.ok == rel.ok
      && r.events == [UnpinAll(tx.locks.txnum)] + RecoveryEvents(rEvents) + LockEvents(rel.calls)
      && r.db.active == (if rel.ok then RemoveFirst(db.active, tx.locks.txnum) else db.active)
    ensures LogRecords.Commit(tx.locks.txnum) in RecoveryMgr.Durable(r.db.rm.log)
  {
    var (rm, rEvents) := RecoveryMgr.Commit(db.rm, tx.locks.txnum);
    assert RecoveryMgr.Durable(rm.log)[|db.rm.log.records|] == LogRecords.Commit(tx.locks.txnum);
    Finish(db, tx, rm, [UnpinAll(tx.locks.txnum)] + RecoveryEvents(rEvents), order)
  }

  /** `rollback`: as `commit`, with the recovery manager's rollback. */
  function Rollback(db: Db, tx: Tx, order: seq<Block>): (r: Ended)
    requires RecoveryMgr.LogWf(db.rm.log)
    requires forall b :: b in order <==> b in tx.locks.modes
    requires forall i, j :: 0 <= i < j < |order| ==> order[i] != order[j]
    ensures var (rm, rEvents) := RecoveryMgr.Rollback(db.rm, tx.locks.txnum);
      var rel := Concurrency.Release(tx.locks, db.table, order);
      && r.db.rm == rm && r.db.table == rel.table && r.tx.locks == rel.cm && r.ok == rel.ok
      && r.events == [UnpinAll(tx.locks.txnum)] + RecoveryEvents(rEvents) + LockEvents(rel.calls)
      && r.db.active == (if rel.ok then RemoveFirst(db.active, tx.locks.txnum) else db.active)
    ensures LogRecords.Rollback(tx.locks.txnum) in RecoveryMgr.Durable(r.db.rm.log)
  {
    var (rm, rEvents) := RecoveryMgr.Rollback(db.rm, tx.locks.txnum);
    assert RecoveryMgr.Durable(rm.log)[|db.rm.log.records|] == LogRecords.Rollback(tx.locks.txnum);
    Finish(db, tx, rm, [UnpinAll(tx.locks.txnum)] + RecoveryEvents(rEvents), order)
  }

  /** Ending a transaction whose locks the table holds, once each, frees
      every block it locked and takes it out of the active ids. */
  lemma CommitFrees(db: Db, tx: Tx, order: seq<Block>)
    requires Wf(db)
    requires Concurrency.Holds(tx.locks, db.table)
    requires forall b :: b in tx.locks.modes ==> multiset(db.table[b])[tx.locks.txnum] <= 1
    requires forall b :: b in order <==> b in tx.locks.modes
    requires forall i, j :: 0 <= i < j < |order| ==> order[i] != order[j]
    ensures var r := Commit(db, tx, order);
      && r.ok && |r.tx.locks.modes| == 0
      && tx.locks.txnum !in r.db.active
      && forall b :: b in order && b in r.db.table ==>
           tx.locks.txnum !in r.db.table[b] && -tx.locks.txnum !in r.db.table[b]
  {
    Concurrency.ReleaseFrees(tx.locks, db.table, order);
    RemoveFirstDistinct(db.active, tx.locks.txnum);
  }

  /** `recover`: flushes the transaction's buffers, then recovers. */
  function Recover(db: Db, tx: Tx): (r: (Db, seq<Event>))
    requires RecoveryMgr.LogWf(db.rm.log)
    ensures var (rm, rEvents) := RecoveryMgr.Recover(db.rm);
      && r.0 == db.(rm := rm)
      && r.1 == [FlushAll(tx.locks.txnum)] + RecoveryEvents(rEvents)
    ensures RecoveryMgr.LogWf(r.0.rm.log)
    ensures r.0.rm.log.records[|db.rm.log.records|] == LogRecords.Checkpoint && RecoveryMgr.Durable(r.0.rm.log) == r.0.rm.log.records
  {
    var (rm, rEvents) := RecoveryMgr.Recover(db.rm);
    (db.(rm := rm), [FlushAll(tx.locks.txnum)] + RecoveryEvents(rEvents))
  }

  /** The block a file's end stands for in the lock table. */
  function EndOfFile(fileName: JString): (b: Block)
    ensures b.fileName == fileName && b.number == -1
  {
    Block(fileName, -1)
  }

  /** `size`: an S lock on the end of the file, then the file manager's
      count (`fileSize`). */
  function Size(db: Db, tx: Tx, fileName: JString, fileSize: int): (r: Access<int>)
    ensures var s := Concurrency.SLock(tx.locks, db.table, EndOfFile(fileName));
      && r.db == db.(table := s.table) && r.tx == tx.(locks := s.cm) && r.status == s.status
      && (r.status == Concurrency.Granted ==> r.value == Some(fileSize) && r.events == LockEvents(s.calls) + [FileSize(fileName)])
      && (r.status != Concurrency.Granted ==> r.value.None? && r.events == LockEvents(s.calls))
  {
    var s := Concurrency.SLock(tx.locks, db.table, EndOfFile(fileName));
    if s.status == Concurrency.Granted then
      Access(db.(table := s.table), tx.(locks := s.cm), s.status, Some(fileSize), LockEvents(s.calls) + [FileSize(fileName)])
    else
      Access(db.(table := s.table), tx.(locks := s.cm), s.status, None, LockEvents(s.calls))
  }

  /** `append`: an X lock on the end of the file, then a new block is pinned
      (the file manager numbers it `blockNum`) and unpinned, and returned. */
  function Append(db: Db, tx: Tx, fileName: JString, blockNum: int): (r: Access<Block>)
    ensures var s := Concurrency.XLock(tx.locks, db.table, EndOfFile(fileName));
      && r.db == db.(table := s.table) && r.tx == tx.(locks := s.cm) && r.status == s.status
      && (r.status == Concurrency.Granted ==>
            && r.value == Some(Block(fileName, blockNum))
            && r.events == LockEvents(s.calls) + [PinNew(fileName), UnpinBlock(Block(fileName, blockNum))])
      && (r.status != Concurrency.Granted ==> r.value.None? && r.events == LockEvents(s.calls))
    ensures r.status == Concurrency.Granted ==> Concurrency.HasXLock(r.tx.locks, EndOfFile(fileName))
  {
    var s := Concurrency.XLock(tx.locks, db.table, EndOfFile(fileName));
    if s.status == Concurrency.Granted then
      var blk := Block(fileName, blockNum);
      Access(db.(table := s.table), tx.(locks := s.cm), s.status, Some(blk), LockEvents(s.calls) + [PinNew(fileName), UnpinBlock(blk)])
    else
      Access(db.(table := s.table), tx.(locks := s.cm), s.status, None, LockEvents(s.calls))
  }

  /** While one transaction holds the X lock on a file's end, another
      cannot be granted `size` or `append` on that file. */
  lemma AppendExcludesSize(table: LockTable.Table, t: int, u: Tx, fileName: JString, fileSize: int, db: Db)
    requires LockTable.Shape(table) && db.table == table
    requires t != u.locks.txnum && 0 < t && 0 < u.locks.txnum
    requires EndOfFile(fileName) in table && -t in table[EndOfFile(fileName)]
    requires EndOfFile(fileName) !in u.locks.modes
    ensures Size(db, u, fileName, fileSize).status != Concurrency.Granted
  {
    var b := EndOfFile(fileName);
    assert table[b][1] == -t;
  }
}
